=== FILE: README.md ===
# Mechanic task farm: a Dafny model of its core bookkeeping

Mechanic is an MPI task-farm framework. A run is a sequence of *pools*. Each pool is a board of task cells plus a set of data *banks*. Each bank is described by a *schema*: rank, dims, datatype, mapping policy, sync and use_hdf flags. A coordinator (rank 0) hands tasks out to workers (ranks 1..mpi_size-1). It stages their results in a *checkpoint* window and flushes the window into the pool-wide buffers and the HDF5 file.

This project models the integer bookkeeping of that machinery, with MPI and HDF5 removed, and proves properties of the model:

- the storage-layout engine: schema checks and fix-ups, element counts, used-bank counts, the mapping-policy shape rule, and the write plan;
- the checkpoint engine: window sizing, row width, reset, the per-policy offset law, the windowed copy and the column cursor;
- generational backup rotation, over an abstract name-to-blob store;
- the Pack/Unpack wire codec;
- the coordinator loop as a state machine, and the worker step;
- pool naming, pool preparation and restart selection;
- the pure logic of the legacy farm skeleton, the default module and the GA module.

Each file is one module, following the source's structure:

| file | module | models |
|---|---|---|
| wrappers.dfy | Wrappers | Option / Result |
| cint.dfy | CInt | C's truncating `/` and `%`, 32-bit range |
| defs.dfy | Defs | constants |
| public.dfy | Public | src/core/MPublic.c |
| storage.dfy | Storage | src/core/MStorage.c |
| checkpoint.dfy | Checkpoint | src/core/MCheckpoint.c: CheckpointLoad, CheckpointProcess, CheckpointReset |
| decimal.dfy, backup.dfy | Decimal, Backup | src/core/MCheckpoint.c Backup, and `%02d` / `%04d` rendering |
| codec.dfy | Codec | src/core/MMpi.c |
| master.dfy | Master | src/modes/taskfarm/Master.c |
| worker.dfy | Worker | src/modes/taskfarm/Worker.c |
| pool.dfy | Pool | src/core/MPool.c |
| restart.dfy | Restart | src/core/MRestart.c |
| farmskel.dfy | FarmSkel | src/mpifarm_skel.c |
| defaultmodule.dfy | DefaultModule | src/modules/default/mechanic_module_default.c |
| ga.dfy | GA | src/modules/mechanic_module_ga.c |

Conventions:

- **Constants.** MAX_RANK = 2, POOL_FINALIZE = 0 and POOL_CREATE_NEW = 1 are those of src/core/MMechanic2.h. The task states, the message tags and the storage types have placeholder values, distinct except STORAGE_BASIC, which is STORAGE_GROUP (see Version skew); the task states are negative, so they never equal a task id. The proofs use only these equalities and distinctions.
- **Errors.** Where the source calls `Error()`/`Abort()`, the model returns a `Result` failure or an `Aborted` phase.
- **Oracles.** Randomness, `GetNewTask` and the user hooks are parameters.

## Model

| member | source | states |
|---|---|---|
| Public.GetSizeIsProduct | src/core/MPublic.c:73-82 | GetSize is the product of dims[0..rank-1] for rank >= 1, and dims[0] for rank <= 1 |
| Public.GetSizePositive | src/core/MPublic.c:73-82 | positive used dims give a positive element count |
| Public.AllocateBuffer | src/core/MPublic.c:95-110 | NULL exactly when the element count is not positive (or dims[0] is not); otherwise a zero-filled block of GetSize elements with dims[0] row starts |
| Public.RowsPartitionBlock | src/core/MPublic.c:102-106 | for rank 2 the rows are in bounds, pairwise disjoint and cover every element of the block exactly once |
| Public.RowStartsPartition | src/core/MPublic.c:105 | rows starting at i*dims[1] are in bounds, ordered without overlap, and every flat index k lies in row k / dims[1] |
| Storage.FirstBadDim | src/core/MStorage.c:129-134 | finds the first used dim that is not positive, or none exactly when all are positive |
| Storage.CheckBank | src/core/MStorage.c:117-170 | succeeds iff rank in (1, MAX_RANK], used dims > 0, datatype > 0, storage type >= 0 and a use_hdf bank has a path; rank errors in source order; a use_hdf bank gets SIMPLE dataspace, zero offsets and sync 1, any other keeps them; elements = GetSize > 0 and size = elements * datatype size; user fields unchanged |
| Storage.CheckBankIdempotent | src/core/MStorage.c:115-173 | checking a checked bank yields the same bank |
| Storage.FirstInvalid | src/core/MStorage.c:117 | the first invalid bank below `banks`, or none exactly when all are valid |
| Storage.CheckBanks | src/core/MStorage.c:117-171 | succeeds iff no bank below `banks` is invalid; then each output is that bank's checked form; on failure the error is the first invalid bank's |
| Storage.CheckLayout | src/core/MStorage.c:115-173 | succeeds iff every bank below `banks` is valid; checked banks replace them, banks past `banks` are unchanged; a failure carries the first invalid bank's error |
| Storage.CheckLayoutIdempotent | src/core/MStorage.c:115-173 | CheckLayout of its own output gives an identical layout |
| Storage.GetBanks | src/core/MStorage.c:357-368 | returns the number of banks below allocated_banks with rank > 0, which lies in [0, allocated_banks] |
| Storage.BanksInUseBound | src/core/MStorage.c:357-368 | the used-bank count is at most the number of banks and at most allocated_banks |
| Storage.DatasetExtent | src/core/MStorage.c:311-333 | only a SIMPLE dataspace gets an extent: GROUP keeps its dims, PM3D/LIST multiply dim 0 by pool_size, BOARD multiplies both dims by the board's, other policies get none |
| Storage.ShapeRuleShared | src/core/MStorage.c:60-77 | for PM3D/LIST/BOARD the master's allocation equals the element count of the dataset extent, with the per-policy scaling of dims |
| Storage.Assemble | src/core/MStorage.c:33-92 | the pool record Storage leaves: counts, GROUP-forced pool banks, on the master zeroed task offsets and one buffer per task bank |
| Storage.StoragePool | src/core/MStorage.c:15-105 | succeeds iff board, used pool banks and used task banks are valid; an invalid board fails with its own CheckBank error; on success the board is its checked form, pool_size is GetSize of the board (positive), the bank counts are the GetBanks counts, each used pool bank is its checked form with policy GROUP, each used task bank is its checked form (with offsets [0, 0] on the master), banks past the used counts are unchanged, and the master holds one shape-rule buffer per task bank and the task table exactly when some used task bank is GROUP |
| Storage.AsWrittenPoolSizeReadsPastDims | src/core/MStorage.c:33 | a board of rank above MAX_RANK makes GetSize read dim[MAX_RANK], past the end of dims, before CheckLayout rejects the board with RankTooLarge |
| Storage.AssembledStored | src/core/MStorage.c:33-92 | when the checks succeed the board is valid, and assembling the checked layouts meets everything StoragePool promises |
| Storage.CheckedShape | src/core/MStorage.c:117-170 | a checked bank keeps policy and dims and has rank MAX_RANK |
| Storage.CommitData | src/core/MStorage.c:379-432 | writes exactly the banks below `banks` with use_hdf and positive size, in increasing order; a GROUP bank whole, any other as a hyperslab of its own dims at its offset |
| Storage.TouchedCons | src/core/MStorage.c:385-430 | the banks touched by a write plan are its first write's bank plus the rest's |
| Checkpoint.WindowSize | src/core/MCheckpoint.c:32-34 | the window size is a multiple of W = mpi_size-1 and positive iff checkpoint_size > -W; for checkpoint_size >= 0 it is at most max(checkpoint_size, W) and within W of checkpoint_size; it is W when -W < checkpoint_size < W; for checkpoint_size <= -W it lies in [checkpoint_size, -W] |
| Checkpoint.NegativeRoundedBounds | src/core/MCheckpoint.c:32 | for a negative checkpoint_size, C division rounds the multiple of W toward zero: it lies in [checkpoint_size, 0], within W of checkpoint_size, and is 0 iff checkpoint_size > -W |
| Checkpoint.BankColumnsDisjoint | src/core/MCheckpoint.c:37-44 | bank columns start after the 3 + MAX_RANK header columns and occupy disjoint ranges inside the row |
| Checkpoint.BankColumns | src/core/MCheckpoint.c:119-215 | the cursor for bank j is 5 + the element counts of banks 0..j-1 |
| Checkpoint.CheckpointLoad | src/core/MCheckpoint.c:16-54 | cid as given, counter 0, size the window size; a non-positive size leaves the buffer NULL and no rows; otherwise that many rows of width 3 + MAX_RANK + the banks' element counts, tid and status TASK_EMPTY, every other cell zero |
| Checkpoint.CheckpointReset | src/core/MCheckpoint.c:235-244 | cid as given, counter 0, tid and status TASK_EMPTY in every row, every other cell and the size unchanged |
| Checkpoint.ResetOfFresh | src/core/MCheckpoint.c:235-244 | resetting an all-empty window only sets cid and counter, and reset is idempotent |
| Checkpoint.TaskOffset | src/core/MCheckpoint.c:136-151 | PM3D: ((x + X*y)*d0, 0); LIST: (tid*d0, 0); BOARD: (x*d0, y*d1); any other policy (0, 0) |
| Checkpoint.OffsetsDisjoint | src/core/MCheckpoint.c:136-165 | distinct in-range cells (PM3D, BOARD) or tids (LIST) get disjoint d0 x d1 windows |
| Checkpoint.WindowInShape | src/core/MCheckpoint.c:160-165 | every in-range task's window lies inside the pool-wide shape the master allocates |
| Checkpoint.UnflattenCell | src/core/MCheckpoint.c:156-157 | the unflattened bank data holds the row's element a*d1 + b at (a, b) |
| Checkpoint.CopyWindow | src/core/MCheckpoint.c:160-165 | the copy overlays the task data on its window and leaves every cell outside the window unchanged |
| Checkpoint.PoolShapeWindowsFit | src/core/MCheckpoint.c:160-165 | in a buffer with the PoolShape dims the master allocates (pool_size = X * Y), the window of every staged row whose key lies on the board fits, so the unchecked copy stays in bounds |
| Checkpoint.ProcessShared | src/core/MCheckpoint.c:120-174 | the shared-policy pass keeps the pool buffer's shape |
| Checkpoint.ProcessSharedWindows | src/core/MCheckpoint.c:127-165 | a cell in the window of the last staged row that covers it holds that row's data |
| Checkpoint.ProcessSharedUnfold | src/core/MCheckpoint.c:127-165 | one step of the pass over window rows |
| Checkpoint.ProcessSharedFrame | src/core/MCheckpoint.c:127-165 | a cell no staged row's window covers keeps its value |
| Checkpoint.KeysInRangeClashFree | src/core/MCheckpoint.c:136-151 | staged rows whose keys are in range and distinct write non-overlapping windows |
| Checkpoint.ResetWindowIsNoOp | src/core/MCheckpoint.c:235-244 | after a reset every row is skipped, so processing leaves the pool buffer unchanged |
| Checkpoint.ProcessBasic | src/core/MCheckpoint.c:176-213 | the BASIC pass keeps the shape of every task slot |
| Checkpoint.ProcessBasicSlot | src/core/MCheckpoint.c:184-200 | the slot of the last staged row for a tid holds that row's tid, status, location and bank data |
| Checkpoint.ProcessBasicFrame | src/core/MCheckpoint.c:184 | a task slot no staged row names is unchanged |
| Checkpoint.ProcessBasicOtherBank | src/core/MCheckpoint.c:194-200 | the BASIC pass for bank j leaves every other bank of every slot alone |
| Checkpoint.ProcessBasicBankLocal | src/core/MCheckpoint.c:194-200 | what the BASIC pass leaves in bank j depends only on bank j of the slots it starts from |
| Checkpoint.ProcessBanks | src/core/MCheckpoint.c:119-216 | the j-loop over the task banks keeps the number of pool-wide buffers and the shape of every task slot, and never touches the buffer of a bank it has not reached |
| Checkpoint.ProcessBanksShared | src/core/MCheckpoint.c:121-174 | a PM3D, LIST or BOARD bank's pool-wide buffer ends as the shared pass over the window leaves it at the bank's column; the buffer of a bank of any other policy is unchanged |
| Checkpoint.ProcessBanksBasic | src/core/MCheckpoint.c:176-213 | bank k of each task slot ends as the BASIC pass for bank k leaves it when bank k is BASIC, and is unchanged otherwise |
| Checkpoint.ProcessBanksNoTasks | src/core/MCheckpoint.c:176 | without a BASIC task bank the task table is unchanged |
| Checkpoint.ProcessBanksSlotFrame | src/core/MCheckpoint.c:184-200 | a task slot that no staged row names keeps every field |
| Checkpoint.ProcessBanksSlotHeader | src/core/MCheckpoint.c:189-193 | with a BASIC bank, the slot of the last staged row for a task carries that row's tid, status and location |
| Checkpoint.CheckpointProcessBanks | src/core/MCheckpoint.c:118-216 | CheckpointProcess on the master's memory: every shared bank's buffer as its pass leaves it, every BASIC bank of every slot as its pass leaves it, all else unchanged, and the task table untouched without a BASIC bank |
| Decimal.Dec | src/core/MCheckpoint.c:275 | decimal rendering: digits only, one digit iff n < 10, no leading zero |
| Decimal.ZeroPad | src/core/MCheckpoint.c:275 | `%0wd`: at least w characters, zeros followed by the decimal rendering |
| Decimal.ParseZeroPad | src/core/MPool.c:31 | the zero-padded rendering reads back as n |
| Decimal.ZeroPadInjective | src/core/MPool.c:31 | distinct numbers render differently |
| Backup.IterAsWritten | src/core/MCheckpoint.c:268-278 | `snprintf(iter, 3, "%02d", i)` keeps two characters |
| Backup.IterIntended | src/core/MCheckpoint.c:275-278 | the full `%02d` rendering, at least two characters |
| Backup.IterAgreesBelowHundred | src/core/MCheckpoint.c:275-278 | below 100 the truncated and full renderings agree |
| Backup.IterTruncationCollides | src/core/MCheckpoint.c:275-278 | 10 and 100 truncate to the same name while their full renderings differ |
| Backup.Shift | src/core/MCheckpoint.c:281-294 | an existing file is copied (backup missing, or i = 0) or renamed onto the backup name; no other file changes |
| Backup.RotateFrame | src/core/MCheckpoint.c:274-297 | files outside the rotated names are untouched |
| Backup.RotateKeepsFirst | src/core/MCheckpoint.c:286-288 | file 00 is never changed or removed |
| Backup.RotateShifts | src/core/MCheckpoint.c:274-297 | file k ends with the old content of file k-1 when that existed |
| Backup.RotateAll | src/core/MCheckpoint.c:274-297 | all three of the above for the whole rotation |
| Backup.FileNameInjective | src/core/MCheckpoint.c:276-279 | distinct iteration strings give distinct file names |
| Backup.NamesIntendedDistinct | src/core/MCheckpoint.c:274-279 | the intended file names are pairwise distinct |
| Backup.BackupRotates | src/core/MCheckpoint.c:266-300 | for b < 2 nothing happens; otherwise file k holds file k-1's old content, file 00 is unchanged and no other file changes |
| Backup.AsWrittenAgreesUpToHundred | src/core/MCheckpoint.c:266-300 | with at most 100 checkpoint files the code as written rotates exactly as intended |
| Backup.AsWrittenNamesCollide | src/core/MCheckpoint.c:268-278 | with more than 100 files, files 10 and 100 get the same name |
| Codec.DecodeEncodeInt | src/core/MMpi.c:73-74 | a 32-bit int survives its 4-byte encoding |
| Codec.DecodeEncodeInts | src/core/MMpi.c:114-121 | a header survives memcpy out and back |
| Codec.PayloadMonotone | src/core/MMpi.c:79-85 | the byte cursor never moves backwards |
| Codec.Splice | src/core/MMpi.c:82 | memcpy writes exactly its range and nothing else |
| Codec.SetCell | src/core/MMpi.c:88-90 | one board cell takes the value; every other cell is unchanged |
| Codec.PackBanksContents | src/core/MMpi.c:79-85 | after the bank loop, a sync bank's region holds its bytes and a non-sync region keeps the buffer's bytes |
| Codec.PackBanksUnfold | src/core/MMpi.c:79-85 | one iteration of the bank loop |
| Codec.PackBanksStepSame | src/core/MMpi.c:80-84 | the bank just packed lands in its own region |
| Codec.PackBanksStepOther | src/core/MMpi.c:80-84 | packing one bank leaves every other bank's region unchanged |
| Codec.BanksApart | src/core/MMpi.c:79-85 | bank regions are disjoint and inside the message, in declared order |
| Codec.SpliceElsewhere | src/core/MMpi.c:82 | memcpy leaves any disjoint range unchanged |
| Codec.PackBanksPrefix | src/core/MMpi.c:73-85 | the bank loop never touches the header bytes |
| Codec.Pack | src/core/MMpi.c:60-94 | the header bytes encode [tag, tid, status, loc0, loc1, ...]; with TERMINATE the payload and board are untouched; otherwise the master marks board[loc] TASK_IN_USE |
| Codec.UnpackBanks | src/core/MMpi.c:126-132 | a sync bank takes its region's bytes, a non-sync bank keeps the receiver's |
| Codec.Unpack | src/core/MMpi.c:107-141 | tag, tid, status and location come from the header; with TERMINATE memory and board are untouched; otherwise the banks are read and the master sets board[loc] to the status |
| Codec.PackedHeaderDecodes | src/core/MMpi.c:67-121 | the packed header decodes to what was packed |
| Codec.PackedBank | src/core/MMpi.c:79-85 | a sync bank's region of a packed message holds the task's bytes |
| Codec.UnpackedFits | src/core/MMpi.c:126-132 | unpacking keeps every bank at its byte size |
| Codec.UnpackPack | src/core/MMpi.c:60-141 | round trip: tag, tid, status, location and every sync bank are restored; non-sync banks keep the receiver's bytes |
| Master.TerminatesCount | src/modes/taskfarm/Master.c:239-249 | the terminate loop tells every rank in its range exactly once and no other rank |
| Master.TerminateCountAppend | src/modes/taskfarm/Master.c:239-249 | TERMINATE counts add up over concatenated send logs |
| Master.Seed | src/modes/taskfarm/Master.c:91-115 | seeding keeps the board keys, window, counters and flushes |
| Master.SeedDry | src/modes/taskfarm/Master.c:91-115 | once GetNewTask has no task, every remaining rank is told to terminate and counted |
| Master.SeedTerminatesSuffix | src/modes/taskfarm/Master.c:91-115 | the ranks seeding terminates are exactly mpi_size-terminated_nodes..mpi_size-1, each once |
| Master.SeedKeepsInUse | src/modes/taskfarm/Master.c:93-102 | seeding never takes a cell out of TASK_IN_USE |
| Master.SeedOneEach | src/modes/taskfarm/Master.c:91-115 | each rank 1..mpi_size-1 gets exactly one message in rank order: DATA with its cell TASK_IN_USE, or TERMINATE |
| Master.Start | src/modes/taskfarm/Master.c:60-115 | an empty window; with completed == pool_size nothing is dispatched or flushed and every worker is told to terminate |
| Master.Handle | src/modes/taskfarm/Master.c:152-218 | completed grows only on RESULT; RESULT and CHECKPOINT are staged; the header's cell takes its status; a new task goes only to a RESULT's sender; CHECKPOINT is echoed unchanged; other tags abort with CORE_ERR_MPI |
| Master.Iterate | src/modes/taskfarm/Master.c:118-249 | ICE flushes then aborts; an unknown tag aborts; otherwise the loop finishes exactly when completed reaches pool_size, with one final flush |
| Master.StartEstablishes | src/modes/taskfarm/Master.c:60-115 | the loop invariant holds after seeding |
| Master.TerminateWorkersTellsEachOnce | src/modes/taskfarm/Master.c:239-249 | after the terminate loop every worker rank has been told exactly once |
| Master.HandleSendsNoTerminate | src/modes/taskfarm/Master.c:172-218 | handling a message sends no TERMINATE |
| Master.NonPositiveWindowOverruns | src/modes/taskfarm/Master.c:126-166 | with a window size <= 0 every pass flushes and the next RESULT or CHECKPOINT is still staged: the window holds one record more than its size, or the final flush processes one |
| Master.FlushIfDueKeeps | src/modes/taskfarm/Master.c:127-140 | after the head-of-loop flush the window has a free slot |
| Master.HandleKeeps | src/modes/taskfarm/Master.c:161-218 | a record is staged only into a free slot, so the invariant is kept |
| Master.FinishKeeps | src/modes/taskfarm/Master.c:229-249 | the final flush and terminate loop keep the invariant |
| Master.IteratePreserves | src/modes/taskfarm/Master.c:118-221 | one loop pass keeps the invariant |
| Master.RunPreserves | src/modes/taskfarm/Master.c:118-249 | the invariant holds throughout; a finished run has told every rank 1..mpi_size-1 to terminate exactly once |
| Worker.WorkerStep | src/modes/taskfarm/Worker.c:56-85 | a TERMINATE ends the loop without a reply; otherwise the reply carries the hook's task with status TASK_FINISHED |
| Worker.ReplyDecodes | src/modes/taskfarm/Worker.c:76-83 | the coordinator reads the reply as RESULT, TASK_FINISHED, the same tid and location and the sync banks' bytes |
| Worker.WorkerRun | src/modes/taskfarm/Worker.c:56-86 | at most one reply per received message, each the size of the buffer |
| Worker.RepliesUntilTerminate | src/modes/taskfarm/Worker.c:56-86 | exactly one reply per message before the first TERMINATE, none after |
| Pool.PoolName | src/core/MPool.c:31 | "pool-" followed by at least four digits |
| Pool.PoolLoad | src/core/MPool.c:11-39 | pid as given, the name from it, the HDF5 group created only on MASTER |
| Pool.PoolNameParses | src/core/MPool.c:31 | the digits after "pool-" read back as pid |
| Pool.PoolNamesDistinct | src/core/MPool.c:31 | distinct pools get distinct names |
| Pool.PoolPrepare | src/core/MPool.c:55-75 | the hook runs only on MASTER; the sync banks everywhere equal the coordinator's post-hook banks; a worker's other banks are its own |
| Pool.PreparedSyncAgrees | src/core/MPool.c:55-75 | any two nodes agree on every sync bank after PoolPrepare |
| Pool.PoolProcess | src/core/MPool.c:81-94 | on every node the decision is the master's: its hook's value, or POOL_FINALIZE when the master has no hook; the nodes' own hooks never count |
| Pool.PoolProcessAgrees | src/core/MPool.c:81-94 | after the broadcast any two nodes return the same decision, whatever hooks the workers hold |
| Restart.Select | src/core/MRestart.c:46-82 | the per-bank operations, in bank order, for exactly the banks the rule selects |
| Restart.PoolReads | src/core/MRestart.c:38-65 | a pool's reads: the board always; pool banks with elements > 0 and use_hdf; task banks with elements > 0, use_hdf and PM3D/LIST/BOARD |
| Restart.MasterReads | src/core/MRestart.c:37-70 | the coordinator reads exactly those for every pool 0..last |
| Restart.Broadcasts | src/core/MRestart.c:72-82 | exactly the pool banks with sync set and elements > 0, for every pool 0..last |
| Restart.RestartPlanContents | src/core/MRestart.c:10-85 | the plan is the coordinator's reads (MASTER only) plus everybody's broadcasts over pools 0..last, with every read before every broadcast; nothing when last < 0 |
| FarmSkel.Map2d | src/mpifarm_skel.c:507-529 | map2d(c) = (c / yres, c % yres, c) with C division, as the unbraced ifs leave it |
| FarmSkel.Map2dOnBoard | src/mpifarm_skel.c:519-520 | for c in [0, xres*yres) the coordinates lie on the board and are injective |
| FarmSkel.AsWrittenTargetsMissingRank | src/mpifarm_skel.c:267-282 | under the rule as written (nodes = mpi_size when farm_res > mpi_size, else farm_res + 1), farm_res == mpi_size makes the first round send to rank mpi_size, which does not exist |
| FarmSkel.NodesIntended | src/mpifarm_skel.c:267-276 | the first round uses min(farm_res, mpi_size-1) workers, all existing ranks |
| FarmSkel.NodesAgreeElsewhere | src/mpifarm_skel.c:267-271 | away from farm_res == mpi_size both rules agree |
| FarmSkel.AppendEvent | src/mpifarm_skel.c:276-388 | logging one event updates the pixels sent and results received accordingly |
| FarmSkel.FarmMaster | src/mpifarm_skel.c:80-388 | aborts with 911 iff xres or yres is 0 or there is one process; otherwise every pixel 0..farm_res-1 is sent once in increasing order, all farm_res results are received, every receive follows an outstanding send, and all ranks 1..mpi_size-1 are told to terminate at the end |
| FarmSkel.InitialRound | src/mpifarm_skel.c:276-282 | pixels 0..nodes-2 are sent to ranks 1..nodes-1 |
| FarmSkel.Refill | src/mpifarm_skel.c:287-339 | each receive is answered with the next pixel until all are sent |
| FarmSkel.Drain | src/mpifarm_skel.c:345-381 | the outstanding results are all received |
| FarmSkel.TerminateAll | src/mpifarm_skel.c:386-388 | TERMINATE to every rank 1..mpi_size-1 in order, after all data |
| DefaultModule.FarmResolution | src/modules/default/mechanic_module_default.c:86-93 | x*y: positive for a positive board, 0 when a side is 0 |
| DefaultModule.PixelCoordsMap | src/modules/default/mechanic_module_default.c:109-114 | t[0] = p / y and t[1] = p % y unconditionally, t[2] kept |
| DefaultModule.PixelCoordsOnBoard | src/modules/default/mechanic_module_default.c:111-112 | for p in [0, x*y) the pair lies in [0, x) x [0, y) |
| DefaultModule.PixelCoordsInjective | src/modules/default/mechanic_module_default.c:111-112 | distinct pixels map to distinct pairs |
| DefaultModule.PixelCoordsSurjective | src/modules/default/mechanic_module_default.c:111-112 | every board cell is the image of pixel i*y + j |
| DefaultModule.ResultLocatesPixel | src/modules/default/mechanic_module_default.c:109-138 | for p in [0, x*y) the result record the worker returns for pixel p lies on the board, at the cell of row-major index p, with the pixel number kept |
| DefaultModule.ResultsDistinct | src/modules/default/mechanic_module_default.c:109-138 | distinct pixels of the board come back as distinct cells |
| GA.Matches | src/modules/mechanic_module_ga.c:255-265 | the number of matching genes lies in [0, genes] |
| GA.PerfectMeansModel | src/modules/mechanic_module_ga.c:255-265 | fitness is genes iff the organism equals the model on its genes |
| GA.Fitness | src/modules/mechanic_module_ga.c:255-265 | counts the genes where population[tid] equals the model; in [0, genes] |
| GA.SumStep | src/modules/mechanic_module_ga.c:274-279 | the running total grows by each fitness |
| GA.EvaluateOrganisms | src/modules/mechanic_module_ga.c:271-288 | the total is the sum of all fitness values; the result is TRUE iff some fitness equals max_fitness |
| GA.SelectFrom | src/modules/mechanic_module_ga.c:332-336 | the scan result is 0 or an index at or after the start |
| GA.SelectFromLeast | src/modules/mechanic_module_ga.c:327-339 | the least index whose prefix sum reaches r, or 0 when none does |
| GA.SelectOneOrganism | src/modules/mechanic_module_ga.c:327-339 | the threshold is rand() % (total+1), and the scan picks by it |
| GA.SelectionReaches | src/modules/mechanic_module_ga.c:327-339 | with non-negative fitness the threshold is at most the total and the scan never falls through: the least reaching index in [0, pool_size) |
| GA.ProduceChild | src/modules/mechanic_module_ga.c:298-318 | each gene is a fresh allele when mutating, else parentOne's below the crossover point and parentTwo's from it |
| GA.ProduceNextGeneration | src/modules/mechanic_module_ga.c:294-321 | one child per organism, each built by the gene rule |
| GA.ChildrenAreAlleles | src/modules/mechanic_module_ga.c:306-317 | children of a population of alleles are alleles |
| GA.PoolProcess | src/modules/mechanic_module_ga.c:200-223 | POOL_FINALIZE iff a perfect organism, pid > maxgen or pid > MAX_GENERATIONS; otherwise the children are produced and POOL_CREATE_NEW returned |
| GA.GenerationLimit | src/modules/mechanic_module_ga.c:214-216 | a run of pools with pids 0, 1, ..., each but the last answered POOL_CREATE_NEW, has at most MAX_GENERATIONS + 2 pools, and at most max-generations + 2 when that option is >= -1 |
| GA.InitializeOrganisms | src/modules/mechanic_module_ga.c:233-249 | every organism gene and model gene is rand() % alleles |
| GA.InitialAlleles | src/modules/mechanic_module_ga.c:237-246 | with alleles > 0 and non-negative draws they lie in [0, alleles) |
| GA.PoolPrepare | src/modules/mechanic_module_ga.c:151-174 | pid 0 initializes; otherwise population is the previous pool's children and model the previous model |
| GA.NextPopulationAlleles | src/modules/mechanic_module_ga.c:157-171 | a population copied from allele children consists of alleles |

## Left out

- MPI: sends, receives, broadcasts and `LRC_datatype`. Messages are values. A broadcast is "every node receives the coordinator's bank". MPI tags are not modelled: Worker.c receives with tag `intag` while Master.c sends with TAG_DATA.
- HDF5: CommitStorageLayout, CreateDataset's handle work, ReadDataset, PrintDataset, and CommitMemoryLayout/FreeMemoryLayout (allocation only). Only the shape, offset and write-mode arithmetic is kept.
- The ICE file, `clock()` timing, `Message` formatting and `printf`. The ICE probe is a boolean in each loop event.
- Backup's `stat`/`Copy`/`rename` and `Name()`: the files are a map from names to blobs.
- Floating point: bank data are integers, because they are only copied or compared. The GA casts them to int anyway. `default_pixelCompute` is not modelled.
- `rand()` and the GA mutation test `(int)(1.0/mutation_rate)` are oracle parameters. `GetNewTask` is an oracle restricted to handing out an EMPTY cell or none.
- User hooks (Storage, Init, Setup, TaskPrepare, TaskProcess, PoolPrepare, PoolProcess) are function parameters. The worker's TaskPrepare-then-TaskProcess pair is one hook. The GA's TaskProcess is covered by Fitness.
- The MPI_Send of the worker's reply to MASTER: the reply is the step's result.
- PoolFinalize and CheckpointFinalize only free memory.
- src/core/MCore.c, the masteralone mode (it contains merge-conflict markers), the farm slave mode, the example modules and the build scripts.
- mpifarm_skel.c: the slave side, configuration reading and the HDF writes are out. `method` is 0 throughout, so farm_res is xres*yres.
- CheckpointPrepare: its body is not part of this model. In Master the flush is a log entry of the staged messages; what CheckpointProcess does to the master's memory is Checkpoint.ProcessBanks. Its HDF5 writes (the pool CommitData and the per-task CommitData calls) are left out with HDF5.
- Restart: the `pool_counter` read from the file is an input (`last`). The per-pool Storage re-run is StoragePool, applied to each layout.
- Version skew:
  - The writes to `dim[2..3]` and `offset[2..3]` (src/core/MStorage.c:64-65, 73-74, 81-82, 150-151) are dropped, because MAX_RANK is 2.
  - Master.c is modelled with its 3-D location and `header[6]`.
  - Codec follows MMpi.c's five header slots, with HEADER_SIZE a parameter of at least 5.
  - CheckpointProcess and the GA module name a policy STORAGE_BASIC that MStorage.c never mentions. Its branch (src/core/MCheckpoint.c:176-213) fills `p->tasks` and writes under per-task TASK_PATH groups, and those exist only for STORAGE_GROUP banks (src/core/MStorage.c:58, 87-92, 266-279). So STORAGE_BASIC is modelled as another name for STORAGE_GROUP (Defs.STORAGE_BASIC), and `materializeTasks` is exactly the condition under which the BASIC branch has a task table to write.
- `task_groups` is uninitialised when no task bank is GROUP (src/core/MStorage.c:17, 58, 87). The model uses "some task bank is GROUP" (`materializeTasks`).
- The worker passes `&memory` instead of the buffer to Unpack, Pack and MPI_Send (src/modes/taskfarm/Worker.c:61, 79, 82). It also allocates `memory` twice (lines 50-54). The model uses the buffer itself.
- CheckpointFinalize dereferences `c` before testing it (src/core/MCheckpoint.c:254-255). The defect is recorded only, because the function only frees memory.
- Master.c's terminate loop targets ranks 1..mpi_size-1-terminated_nodes (src/modes/taskfarm/Master.c:239). That is right only when seeding terminated a suffix of the ranks. Master.SeedTerminatesSuffix proves that it does, given that GetNewTask is a function of the board: the board does not change after a "no more tasks" answer.
- DefaultModule.FarmResolution: does not model the 32-bit overflow of `x*y`; the product is unbounded.
- Public.GetSizeIsProduct: the product of dims is unbounded; the source's 32-bit `int` result can wrap for large dims.
- Storage.CheckBank: elements and size (elements * datatype size) are unbounded, where the source stores them in C ints.
- Storage.CommitData: the `(int)size > 0` test is on the unbounded size, so a size that wraps to a non-positive int is not modelled.
- Storage.ShapeRuleShared: the master's allocation products (dims times pool_size or board dims) are unbounded.
- Checkpoint.TaskOffset: the hsize_t offsets and their `(int)` casts in the copy loop are unbounded integers.
- Storage.DatasetExtent: for a policy other than GROUP, PM3D, LIST and BOARD the source leaves the extent's dims uninitialised; the model returns None.
- Public.AllocateBuffer: returns NULL when dims[0] <= 0 even when the product is positive. The source would pass a wrapped size to calloc, and its failure is not modelled.
- FarmSkel.FarmMaster: uses the corrected `nodes` rule (FarmSkel.NodesIntended; see Findings). A non-positive farm_res that is not caused by a zero side is reported as Blocked instead of looping.
- Master.Run: its own contract states only that the board keys are kept. Master.RunPreserves states the invariant.
- Master.StartEstablishes: the invariant, and so Master.RunPreserves, is stated only for a window size of at least 1. The source does not check checkpoint_size, and for checkpoint_size <= -(mpi_size-1) the window size is <= 0 (Checkpoint.WindowSize); Master.c then copies records into the NULL window buffer (Master.c:161-166). Master.NonPositiveWindowOverruns shows the overrun; no invariant is promised for such a window.
- Master.RunPreserves: inherits the window size >= 1 restriction of the invariant, for the reason on the line above.

## Findings

| source | as written | input that shows it | evidently intended | confidence | as-written member | corrected member |
|---|---|---|---|---|---|---|
| src/core/MCheckpoint.c:268-278 | `snprintf(iter, 3, "%02d", i)` keeps two digits of the file index | checkpoint-files = 101: indices 10 and 100 both render "10", so the rotation writes one file twice and loses a generation | the full zero-padded index, giving b distinct names | not executed | Backup.AsWrittenNamesCollide | Backup.BackupRotates |
| src/core/MStorage.c:33 | `p->pool_size = GetSize(p->board->layout.rank, p->board->layout.dim)` runs before `CheckLayout(1, p->board)` | a board of rank 3: GetSize reads dim[2], past the two dims, and only then does CheckLayout report the rank error | check the board before its size is computed | not executed | Storage.AsWrittenPoolSizeReadsPastDims | Storage.StoragePool |
| src/mpifarm_skel.c:267-276 | `nodes = farm_res > mpi_size ? mpi_size : farm_res + 1`, then the first round sends to ranks 1..nodes-1 | xres = 2, yres = 1 on 2 processes: farm_res = 2 = mpi_size, so nodes = 3 and pixel 1 is sent to rank 2, which does not exist | send to min(farm_res, mpi_size-1) workers | not executed | FarmSkel.AsWrittenTargetsMissingRank | FarmSkel.FarmMaster |

=== FILE: backup.dfy ===
/**
 * Backup(m, s) of src/core/MCheckpoint.c: before each checkpoint the
 * master data file `<name>-master-00.h5` and its backups `-01`, `-02`, ...
 * (`checkpoint-files` of them in all) are shifted up by one index, from the
 * highest down. The file system is a map from path to contents.
 */
module Backup {
  import opened Decimal

  type Files = map<string, seq<int>>

  /** Name(name, "-master-", iter, ".h5"): the parts concatenated. */
  function FileName(base: string, iter: string): string {
    base + "-master-" + iter + ".h5"
  }

  /** `snprintf(iter, 3, "%02d", i)` as written: a 3-byte limit keeps at most two characters. */
  function IterAsWritten(i: nat): (s: string)
    ensures |s| == 2
  {
    ZeroPad(i, 2)[..2]
  }

  /** The index as `%02d` renders it in full, which the 4-byte `iter` buffer was sized for. */
  function IterIntended(i: nat): (s: string)
    ensures |s| >= 2
  {
    ZeroPad(i, 2)
  }

  /** Below 100 the truncation cuts nothing. */
  lemma IterAgreesBelowHundred(i: nat)
    requires i < 100
    ensures IterAsWritten(i) == IterIntended(i)
  {
    if i >= 10 {
      assert Dec(i) == Dec(i / 10) + [DigitChar(i % 10)];
    }
  }

  /** From index 100 on the truncated names repeat: backup 100 is file `-10`. */
  lemma IterTruncationCollides()
    ensures IterAsWritten(100) == IterAsWritten(10)
    ensures IterIntended(100) != IterIntended(10)
  {
    assert Dec(1) == "1";
    assert Dec(10) == Dec(1) + "0" == "10";
    assert Dec(100) == Dec(10) + "0" == "100";
    ZeroPadInjective(100, 10, 2);
  }

  /**
   * One pass of the loop for index i (`first` when i == 0): when the current
   * file exists it is copied to the backup name if that is missing, copied
   * over it when i is 0, and renamed over it otherwise.
   */
  function Shift(fs: Files, current: string, backup: string, first: bool): (r: Files)
    ensures current !in fs ==> r == fs
    ensures current in fs ==> backup in r && r[backup] == fs[current]
    ensures forall f :: f != current && f != backup ==> (f in r <==> f in fs) && (f in fs ==> r[f] == fs[f])
    ensures current in r <==> current in fs && (current == backup || backup !in fs || first)
  {
    if current !in fs then fs
    else if backup !in fs || first then fs[backup := fs[current]]
    else if current == backup then fs
    else (fs - {current})[backup := fs[current]]
  }

  /** The loop from index i down to 0 over the file names names[0..i+1]. */
  function Rotate(fs: Files, names: seq<string>, i: int): Files
    requires i + 1 < |names|
    decreases i + 1
  {
    if i < 0 then fs else Rotate(Shift(fs, names[i], names[i + 1], i == 0), names, i - 1)
  }

  predicate Distinct(names: seq<string>) {
    forall a, b :: 0 <= a < b < |names| ==> names[a] != names[b]
  }

  /** Rotate touches only names[0..i+1]. */
  lemma {:induction false} RotateFrame(fs: Files, names: seq<string>, i: int, f: string)
    requires i + 1 < |names|
    requires forall k :: 0 <= k <= i + 1 ==> names[k] != f
    ensures (f in Rotate(fs, names, i) <==> f in fs) && (f in fs ==> Rotate(fs, names, i)[f] == fs[f])
    decreases i + 1
  {
    if i >= 0 {
      RotateFrame(Shift(fs, names[i], names[i + 1], i == 0), names, i - 1, f);
    }
  }

  /** Rotate leaves the current master file (index 0) as it was. */
  lemma {:induction false} RotateKeepsFirst(fs: Files, names: seq<string>, i: int)
    requires 0 <= i + 1 < |names| && Distinct(names)
    ensures (names[0] in Rotate(fs, names, i) <==> names[0] in fs)
    ensures names[0] in fs ==> Rotate(fs, names, i)[names[0]] == fs[names[0]]
    decreases i + 1
  {
    if i >= 0 {
      RotateKeepsFirst(Shift(fs, names[i], names[i + 1], i == 0), names, i - 1);
    }
  }

  /** After Rotate, each file k in 1..i+1 holds what file k-1 held before, when that existed. */
  lemma {:induction false} RotateShifts(fs: Files, names: seq<string>, i: int, k: int)
    requires i + 1 < |names| && Distinct(names)
    requires 1 <= k <= i + 1 && names[k - 1] in fs
    ensures names[k] in Rotate(fs, names, i) && Rotate(fs, names, i)[names[k]] == fs[names[k - 1]]
    decreases i + 1
  {
    var next := Shift(fs, names[i], names[i + 1], i == 0);
    if k == i + 1 {
      RotateFrame(next, names, i - 1, names[k]);
    } else {
      assert names[k - 1] != names[i] && names[k - 1] != names[i + 1];
      RotateShifts(next, names, i - 1, k);
    }
  }

  /** The backup names of indices 0..b-1 under a rendering of the index. */
  function NamesAsWritten(base: string, b: nat): seq<string> {
    seq(b, i requires 0 <= i < b => FileName(base, IterAsWritten(i)))
  }

  function NamesIntended(base: string, b: nat): seq<string> {
    seq(b, i requires 0 <= i < b => FileName(base, IterIntended(i)))
  }

  /** Backup as written: b = checkpoint-files, loop from b-2 down to 0. */
  function BackupAsWritten(fs: Files, base: string, b: int): Files {
    if b < 2 then fs else Rotate(fs, NamesAsWritten(base, b), b - 2)
  }

  /** Backup with every index rendered in full. */
  function BackupIntended(fs: Files, base: string, b: int): Files {
    if b < 2 then fs else Rotate(fs, NamesIntended(base, b), b - 2)
  }

  lemma FileNameInjective(base: string, x: string, y: string)
    requires x != y
    ensures FileName(base, x) != FileName(base, y)
  {
    var p := base + "-master-";
    assert FileName(base, x) == p + x + ".h5" && FileName(base, y) == p + y + ".h5";
    if |x| == |y| {
      assert (p + x + ".h5")[|p|..|p| + |x|] == x;
      assert (p + y + ".h5")[|p|..|p| + |y|] == y;
    }
  }

  lemma NamesIntendedDistinct(base: string, b: nat)
    ensures Distinct(NamesIntended(base, b))
  {
    forall a, c | 0 <= a < c < b
      ensures NamesIntended(base, b)[a] != NamesIntended(base, b)[c]
    {
      ZeroPadInjective(a, c, 2);
      FileNameInjective(base, IterIntended(a), IterIntended(c));
    }
  }

  /**
   * The backup rotation: for b = checkpoint-files, each backup k in 1..b-1
   * receives the previous contents of file k-1 (when that existed), the
   * master file itself stays, and no file outside the b names changes.
   */
  lemma BackupRotates(fs: Files, base: string, b: int)
    ensures b < 2 ==> BackupIntended(fs, base, b) == fs
    ensures forall k :: 1 <= k < b && NamesIntended(base, b)[k - 1] in fs ==>
      NamesIntended(base, b)[k] in BackupIntended(fs, base, b)
      && BackupIntended(fs, base, b)[NamesIntended(base, b)[k]] == fs[NamesIntended(base, b)[k - 1]]
    ensures b >= 1 ==> var first := FileName(base, IterIntended(0));
      (first in BackupIntended(fs, base, b) <==> first in fs)
      && (first in fs ==> BackupIntended(fs, base, b)[first] == fs[first])
    ensures forall f :: f !in NamesIntended(base, if b < 0 then 0 else b) ==>
      (f in BackupIntended(fs, base, b) <==> f in fs) && (f in fs ==> BackupIntended(fs, base, b)[f] == fs[f])
  {
    if b >= 2 {
      var names := NamesIntended(base, b);
      NamesIntendedDistinct(base, b);
      assert BackupIntended(fs, base, b) == Rotate(fs, names, b - 2);
      assert names[0] == FileName(base, IterIntended(0));
      RotateAll(fs, names);
    }
  }

  /** The rotation over all of `names`: shifted backups, the first file kept, everything else untouched. */
  lemma RotateAll(fs: Files, names: seq<string>)
    requires |names| >= 2 && Distinct(names)
    ensures forall k :: 1 <= k < |names| && names[k - 1] in fs ==>
      names[k] in Rotate(fs, names, |names| - 2) && Rotate(fs, names, |names| - 2)[names[k]] == fs[names[k - 1]]
    ensures (names[0] in Rotate(fs, names, |names| - 2) <==> names[0] in fs)
      && (names[0] in fs ==> Rotate(fs, names, |names| - 2)[names[0]] == fs[names[0]])
    ensures forall f :: f !in names ==>
      (f in Rotate(fs, names, |names| - 2) <==> f in fs) && (f in fs ==> Rotate(fs, names, |names| - 2)[f] == fs[f])
  {
    var i := |names| - 2;
    forall k | 1 <= k < |names| && names[k - 1] in fs
      ensures names[k] in Rotate(fs, names, i) && Rotate(fs, names, i)[names[k]] == fs[names[k - 1]]
    {
      RotateShifts(fs, names, i, k);
    }
    RotateKeepsFirst(fs, names, i);
    forall f | f !in names
      ensures (f in Rotate(fs, names, i) <==> f in fs) && (f in fs ==> Rotate(fs, names, i)[f] == fs[f])
    {
      RotateFrame(fs, names, i, f);
    }
  }

  /** Up to 100 checkpoint files the code as written is the intended rotation. */
  lemma AsWrittenAgreesUpToHundred(fs: Files, base: string, b: int)
    requires b <= 100
    ensures BackupAsWritten(fs, base, b) == BackupIntended(fs, base, b)
  {
    if b >= 2 {
      forall i | 0 <= i < b
        ensures NamesAsWritten(base, b)[i] == NamesIntended(base, b)[i]
      {
        IterAgreesBelowHundred(i);
      }
      assert NamesAsWritten(base, b) == NamesIntended(base, b);
    }
  }

  /** With 101 or more checkpoint files the as-written names of backups 10 and 100 coincide. */
  lemma AsWrittenNamesCollide(base: string, b: int)
    requires b > 100
    ensures NamesAsWritten(base, b)[10] == NamesAsWritten(base, b)[100]
    ensures !Distinct(NamesAsWritten(base, b))
  {
    IterTruncationCollides();
  }
}

=== FILE: checkpoint.dfy ===
/**
 * The checkpoint engine of src/core/MCheckpoint.c: the staging window
 * (CheckpointLoad, CheckpointReset), the per-policy write offsets, the
 * windowed copy of a staged task's bank into the master's pool-wide buffer
 * and the column cursor that locates each bank inside a staged row.
 * Backup rotation lives in module Backup.
 */
module Checkpoint {
  import opened Defs
  import opened CInt
  import Public
  import opened Storage

  /** Every bank has a rank GetSize can read. */
  predicate Ranked(banks: seq<Schema>) {
    forall i :: 0 <= i < |banks| ==> banks[i].rank <= MAX_RANK
  }

  /** (q * w) is a multiple of w. */
  lemma MultipleOf(q: int, w: int)
    requires w > 0
    ensures (q * w) % w == 0
  {
    var a := q * w;
    assert a == (a / w) * w + a % w;
    assert (q - a / w) * w == a % w;
    if q - a / w != 0 {
      if q - a / w > 0 {
        Public.MultiplyMonotone(1, q - a / w, w);
      } else {
        Public.MultiplyMonotone(q - a / w, -1, w);
      }
    }
  }

  lemma RoundedBounds(checkpointSize: int, w: int)
    requires w > 0 && checkpointSize >= 0
    ensures 0 <= CDiv(checkpointSize, w) * w <= checkpointSize
    ensures checkpointSize - CDiv(checkpointSize, w) * w < w
  {
    NonNegativeDivision(checkpointSize, w);
    var q, m := CDiv(checkpointSize, w), CRem(checkpointSize, w);
    QuotientNonNegative(checkpointSize, w);
    Public.MultiplyMonotone(0, q, w);
    assert checkpointSize == q * w + m && 0 <= m < w;
  }

  /** C division rounds a negative dividend toward zero: the multiple lies in (checkpointSize - w, 0]. */
  lemma NegativeRoundedBounds(checkpointSize: int, w: int)
    requires w > 0 && checkpointSize < 0
    ensures checkpointSize <= CDiv(checkpointSize, w) * w <= 0
    ensures CDiv(checkpointSize, w) * w - checkpointSize < w
    ensures CDiv(checkpointSize, w) * w == 0 <==> checkpointSize > -w
  {
    var q := -checkpointSize / w;
    assert CDiv(checkpointSize, w) == -q;
    RoundedBounds(-checkpointSize, w);
    assert 0 <= q * w <= -checkpointSize && -checkpointSize - q * w < w;
    assert CDiv(checkpointSize, w) * w == -(q * w);
    if q >= 1 {
      Public.MultiplyMonotone(1, q, w);
    }
  }

  lemma QuotientNonNegative(a: int, b: int)
    requires a >= 0 && b > 0
    ensures CDiv(a, b) >= 0
  {
  }

  /**
   * The window size of CheckpointLoad: checkpoint_size rounded down (C
   * division) to a multiple of the worker count W = mpi_size - 1, or W when
   * that is 0. Nothing rejects a negative checkpoint_size: rounding toward
   * zero then leaves a non-positive multiple of W, which is W again when
   * checkpoint_size lies in (-W, 0) and negative below that.
   */
  function WindowSize(checkpointSize: int, mpiSize: int): (size: int)
    requires mpiSize >= 2
    ensures size % (mpiSize - 1) == 0
    ensures size > 0 <==> checkpointSize > -(mpiSize - 1)
    ensures checkpointSize >= 0 ==> 0 < size <= (if checkpointSize > mpiSize - 1 then checkpointSize else mpiSize - 1)
    ensures checkpointSize >= mpiSize - 1 ==> checkpointSize - (mpiSize - 1) < size <= checkpointSize
    ensures -(mpiSize - 1) < checkpointSize < mpiSize - 1 ==> size == mpiSize - 1
    ensures checkpointSize <= -(mpiSize - 1) ==> checkpointSize <= size <= -(mpiSize - 1)
  {
    var w := mpiSize - 1;
    var rounded := CDiv(checkpointSize, w) * w;
    MultipleOf(CDiv(checkpointSize, w), w);
    MultipleOf(1, w);
    if checkpointSize >= 0 then
      RoundedBounds(checkpointSize, w);
      if rounded == 0 then w else rounded
    else
      NegativeRoundedBounds(checkpointSize, w);
      if rounded == 0 then w else rounded
  }

  /** The element count of task banks 0..n-1 together. */
  function BankElements(banks: seq<Schema>, n: nat): int
    requires n <= |banks| && Ranked(banks)
  {
    if n == 0 then 0 else BankElements(banks, n - 1) + Elements(banks[n - 1])
  }

  /** The column where bank j's data starts in a staged row: after the five header columns and banks 0..j-1. */
  function ColumnStart(banks: seq<Schema>, j: nat): int
    requires j <= |banks| && Ranked(banks)
  {
    3 + MAX_RANK + BankElements(banks, j)
  }

  lemma {:induction false} BankElementsMonotone(banks: seq<Schema>, i: nat, j: nat)
    requires i <= j <= |banks| && Ranked(banks)
    requires forall k :: 0 <= k < |banks| ==> Elements(banks[k]) >= 0
    ensures BankElements(banks, i) <= BankElements(banks, j)
    decreases j - i
  {
    if i < j {
      BankElementsMonotone(banks, i, j - 1);
    }
  }

  /**
   * The banks' column runs in a staged row are disjoint, in declared order,
   * and end exactly at the row width.
   */
  lemma BankColumnsDisjoint(banks: seq<Schema>, j: nat, k: nat)
    requires j < k < |banks| && Ranked(banks)
    requires forall i :: 0 <= i < |banks| ==> Elements(banks[i]) >= 0
    ensures 3 + MAX_RANK <= ColumnStart(banks, j)
    ensures ColumnStart(banks, j) + Elements(banks[j]) <= ColumnStart(banks, k)
    ensures ColumnStart(banks, k) + Elements(banks[k]) <= ColumnStart(banks, |banks|)
  {
    BankElementsMonotone(banks, 0, j);
    BankElementsMonotone(banks, j + 1, k);
    BankElementsMonotone(banks, k + 1, |banks|);
  }

  /**
   * The column cursor of CheckpointProcess: `position` starts at 5 and
   * advances by every bank's element count, whatever its policy.
   */
  method BankColumns(banks: seq<Schema>) returns (positions: seq<int>)
    requires Ranked(banks)
    ensures |positions| == |banks|
    ensures forall j :: 0 <= j < |banks| ==> positions[j] == ColumnStart(banks, j)
  {
    positions := [];
    var position := 5;
    var j := 0;
    while j < |banks|
      invariant 0 <= j <= |banks|
      invariant |positions| == j
      invariant position == ColumnStart(banks, j)
      invariant forall i :: 0 <= i < j ==> positions[i] == ColumnStart(banks, i)
    {
      positions := positions + [position];
      var size := Public.GetSize(banks[j].rank, banks[j].dim);
      position := position + size;
      j := j + 1;
    }
  }

  /** The staging window: id, rows filled, capacity, and the rows themselves. */
  datatype Checkpoint = Checkpoint(cid: int, counter: int, size: int, rows: seq<seq<int>>)

  /** Every row is `width` wide and starts with EMPTY tid and status columns. */
  predicate AllEmpty(c: Checkpoint) {
    forall i :: 0 <= i < |c.rows| ==> |c.rows[i]| >= 3 && c.rows[i][1] == TASK_EMPTY && c.rows[i][2] == TASK_EMPTY
  }

  /** The rows of a two-level buffer, each `width` cells of its block. */
  function RowsOf(buffer: Public.RowBuffer, width: int): seq<seq<int>>
    requires width >= 0
    requires forall i :: 0 <= i < |buffer.rows| ==> 0 <= buffer.rows[i] && buffer.rows[i] + width <= |buffer.block|
  {
    seq(|buffer.rows|, i requires 0 <= i < |buffer.rows| => buffer.block[buffer.rows[i]..buffer.rows[i] + width])
  }

  /**
   * CheckpointLoad(m, p, cid): a window of WindowSize rows whose width is the
   * header (3 + MAX_RANK columns) plus every task bank's element count,
   * allocated zeroed with AllocateBuffer, every row's tid and status set
   * EMPTY. When the size is not positive (a checkpoint_size of -W or less)
   * AllocateBuffer returns NULL and the EMPTY loop runs no pass: the window
   * keeps its negative size and has no rows.
   */
  method CheckpointLoad(cid: int, checkpointSize: int, mpiSize: int, banks: seq<Schema>) returns (c: Checkpoint)
    requires mpiSize >= 2
    requires Ranked(banks) && forall i :: 0 <= i < |banks| ==> Valid(banks[i])
    ensures c.cid == cid && c.counter == 0
    ensures c.size == WindowSize(checkpointSize, mpiSize)
    ensures c.size > 0 ==> |c.rows| == c.size
    ensures c.size <= 0 ==> c.rows == []
    ensures forall i :: 0 <= i < |c.rows| ==> |c.rows[i]| == ColumnStart(banks, |banks|)
    ensures AllEmpty(c)
    ensures forall i, k :: 0 <= i < |c.rows| && 0 <= k < |c.rows[i]| && k != 1 && k != 2 ==> c.rows[i][k] == 0
  {
    var size := WindowSize(checkpointSize, mpiSize);
    var width := 3 + MAX_RANK;
    var i := 0;
    while i < |banks|
      invariant 0 <= i <= |banks|
      invariant width == ColumnStart(banks, i)
      invariant width >= 3 + MAX_RANK
    {
      Public.GetSizePositive(banks[i].rank, banks[i].dim);
      width := width + Public.GetSize(banks[i].rank, banks[i].dim);
      i := i + 1;
    }
    Public.GetSizeRankTwo([size, width]);
    if size > 0 {
      Public.GetSizePositive(2, [size, width]);
    }
    var alloc := Public.AllocateBuffer(2, [size, width]);
    if alloc.None? {
      c := Checkpoint(cid, 0, size, []);
      return;
    }
    Public.RowsPartitionBlock([size, width]);
    var buffer := alloc.value;
    var rows := RowsOf(buffer, width);
    var r := 0;
    while r < size
      invariant 0 <= r <= size && |rows| == size
      invariant forall k :: 0 <= k < size ==> |rows[k]| == width
      invariant forall k :: 0 <= k < r ==> rows[k][1] == TASK_EMPTY && rows[k][2] == TASK_EMPTY
      invariant forall k, l :: 0 <= k < size && 0 <= l < width && (k >= r || (l != 1 && l != 2)) ==> rows[k][l] == 0
    {
      rows := rows[r := rows[r][1 := TASK_EMPTY][2 := TASK_EMPTY]];
      r := r + 1;
    }
    c := Checkpoint(cid, 0, size, rows);
  }

  /**
   * CheckpointReset(m, p, c, cid): the new id, counter back to 0, every
   * row's tid and status EMPTY; nothing else changes.
   */
  function CheckpointReset(c: Checkpoint, cid: int): (r: Checkpoint)
    requires forall i :: 0 <= i < |c.rows| ==> |c.rows[i]| >= 3
    ensures r.cid == cid && r.counter == 0 && r.size == c.size
    ensures AllEmpty(r) && |r.rows| == |c.rows|
    ensures forall i :: 0 <= i < |r.rows| ==> |r.rows[i]| == |c.rows[i]|
    ensures forall i, k :: 0 <= i < |r.rows| && 0 <= k < |r.rows[i]| && k != 1 && k != 2 ==> r.rows[i][k] == c.rows[i][k]
  {
    var rows := seq(|c.rows|, i requires 0 <= i < |c.rows| => c.rows[i][1 := TASK_EMPTY][2 := TASK_EMPTY]);
    Checkpoint(cid, 0, c.size, rows)
  }

  /** Resetting a freshly loaded window only renames it; resetting twice is resetting once. */
  lemma ResetOfFresh(c: Checkpoint, cid: int)
    requires AllEmpty(c)
    ensures CheckpointReset(c, cid) == c.(cid := cid, counter := 0)
    ensures CheckpointReset(CheckpointReset(c, cid), cid) == CheckpointReset(c, cid)
  {
    var r := CheckpointReset(c, cid);
    forall i | 0 <= i < |c.rows|
      ensures r.rows[i] == c.rows[i]
    {
    }
  }

  /** A row takes part in CheckpointProcess only when neither its tid nor its status is EMPTY. */
  predicate Staged(row: seq<int>)
    requires |row| >= 5
  {
    row[1] != TASK_EMPTY && row[2] != TASK_EMPTY
  }

  /**
   * The offset law of CheckpointProcess for a staged row with task id `tid`
   * at board location (x, y), for a bank of dims (d0, d1) on a board X cells
   * wide: PM3D ((x + X*y)*d0, 0), LIST (tid*d0, 0), BOARD (x*d0, y*d1).
   */
  function TaskOffset(storageType: int, tid: int, x: int, y: int, d0: int, d1: int, boardX: int): (off: (int, int))
    ensures storageType == STORAGE_PM3D ==> off == ((x + boardX * y) * d0, 0)
    ensures storageType == STORAGE_LIST ==> off == (tid * d0, 0)
    ensures storageType == STORAGE_BOARD ==> off == (x * d0, y * d1)
    ensures !IsSharedPolicy(storageType) ==> off == (0, 0)
  {
    if storageType == STORAGE_PM3D then ((x + boardX * y) * d0, 0)
    else if storageType == STORAGE_LIST then (tid * d0, 0)
    else if storageType == STORAGE_BOARD then (x * d0, y * d1)
    else (0, 0)
  }

  /** Cell (k, l) lies in the d0 x d1 window at `off`. */
  predicate InWindow(off: (int, int), d0: int, d1: int, k: int, l: int) {
    off.0 <= k < off.0 + d0 && off.1 <= l < off.1 + d1
  }

  /** Two d0 x d1 windows share no cell. */
  predicate Apart(a: (int, int), b: (int, int), d0: int, d1: int) {
    a.0 + d0 <= b.0 || b.0 + d0 <= a.0 || a.1 + d1 <= b.1 || b.1 + d1 <= a.1
  }

  lemma ApartMeansDisjoint(a: (int, int), b: (int, int), d0: int, d1: int, k: int, l: int)
    requires Apart(a, b, d0, d1)
    ensures !(InWindow(a, d0, d1, k, l) && InWindow(b, d0, d1, k, l))
  {
  }

  /** The key a policy addresses a task by is in range on an X x Y board. */
  predicate KeyInRange(storageType: int, tid: int, x: int, y: int, boardX: int, boardY: int) {
    if storageType == STORAGE_LIST then 0 <= tid < boardX * boardY
    else 0 <= x < boardX && 0 <= y < boardY
  }

  /** Two tasks have different keys under a policy: task ids for LIST, board cells otherwise. */
  predicate DistinctKeys(storageType: int, tid: int, x: int, y: int, tid': int, x': int, y': int) {
    if storageType == STORAGE_LIST then tid != tid' else (x, y) != (x', y')
  }

  lemma StripsApart(i: int, j: int, d0: int)
    requires i != j && d0 > 0
    ensures i * d0 + d0 <= j * d0 || j * d0 + d0 <= i * d0
  {
    if i < j {
      Public.MultiplyMonotone(i + 1, j, d0);
    } else {
      Public.MultiplyMonotone(j + 1, i, d0);
    }
  }

  /** Row-major board indices x + X*y of distinct in-range cells differ. */
  lemma BoardIndexInjective(x: int, y: int, x': int, y': int, boardX: int)
    requires 0 <= x < boardX && 0 <= x' < boardX && 0 <= y && 0 <= y'
    requires (x, y) != (x', y')
    ensures x + boardX * y != x' + boardX * y'
  {
    if y == y' {
    } else if y < y' {
      Public.MultiplyMonotone(y + 1, y', boardX);
      assert boardX * (y + 1) == boardX * y + boardX;
    } else {
      Public.MultiplyMonotone(y' + 1, y, boardX);
      assert boardX * (y' + 1) == boardX * y' + boardX;
    }
  }

  /** Distinct in-range tasks get disjoint windows under every shared policy. */
  lemma OffsetsDisjoint(storageType: int, tid: int, x: int, y: int, tid': int, x': int, y': int,
                        d0: int, d1: int, boardX: int, boardY: int)
    requires IsSharedPolicy(storageType) && d0 > 0 && d1 > 0
    requires KeyInRange(storageType, tid, x, y, boardX, boardY) && KeyInRange(storageType, tid', x', y', boardX, boardY)
    requires DistinctKeys(storageType, tid, x, y, tid', x', y')
    ensures Apart(TaskOffset(storageType, tid, x, y, d0, d1, boardX), TaskOffset(storageType, tid', x', y', d0, d1, boardX), d0, d1)
  {
    if storageType == STORAGE_PM3D {
      BoardIndexInjective(x, y, x', y', boardX);
      StripsApart(x + boardX * y, x' + boardX * y', d0);
    } else if storageType == STORAGE_LIST {
      StripsApart(tid, tid', d0);
    } else {
      if x != x' {
        StripsApart(x, x', d0);
      } else {
        StripsApart(y, y', d1);
      }
    }
  }

  lemma PlaneWindowInShape(tid: int, x: int, y: int, d0: int, boardX: int, boardY: int)
    requires d0 > 0 && 0 <= x < boardX && 0 <= y < boardY
    ensures 0 <= (x + boardX * y) * d0 && (x + boardX * y) * d0 + d0 <= d0 * (boardX * boardY)
  {
    var n := boardX * boardY;
    var idx := x + boardX * y;
    Public.MultiplyMonotone(0, y, boardX);
    Public.MultiplyMonotone(y + 1, boardY, boardX);
    assert (y + 1) * boardX == boardX * y + boardX;
    assert idx + 1 <= n;
    Public.MultiplyMonotone(0, idx, d0);
    Public.MultiplyMonotone(idx + 1, n, d0);
    assert (idx + 1) * d0 == idx * d0 + d0;
  }

  lemma StripInShape(i: int, d0: int, n: int)
    requires d0 > 0 && 0 <= i < n
    ensures 0 <= i * d0 && i * d0 + d0 <= d0 * n
  {
    Public.MultiplyMonotone(0, i, d0);
    Public.MultiplyMonotone(i + 1, n, d0);
    assert (i + 1) * d0 == i * d0 + d0;
  }

  /**
   * A staged task's window lies inside the pool-wide shape the master
   * allocates for the bank (Storage.PoolShape with pool_size = X * Y).
   */
  lemma WindowInShape(storageType: int, tid: int, x: int, y: int, d0: int, d1: int, boardX: int, boardY: int)
    requires IsSharedPolicy(storageType) && d0 > 0 && d1 > 0
    requires KeyInRange(storageType, tid, x, y, boardX, boardY)
    ensures var off := TaskOffset(storageType, tid, x, y, d0, d1, boardX);
      && 0 <= off.0 && 0 <= off.1
      && off.0 + d0 <= (if storageType == STORAGE_BOARD then d0 * boardX else d0 * (boardX * boardY))
      && off.1 + d1 <= (if storageType == STORAGE_BOARD then d1 * boardY else d1)
  {
    if storageType == STORAGE_PM3D {
      PlaneWindowInShape(tid, x, y, d0, boardX, boardY);
    } else if storageType == STORAGE_LIST {
      StripInShape(tid, d0, boardX * boardY);
    } else {
      StripInShape(x, d0, boardX);
      StripInShape(y, d1, boardY);
    }
  }

  /** 0 <= a*d1 + b < d0*d1 for a cell (a, b) of a d0 x d1 array. */
  lemma FlatIndex(a: int, b: int, d0: int, d1: int)
    requires 0 <= a < d0 && 0 <= b < d1
    ensures 0 <= a * d1 + b < d0 * d1
  {
    Public.MultiplyMonotone(0, a, d1);
    Public.MultiplyMonotone(a + 1, d0, d1);
    assert (a + 1) * d1 == a * d1 + d1;
  }

  /** Vec2Array: a row-major vector read as a d0 x d1 array. */
  function Unflatten(vec: seq<int>, d0: nat, d1: nat): (data: seq<seq<int>>)
    requires d0 * d1 <= |vec|
    ensures |data| == d0 && forall a :: 0 <= a < d0 ==> |data[a]| == d1
  {
    seq(d0, a requires 0 <= a < d0 =>
      seq(d1, b requires 0 <= b < d1 => FlatIndex(a, b, d0, d1); vec[a * d1 + b]))
  }

  /** Cell (a, b) of the unflattened array is element a*d1 + b of the vector (row-major order). */
  lemma UnflattenCell(vec: seq<int>, d0: nat, d1: nat, a: int, b: int)
    requires d0 * d1 <= |vec| && 0 <= a < d0 && 0 <= b < d1
    ensures 0 <= a * d1 + b < |vec| && Unflatten(vec, d0, d1)[a][b] == vec[a * d1 + b]
  {
    FlatIndex(a, b, d0, d1);
  }

  /** The d0 x d1 window at `off` lies inside `buffer`. */
  predicate Fits(buffer: seq<seq<int>>, off: (int, int), d0: nat, d1: nat) {
    && 0 <= off.0 && off.0 + d0 <= |buffer| && 0 <= off.1
    && forall k :: off.0 <= k < off.0 + d0 ==> off.1 + d1 <= |buffer[k]|
  }

  /** The windowed copy as a reference: window cells come from `data`, every other cell stays. */
  function Overlay(buffer: seq<seq<int>>, data: seq<seq<int>>, off: (int, int), d0: nat, d1: nat): seq<seq<int>>
    requires |data| == d0 && forall a :: 0 <= a < d0 ==> |data[a]| == d1
  {
    seq(|buffer|, k requires 0 <= k < |buffer| =>
      seq(|buffer[k]|, l requires 0 <= l < |buffer[k]| =>
        if InWindow(off, d0, d1, k, l) then data[k - off.0][l - off.1] else buffer[k][l]))
  }

  /**
   * The commit loops of CheckpointProcess: for k over the window's rows and
   * l over its columns, pool[k][l] := data[k - off0][l - off1].
   */
  method CopyWindow(buffer: seq<seq<int>>, data: seq<seq<int>>, off: (int, int), d0: nat, d1: nat) returns (out: seq<seq<int>>)
    requires |data| == d0 && forall a :: 0 <= a < d0 ==> |data[a]| == d1
    requires Fits(buffer, off, d0, d1)
    ensures out == Overlay(buffer, data, off, d0, d1)
    ensures forall k, l :: 0 <= k < |out| && 0 <= l < |out[k]| && !InWindow(off, d0, d1, k, l) ==> out[k][l] == buffer[k][l]
  {
    out := buffer;
    var k := off.0;
    while k < off.0 + d0
      invariant off.0 <= k <= off.0 + d0
      invariant |out| == |buffer| && forall r :: 0 <= r < |buffer| ==> |out[r]| == |buffer[r]|
      invariant forall r, l :: 0 <= r < |out| && 0 <= l < |out[r]| ==>
        out[r][l] == (if InWindow(off, k - off.0, d1, r, l) then data[r - off.0][l - off.1] else buffer[r][l])
    {
      var l := off.1;
      while l < off.1 + d1
        invariant off.1 <= l <= off.1 + d1
        invariant |out| == |buffer| && forall r :: 0 <= r < |buffer| ==> |out[r]| == |buffer[r]|
        invariant forall r, c :: 0 <= r < |out| && 0 <= c < |out[r]| ==>
          out[r][c] == (if InWindow(off, k - off.0, d1, r, c) || (r == k && off.1 <= c < l) then data[r - off.0][c - off.1] else buffer[r][c])
      {
        out := out[k := out[k][l := data[k - off.0][l - off.1]]];
        l := l + 1;
      }
      k := k + 1;
    }
    var reference := Overlay(buffer, data, off, d0, d1);
    forall r | 0 <= r < |out|
      ensures out[r] == reference[r]
    {
    }
  }

  /** Every row of the window is wide enough to hold the header and a d0 x d1 bank at `position`. */
  predicate RowsCarry(rows: seq<seq<int>>, position: int, d0: nat, d1: nat) {
    3 + MAX_RANK <= position && forall i :: 0 <= i < |rows| ==> position + d0 * d1 <= |rows[i]|
  }

  /** The write offset of a staged row: its tid in column 1, its location in columns 3 and 4. */
  function RowOffset(row: seq<int>, storageType: int, d0: int, d1: int, boardX: int): (int, int)
    requires |row| >= 5
  {
    TaskOffset(storageType, row[1], row[3], row[4], d0, d1, boardX)
  }

  /** The bank data a staged row carries, as a d0 x d1 array. */
  function RowData(row: seq<int>, position: int, d0: nat, d1: nat): seq<seq<int>>
    requires 0 <= position && position + d0 * d1 <= |row|
  {
    Unflatten(row[position..position + d0 * d1], d0, d1)
  }

  /** The staged rows among the first n have windows inside the pool buffer. */
  predicate WindowsFit(buffer: seq<seq<int>>, rows: seq<seq<int>>, n: nat, storageType: int, d0: nat, d1: nat, boardX: int)
    requires n <= |rows| && forall i :: 0 <= i < |rows| ==> |rows[i]| >= 5
  {
    forall i :: 0 <= i < n && Staged(rows[i]) ==> Fits(buffer, RowOffset(rows[i], storageType, d0, d1, boardX), d0, d1)
  }

  /** Every staged row among the first n has a key on the X x Y board under the policy. */
  predicate KeysInRange(rows: seq<seq<int>>, n: nat, storageType: int, boardX: int, boardY: int)
    requires n <= |rows| && forall i :: 0 <= i < |rows| ==> |rows[i]| >= 5
  {
    forall i :: 0 <= i < n && Staged(rows[i]) ==> KeyInRange(storageType, rows[i][1], rows[i][3], rows[i][4], boardX, boardY)
  }

  /**
   * Why the unchecked copy at the source's call site stays in bounds: the
   * master's buffer for a shared bank has the dims Storage.PoolShape gives
   * it (pool_size = X * Y), so every staged row whose key lies on the board
   * has its window inside the buffer.
   */
  lemma PoolShapeWindowsFit(buffer: seq<seq<int>>, rows: seq<seq<int>>, n: nat, s: Schema, boardX: int, boardY: int)
    requires n <= |rows| && forall i :: 0 <= i < |rows| ==> |rows[i]| >= 5
    requires IsSharedPolicy(s.storageType) && s.dim[0] > 0 && s.dim[1] > 0
    requires var shape := PoolShape(s, boardX * boardY, [boardX, boardY]).value;
      |buffer| == shape[0] && forall k :: 0 <= k < |buffer| ==> |buffer[k]| == shape[1]
    requires KeysInRange(rows, n, s.storageType, boardX, boardY)
    ensures WindowsFit(buffer, rows, n, s.storageType, s.dim[0], s.dim[1], boardX)
  {
    forall i | 0 <= i < n && Staged(rows[i])
      ensures Fits(buffer, RowOffset(rows[i], s.storageType, s.dim[0], s.dim[1], boardX), s.dim[0], s.dim[1])
    {
      WindowInShape(s.storageType, rows[i][1], rows[i][3], rows[i][4], s.dim[0], s.dim[1], boardX, boardY);
    }
  }

  /**
   * The shared-policy pass of CheckpointProcess over rows 0..n-1 of the
   * window for one task bank (dims d0 x d1, data at column `position`):
   * every staged row's data is copied into the pool-wide buffer at its
   * offset; EMPTY rows are skipped.
   */
  function ProcessShared(buffer: seq<seq<int>>, rows: seq<seq<int>>, n: nat, storageType: int,
                         d0: nat, d1: nat, position: int, boardX: int): (r: seq<seq<int>>)
    requires n <= |rows| && RowsCarry(rows, position, d0, d1)
    requires WindowsFit(buffer, rows, n, storageType, d0, d1, boardX)
    ensures |r| == |buffer| && forall k :: 0 <= k < |buffer| ==> |r[k]| == |buffer[k]|
  {
    if n == 0 then buffer
    else
      var before := ProcessShared(buffer, rows, n - 1, storageType, d0, d1, position, boardX);
      var row := rows[n - 1];
      if Staged(row) then
        var off := RowOffset(row, storageType, d0, d1, boardX);
        assert Fits(before, off, d0, d1);
        Overlay(before, RowData(row, position, d0, d1), off, d0, d1)
      else before
  }

  /** Staged rows' windows coincide or share no cell. */
  predicate ClashFree(rows: seq<seq<int>>, n: nat, storageType: int, d0: nat, d1: nat, boardX: int)
    requires n <= |rows| && forall i :: 0 <= i < |rows| ==> |rows[i]| >= 5
  {
    forall i, j :: 0 <= i < j < n && Staged(rows[i]) && Staged(rows[j]) ==>
      RowOffset(rows[i], storageType, d0, d1, boardX) == RowOffset(rows[j], storageType, d0, d1, boardX)
      || Apart(RowOffset(rows[i], storageType, d0, d1, boardX), RowOffset(rows[j], storageType, d0, d1, boardX), d0, d1)
  }

  /** No staged row after row i (and before n) writes the same window. */
  predicate LastWriter(rows: seq<seq<int>>, n: nat, i: nat, storageType: int, d0: nat, d1: nat, boardX: int)
    requires i < n <= |rows| && forall k :: 0 <= k < |rows| ==> |rows[k]| >= 5
  {
    forall j :: i < j < n && Staged(rows[j]) ==>
      RowOffset(rows[j], storageType, d0, d1, boardX) != RowOffset(rows[i], storageType, d0, d1, boardX)
  }

  /** Some staged row among the first n writes cell (k, l). */
  predicate Covered(rows: seq<seq<int>>, n: nat, storageType: int, d0: nat, d1: nat, boardX: int, k: int, l: int)
    requires n <= |rows| && forall i :: 0 <= i < |rows| ==> |rows[i]| >= 5
  {
    exists i :: 0 <= i < n && Staged(rows[i]) && InWindow(RowOffset(rows[i], storageType, d0, d1, boardX), d0, d1, k, l)
  }

  /**
   * What ProcessShared leaves in the window of each staged row that no later
   * staged row overwrites: that row's bank data.
   */
  lemma {:induction false} ProcessSharedWindows(buffer: seq<seq<int>>, rows: seq<seq<int>>, n: nat, storageType: int,
                                                d0: nat, d1: nat, position: int, boardX: int, i: nat, k: int, l: int)
    requires n <= |rows| && RowsCarry(rows, position, d0, d1)
    requires WindowsFit(buffer, rows, n, storageType, d0, d1, boardX)
    requires ClashFree(rows, n, storageType, d0, d1, boardX)
    requires i < n && Staged(rows[i]) && LastWriter(rows, n, i, storageType, d0, d1, boardX)
    requires InWindow(RowOffset(rows[i], storageType, d0, d1, boardX), d0, d1, k, l)
    ensures 0 <= k < |buffer| && 0 <= l < |buffer[k]|
    ensures ProcessShared(buffer, rows, n, storageType, d0, d1, position, boardX)[k][l]
      == RowData(rows[i], position, d0, d1)[k - RowOffset(rows[i], storageType, d0, d1, boardX).0][l - RowOffset(rows[i], storageType, d0, d1, boardX).1]
  {
    var offI := RowOffset(rows[i], storageType, d0, d1, boardX);
    assert Fits(buffer, offI, d0, d1);
    ProcessSharedUnfold(buffer, rows, n, storageType, d0, d1, position, boardX, k, l);
    if i < n - 1 {
      assert LastWriter(rows, n - 1, i, storageType, d0, d1, boardX);
      ProcessSharedWindows(buffer, rows, n - 1, storageType, d0, d1, position, boardX, i, k, l);
      var row := rows[n - 1];
      if Staged(row) {
        var off := RowOffset(row, storageType, d0, d1, boardX);
        assert off != offI;
        ApartMeansDisjoint(offI, off, d0, d1, k, l);
      }
    }
  }

  /** The last row of the pass writes cell (k, l) when the cell is in its window and it is staged; otherwise the cell is as before. */
  lemma ProcessSharedUnfold(buffer: seq<seq<int>>, rows: seq<seq<int>>, n: nat, storageType: int,
                            d0: nat, d1: nat, position: int, boardX: int, k: int, l: int)
    requires 0 < n <= |rows| && RowsCarry(rows, position, d0, d1)
    requires WindowsFit(buffer, rows, n, storageType, d0, d1, boardX)
    requires 0 <= k < |buffer| && 0 <= l < |buffer[k]|
    ensures WindowsFit(buffer, rows, n - 1, storageType, d0, d1, boardX)
    ensures var row := rows[n - 1];
      var off := RowOffset(row, storageType, d0, d1, boardX);
      ProcessShared(buffer, rows, n, storageType, d0, d1, position, boardX)[k][l] ==
        if Staged(row) && InWindow(off, d0, d1, k, l) then RowData(row, position, d0, d1)[k - off.0][l - off.1]
        else ProcessShared(buffer, rows, n - 1, storageType, d0, d1, position, boardX)[k][l]
  {
  }

  /** ProcessShared leaves every cell no staged row covers as it was. */
  lemma {:induction false} ProcessSharedFrame(buffer: seq<seq<int>>, rows: seq<seq<int>>, n: nat, storageType: int,
                                              d0: nat, d1: nat, position: int, boardX: int, k: int, l: int)
    requires n <= |rows| && RowsCarry(rows, position, d0, d1)
    requires WindowsFit(buffer, rows, n, storageType, d0, d1, boardX)
    requires 0 <= k < |buffer| && 0 <= l < |buffer[k]|
    requires !Covered(rows, n, storageType, d0, d1, boardX, k, l)
    ensures ProcessShared(buffer, rows, n, storageType, d0, d1, position, boardX)[k][l] == buffer[k][l]
  {
    if n > 0 {
      assert !Covered(rows, n - 1, storageType, d0, d1, boardX, k, l);
      ProcessSharedFrame(buffer, rows, n - 1, storageType, d0, d1, position, boardX, k, l);
      var row := rows[n - 1];
      if Staged(row) {
        assert !InWindow(RowOffset(row, storageType, d0, d1, boardX), d0, d1, k, l);
      }
    }
  }

  /** Rows whose keys are in range on the board never clash, whether their keys repeat or not. */
  lemma KeysInRangeClashFree(rows: seq<seq<int>>, n: nat, storageType: int, d0: nat, d1: nat, boardX: int, boardY: int)
    requires n <= |rows| && forall i :: 0 <= i < |rows| ==> |rows[i]| >= 5
    requires IsSharedPolicy(storageType) && d0 > 0 && d1 > 0
    requires forall i :: 0 <= i < n && Staged(rows[i]) ==> KeyInRange(storageType, rows[i][1], rows[i][3], rows[i][4], boardX, boardY)
    ensures ClashFree(rows, n, storageType, d0, d1, boardX)
  {
    forall i, j | 0 <= i < j < n && Staged(rows[i]) && Staged(rows[j])
      ensures RowOffset(rows[i], storageType, d0, d1, boardX) == RowOffset(rows[j], storageType, d0, d1, boardX)
        || Apart(RowOffset(rows[i], storageType, d0, d1, boardX), RowOffset(rows[j], storageType, d0, d1, boardX), d0, d1)
    {
      if DistinctKeys(storageType, rows[i][1], rows[i][3], rows[i][4], rows[j][1], rows[j][3], rows[j][4]) {
        OffsetsDisjoint(storageType, rows[i][1], rows[i][3], rows[i][4], rows[j][1], rows[j][3], rows[j][4], d0, d1, boardX, boardY);
      }
    }
  }

  /** A window reset by CheckpointReset is processed as a no-op: every row is skipped. */
  lemma {:induction false} ResetWindowIsNoOp(buffer: seq<seq<int>>, c: Checkpoint, cid: int, n: nat, storageType: int,
                                             d0: nat, d1: nat, position: int, boardX: int)
    requires forall i :: 0 <= i < |c.rows| ==> |c.rows[i]| >= 5
    requires n <= |c.rows| && RowsCarry(c.rows, position, d0, d1)
    ensures var rows := CheckpointReset(c, cid).rows;
      RowsCarry(rows, position, d0, d1) && WindowsFit(buffer, rows, n, storageType, d0, d1, boardX)
      && ProcessShared(buffer, rows, n, storageType, d0, d1, position, boardX) == buffer
  {
    if n > 0 {
      ResetWindowIsNoOp(buffer, c, cid, n - 1, storageType, d0, d1, position, boardX);
    }
  }

  /** A pool's task record p->tasks[tid]: header fields and one buffer per task bank. */
  datatype TaskSlot = TaskSlot(tid: int, status: int, location: (int, int), banks: seq<seq<seq<int>>>)

  /** Every staged row among the first n names a task slot whose bank j holds a d0 x d1 array. */
  predicate SlotsFit(tasks: seq<TaskSlot>, rows: seq<seq<int>>, n: nat, j: nat, d0: nat, d1: nat)
    requires n <= |rows| && forall i :: 0 <= i < |rows| ==> |rows[i]| >= 5
  {
    forall i :: 0 <= i < n && Staged(rows[i]) ==>
      && 0 <= rows[i][1] < |tasks|
      && j < |tasks[rows[i][1]].banks|
      && Fits(tasks[rows[i][1]].banks[j], (0, 0), d0, d1)
  }

  /** Two task tables agree in length and in every slot's buffer shapes. */
  predicate SameShape(a: seq<TaskSlot>, b: seq<TaskSlot>) {
    && |a| == |b|
    && (forall t :: 0 <= t < |a| ==> |a[t].banks| == |b[t].banks|)
    && (forall t, m :: 0 <= t < |a| && 0 <= m < |a[t].banks| ==> |a[t].banks[m]| == |b[t].banks[m]|)
    && (forall t, m, k :: 0 <= t < |a| && 0 <= m < |a[t].banks| && 0 <= k < |a[t].banks[m]| ==> |a[t].banks[m][k]| == |b[t].banks[m][k]|)
  }

  /**
   * The BASIC pass of CheckpointProcess over rows 0..n-1 for task bank j:
   * every staged row updates p->tasks[tid]'s tid, status and location and
   * copies its d0 x d1 bank data into the slot's bank j.
   */
  function ProcessBasic(tasks: seq<TaskSlot>, rows: seq<seq<int>>, n: nat, j: nat, d0: nat, d1: nat, position: int): (r: seq<TaskSlot>)
    requires n <= |rows| && RowsCarry(rows, position, d0, d1)
    requires SlotsFit(tasks, rows, n, j, d0, d1)
    ensures SameShape(r, tasks)
  {
    if n == 0 then tasks
    else
      var before := ProcessBasic(tasks, rows, n - 1, j, d0, d1, position);
      var row := rows[n - 1];
      if Staged(row) then
        var slot := before[row[1]];
        var bank := Overlay(slot.banks[j], RowData(row, position, d0, d1), (0, 0), d0, d1);
        before[row[1] := TaskSlot(row[1], row[2], (row[3], row[4]), slot.banks[j := bank])]
      else before
  }

  /** No staged row after row i (and before n) names the same task. */
  predicate LastForTask(rows: seq<seq<int>>, n: nat, i: nat)
    requires i < n <= |rows| && forall k :: 0 <= k < |rows| ==> |rows[k]| >= 5
  {
    forall m :: i < m < n && Staged(rows[m]) ==> rows[m][1] != rows[i][1]
  }

  /**
   * After the BASIC pass the slot of each staged row's task, when no later
   * row names that task, carries that row's header and, in bank j, its bank
   * data; the slot's other banks are as before.
   */
  lemma {:induction false} ProcessBasicSlot(tasks: seq<TaskSlot>, rows: seq<seq<int>>, n: nat, j: nat, d0: nat, d1: nat, position: int, i: nat)
    requires n <= |rows| && RowsCarry(rows, position, d0, d1)
    requires SlotsFit(tasks, rows, n, j, d0, d1)
    requires i < n && Staged(rows[i]) && LastForTask(rows, n, i)
    ensures var r := ProcessBasic(tasks, rows, n, j, d0, d1, position);
      var t := rows[i][1];
      && 0 <= t < |r| && j < |r[t].banks|
      && r[t].tid == t && r[t].status == rows[i][2] && r[t].location == (rows[i][3], rows[i][4])
      && (forall a, b :: 0 <= a < d0 && 0 <= b < d1 ==> r[t].banks[j][a][b] == RowData(rows[i], position, d0, d1)[a][b])
  {
    if i < n - 1 {
      ProcessBasicSlot(tasks, rows, n - 1, j, d0, d1, position, i);
    }
  }

  /** Slots of tasks no staged row names keep every field. */
  lemma {:induction false} ProcessBasicFrame(tasks: seq<TaskSlot>, rows: seq<seq<int>>, n: nat, j: nat, d0: nat, d1: nat, position: int, t: int)
    requires n <= |rows| && RowsCarry(rows, position, d0, d1)
    requires SlotsFit(tasks, rows, n, j, d0, d1)
    requires 0 <= t < |tasks|
    requires forall i :: 0 <= i < n && Staged(rows[i]) ==> rows[i][1] != t
    ensures ProcessBasic(tasks, rows, n, j, d0, d1, position)[t] == tasks[t]
  {
    if n > 0 {
      ProcessBasicFrame(tasks, rows, n - 1, j, d0, d1, position, t);
    }
  }

  lemma SameShapeTrans(a: seq<TaskSlot>, b: seq<TaskSlot>, c: seq<TaskSlot>)
    requires SameShape(a, b) && SameShape(b, c)
    ensures SameShape(a, c)
  {
  }

  /** SlotsFit reads only the shapes of the slots. */
  lemma SlotsFitShape(a: seq<TaskSlot>, b: seq<TaskSlot>, rows: seq<seq<int>>, n: nat, j: nat, d0: nat, d1: nat)
    requires n <= |rows| && forall i :: 0 <= i < |rows| ==> |rows[i]| >= 5
    requires SameShape(a, b) && SlotsFit(b, rows, n, j, d0, d1)
    ensures SlotsFit(a, rows, n, j, d0, d1)
  {
    forall i | 0 <= i < n && Staged(rows[i])
      ensures Fits(a[rows[i][1]].banks[j], (0, 0), d0, d1)
    {
      var t := rows[i][1];
      assert Fits(b[t].banks[j], (0, 0), d0, d1);
      forall k | 0 <= k < d0
        ensures d1 <= |a[t].banks[j][k]|
      {
        assert |a[t].banks[j][k]| == |b[t].banks[j][k]|;
      }
    }
  }

  /** The BASIC pass for bank j leaves every other bank of every slot alone. */
  lemma {:induction false} ProcessBasicOtherBank(tasks: seq<TaskSlot>, rows: seq<seq<int>>, n: nat, j: nat, d0: nat, d1: nat,
                                                 position: int, t: int, m: int)
    requires n <= |rows| && RowsCarry(rows, position, d0, d1)
    requires SlotsFit(tasks, rows, n, j, d0, d1)
    requires 0 <= t < |tasks| && 0 <= m < |tasks[t].banks| && m != j
    ensures ProcessBasic(tasks, rows, n, j, d0, d1, position)[t].banks[m] == tasks[t].banks[m]
  {
    if n > 0 {
      ProcessBasicOtherBank(tasks, rows, n - 1, j, d0, d1, position, t, m);
    }
  }

  /** What the BASIC pass leaves in bank j depends only on bank j of the slots it starts from. */
  lemma {:induction false} ProcessBasicBankLocal(a: seq<TaskSlot>, b: seq<TaskSlot>, rows: seq<seq<int>>, n: nat, j: nat,
                                                 d0: nat, d1: nat, position: int)
    requires n <= |rows| && RowsCarry(rows, position, d0, d1)
    requires SameShape(a, b) && SlotsFit(a, rows, n, j, d0, d1) && SlotsFit(b, rows, n, j, d0, d1)
    requires forall u :: 0 <= u < |a| && j < |a[u].banks| ==> a[u].banks[j] == b[u].banks[j]
    ensures forall u :: 0 <= u < |a| && j < |a[u].banks| ==>
      ProcessBasic(a, rows, n, j, d0, d1, position)[u].banks[j] == ProcessBasic(b, rows, n, j, d0, d1, position)[u].banks[j]
  {
    if n > 0 {
      ProcessBasicBankLocal(a, b, rows, n - 1, j, d0, d1, position);
    }
  }

  /** The master's data CheckpointProcess writes: the pool-wide buffer of each task bank and the task table p->tasks. */
  datatype PoolData = PoolData(shared: seq<seq<seq<int>>>, tasks: seq<TaskSlot>)

  /** Every task bank has non-negative dims. */
  predicate BankDims(banks: seq<Schema>) {
    forall k :: 0 <= k < |banks| ==> banks[k].dim[0] >= 0 && banks[k].dim[1] >= 0
  }

  /**
   * What CheckpointProcess needs of the window and the pool: every row holds
   * each bank at its column, the staged windows of a shared bank fit its
   * pool-wide buffer, and the staged tasks of a BASIC bank have slots.
   */
  predicate Processable(pd: PoolData, rows: seq<seq<int>>, banks: seq<Schema>, boardX: int) {
    && Ranked(banks) && BankDims(banks)
    && |pd.shared| == |banks|
    && (forall i :: 0 <= i < |rows| ==> |rows[i]| >= 5)
    && (forall k :: 0 <= k < |banks| ==> RowsCarry(rows, ColumnStart(banks, k), banks[k].dim[0], banks[k].dim[1]))
    && (forall k :: 0 <= k < |banks| && IsSharedPolicy(banks[k].storageType) ==>
          WindowsFit(pd.shared[k], rows, |rows|, banks[k].storageType, banks[k].dim[0], banks[k].dim[1], boardX))
    && (forall k :: 0 <= k < |banks| && banks[k].storageType == STORAGE_BASIC ==>
          SlotsFit(pd.tasks, rows, |rows|, k, banks[k].dim[0], banks[k].dim[1]))
  }

  /** The shared-policy pass for bank k over the whole window, at the bank's column. */
  function SharedPass(pd: PoolData, rows: seq<seq<int>>, banks: seq<Schema>, boardX: int, k: nat): seq<seq<int>>
    requires k < |banks| && Processable(pd, rows, banks, boardX) && IsSharedPolicy(banks[k].storageType)
  {
    ProcessShared(pd.shared[k], rows, |rows|, banks[k].storageType, banks[k].dim[0], banks[k].dim[1], ColumnStart(banks, k), boardX)
  }

  /** The BASIC pass for bank k over the whole window, at the bank's column, from the task table `tasks`. */
  function BasicPass(tasks: seq<TaskSlot>, pd: PoolData, rows: seq<seq<int>>, banks: seq<Schema>, boardX: int, k: nat): (r: seq<TaskSlot>)
    requires k < |banks| && Processable(pd, rows, banks, boardX) && banks[k].storageType == STORAGE_BASIC
    requires SameShape(tasks, pd.tasks)
    ensures SameShape(r, pd.tasks)
  {
    SlotsFitShape(tasks, pd.tasks, rows, |rows|, k, banks[k].dim[0], banks[k].dim[1]);
    var r := ProcessBasic(tasks, rows, |rows|, k, banks[k].dim[0], banks[k].dim[1], ColumnStart(banks, k));
    SameShapeTrans(r, tasks, pd.tasks);
    r
  }

  /**
   * The j-loop of CheckpointProcess over task banks 0..n-1: bank j's data sit
   * at column ColumnStart(banks, j) of every row; a PM3D, LIST or BOARD bank
   * is copied into its pool-wide buffer by ProcessShared, a BASIC bank into
   * the task table by ProcessBasic, and a bank of any other policy is only
   * stepped over. No bank's pass touches another bank's buffer, so a shared
   * pass starts from the buffer as it was.
   */
  function ProcessBanks(pd: PoolData, rows: seq<seq<int>>, banks: seq<Schema>, boardX: int, n: nat): (r: PoolData)
    requires n <= |banks| && Processable(pd, rows, banks, boardX)
    ensures |r.shared| == |pd.shared| && SameShape(r.tasks, pd.tasks)
    ensures forall k :: n <= k < |banks| ==> r.shared[k] == pd.shared[k]
  {
    if n == 0 then pd
    else
      var before := ProcessBanks(pd, rows, banks, boardX, n - 1);
      var s := banks[n - 1];
      if IsSharedPolicy(s.storageType) then
        before.(shared := before.shared[n - 1 := SharedPass(pd, rows, banks, boardX, n - 1)])
      else if s.storageType == STORAGE_BASIC then
        before.(tasks := BasicPass(before.tasks, pd, rows, banks, boardX, n - 1))
      else before
  }

  /** A shared bank's buffer ends as ProcessShared leaves it at the bank's column; every other buffer is untouched. */
  lemma {:induction false} ProcessBanksShared(pd: PoolData, rows: seq<seq<int>>, banks: seq<Schema>, boardX: int, n: nat, k: nat)
    requires n <= |banks| && Processable(pd, rows, banks, boardX) && k < |banks|
    ensures ProcessBanks(pd, rows, banks, boardX, n).shared[k] ==
      (if k < n && IsSharedPolicy(banks[k].storageType) then SharedPass(pd, rows, banks, boardX, k) else pd.shared[k])
  {
    if n > 0 {
      ProcessBanksShared(pd, rows, banks, boardX, n - 1, k);
    }
  }

  /** BasicPass for bank k leaves bank m != k of every slot alone. */
  lemma BasicPassOther(tasks: seq<TaskSlot>, pd: PoolData, rows: seq<seq<int>>, banks: seq<Schema>, boardX: int, k: nat, t: int, m: int)
    requires k < |banks| && Processable(pd, rows, banks, boardX) && banks[k].storageType == STORAGE_BASIC
    requires SameShape(tasks, pd.tasks)
    requires 0 <= t < |tasks| && 0 <= m < |tasks[t].banks| && m != k
    ensures BasicPass(tasks, pd, rows, banks, boardX, k)[t].banks[m] == tasks[t].banks[m]
  {
    SlotsFitShape(tasks, pd.tasks, rows, |rows|, k, banks[k].dim[0], banks[k].dim[1]);
    ProcessBasicOtherBank(tasks, rows, |rows|, k, banks[k].dim[0], banks[k].dim[1], ColumnStart(banks, k), t, m);
  }

  /** BasicPass for bank k from a table whose bank k agrees with the original one's leaves the same bank k. */
  lemma BasicPassLocal(tasks: seq<TaskSlot>, pd: PoolData, rows: seq<seq<int>>, banks: seq<Schema>, boardX: int, k: nat, t: int)
    requires k < |banks| && Processable(pd, rows, banks, boardX) && banks[k].storageType == STORAGE_BASIC
    requires SameShape(tasks, pd.tasks)
    requires forall u :: 0 <= u < |tasks| && k < |tasks[u].banks| ==> tasks[u].banks[k] == pd.tasks[u].banks[k]
    requires 0 <= t < |tasks| && k < |tasks[t].banks|
    ensures BasicPass(tasks, pd, rows, banks, boardX, k)[t].banks[k] == BasicPass(pd.tasks, pd, rows, banks, boardX, k)[t].banks[k]
  {
    SlotsFitShape(tasks, pd.tasks, rows, |rows|, k, banks[k].dim[0], banks[k].dim[1]);
    ProcessBasicBankLocal(tasks, pd.tasks, rows, |rows|, k, banks[k].dim[0], banks[k].dim[1], ColumnStart(banks, k));
  }

  /** BasicPass for bank k sets the slot of a staged row's task, when no later row names it, to that row's header. */
  lemma BasicPassHeader(tasks: seq<TaskSlot>, pd: PoolData, rows: seq<seq<int>>, banks: seq<Schema>, boardX: int, k: nat, i: nat)
    requires k < |banks| && Processable(pd, rows, banks, boardX) && banks[k].storageType == STORAGE_BASIC
    requires SameShape(tasks, pd.tasks)
    requires i < |rows| && Staged(rows[i]) && LastForTask(rows, |rows|, i)
    ensures var r := BasicPass(tasks, pd, rows, banks, boardX, k);
      var t := rows[i][1];
      && 0 <= t < |r|
      && r[t].tid == t && r[t].status == rows[i][2] && r[t].location == (rows[i][3], rows[i][4])
  {
    SlotsFitShape(tasks, pd.tasks, rows, |rows|, k, banks[k].dim[0], banks[k].dim[1]);
    ProcessBasicSlot(tasks, rows, |rows|, k, banks[k].dim[0], banks[k].dim[1], ColumnStart(banks, k), i);
  }

  /** One bank of the fold: only a BASIC bank changes the task table, by its pass. */
  lemma ProcessBanksTasksStep(pd: PoolData, rows: seq<seq<int>>, banks: seq<Schema>, boardX: int, n: nat)
    requires 0 < n <= |banks| && Processable(pd, rows, banks, boardX)
    ensures var before := ProcessBanks(pd, rows, banks, boardX, n - 1);
      ProcessBanks(pd, rows, banks, boardX, n).tasks ==
        (if banks[n - 1].storageType == STORAGE_BASIC then BasicPass(before.tasks, pd, rows, banks, boardX, n - 1) else before.tasks)
  {
  }

  /** Bank k of each slot ends as the BASIC pass for k leaves it when bank k is BASIC, and unchanged otherwise. */
  lemma {:induction false} ProcessBanksBasic(pd: PoolData, rows: seq<seq<int>>, banks: seq<Schema>, boardX: int, n: nat,
                                             t: int, k: nat)
    requires n <= |banks| && Processable(pd, rows, banks, boardX)
    requires 0 <= t < |pd.tasks| && k < |pd.tasks[t].banks|
    ensures ProcessBanks(pd, rows, banks, boardX, n).tasks[t].banks[k] ==
      (if k < n && banks[k].storageType == STORAGE_BASIC then BasicPass(pd.tasks, pd, rows, banks, boardX, k)[t].banks[k]
       else pd.tasks[t].banks[k])
    decreases n, 1
  {
    if n > 0 {
      ProcessBanksBasic(pd, rows, banks, boardX, n - 1, t, k);
      if banks[n - 1].storageType == STORAGE_BASIC {
        if k == n - 1 {
          BasicBankEnds(pd, rows, banks, boardX, n, t);
        } else {
          BasicBankKept(pd, rows, banks, boardX, n, t, k);
        }
      } else {
        ProcessBanksTasksStep(pd, rows, banks, boardX, n);
      }
    }
  }

  /** The fold's last bank, when BASIC, ends as its own pass from the original table leaves it. */
  lemma BasicBankEnds(pd: PoolData, rows: seq<seq<int>>, banks: seq<Schema>, boardX: int, n: nat, t: int)
    requires 0 < n <= |banks| && Processable(pd, rows, banks, boardX) && banks[n - 1].storageType == STORAGE_BASIC
    requires 0 <= t < |pd.tasks| && n - 1 < |pd.tasks[t].banks|
    ensures ProcessBanks(pd, rows, banks, boardX, n).tasks[t].banks[n - 1] == BasicPass(pd.tasks, pd, rows, banks, boardX, n - 1)[t].banks[n - 1]
    decreases n, 0
  {
    var before := ProcessBanks(pd, rows, banks, boardX, n - 1);
    forall u | 0 <= u < |before.tasks| && n - 1 < |before.tasks[u].banks|
      ensures before.tasks[u].banks[n - 1] == pd.tasks[u].banks[n - 1]
    {
      ProcessBanksBasic(pd, rows, banks, boardX, n - 1, u, n - 1);
    }
    BasicPassLocal(before.tasks, pd, rows, banks, boardX, n - 1, t);
    ProcessBanksTasksStep(pd, rows, banks, boardX, n);
  }

  /** A BASIC bank's pass in the fold leaves the other banks of each slot as they were before it. */
  lemma BasicBankKept(pd: PoolData, rows: seq<seq<int>>, banks: seq<Schema>, boardX: int, n: nat, t: int, k: nat)
    requires 0 < n <= |banks| && Processable(pd, rows, banks, boardX) && banks[n - 1].storageType == STORAGE_BASIC
    requires 0 <= t < |pd.tasks| && k < |pd.tasks[t].banks| && k != n - 1
    ensures ProcessBanks(pd, rows, banks, boardX, n).tasks[t].banks[k] == ProcessBanks(pd, rows, banks, boardX, n - 1).tasks[t].banks[k]
  {
    var before := ProcessBanks(pd, rows, banks, boardX, n - 1);
    BasicPassOther(before.tasks, pd, rows, banks, boardX, n - 1, t, k);
    ProcessBanksTasksStep(pd, rows, banks, boardX, n);
  }

  /** Without a BASIC (alias GROUP) bank, the case in which Storage() does not materialise p->tasks, the task table is untouched. */
  lemma {:induction false} ProcessBanksNoTasks(pd: PoolData, rows: seq<seq<int>>, banks: seq<Schema>, boardX: int, n: nat)
    requires n <= |banks| && Processable(pd, rows, banks, boardX)
    requires !HasGroupBank(banks, n)
    ensures ProcessBanks(pd, rows, banks, boardX, n).tasks == pd.tasks
  {
    if n > 0 {
      assert banks[n - 1].storageType != STORAGE_BASIC;
      assert !HasGroupBank(banks, n - 1);
      ProcessBanksNoTasks(pd, rows, banks, boardX, n - 1);
    }
  }

  /** A slot that no staged row names keeps every field. */
  lemma {:induction false} ProcessBanksSlotFrame(pd: PoolData, rows: seq<seq<int>>, banks: seq<Schema>, boardX: int, n: nat, t: int)
    requires n <= |banks| && Processable(pd, rows, banks, boardX)
    requires 0 <= t < |pd.tasks|
    requires forall i :: 0 <= i < |rows| && Staged(rows[i]) ==> rows[i][1] != t
    ensures ProcessBanks(pd, rows, banks, boardX, n).tasks[t] == pd.tasks[t]
  {
    if n > 0 {
      var before := ProcessBanks(pd, rows, banks, boardX, n - 1);
      var s := banks[n - 1];
      ProcessBanksSlotFrame(pd, rows, banks, boardX, n - 1, t);
      if !IsSharedPolicy(s.storageType) && s.storageType == STORAGE_BASIC {
        SlotsFitShape(before.tasks, pd.tasks, rows, |rows|, n - 1, s.dim[0], s.dim[1]);
        ProcessBasicFrame(before.tasks, rows, |rows|, n - 1, s.dim[0], s.dim[1], ColumnStart(banks, n - 1), t);
      }
    }
  }

  /**
   * With some BASIC bank among the first n, the slot of a staged row's task
   * that no later row names carries that row's tid, status and location.
   */
  lemma {:induction false} ProcessBanksSlotHeader(pd: PoolData, rows: seq<seq<int>>, banks: seq<Schema>, boardX: int, n: nat, i: nat)
    requires n <= |banks| && Processable(pd, rows, banks, boardX)
    requires HasGroupBank(banks, n)
    requires i < |rows| && Staged(rows[i]) && LastForTask(rows, |rows|, i)
    ensures var r := ProcessBanks(pd, rows, banks, boardX, n);
      var t := rows[i][1];
      && 0 <= t < |r.tasks|
      && r.tasks[t].tid == t && r.tasks[t].status == rows[i][2] && r.tasks[t].location == (rows[i][3], rows[i][4])
  {
    var w :| 0 <= w < n && banks[w].storageType == STORAGE_GROUP;
    if banks[n - 1].storageType == STORAGE_BASIC {
      SlotHeaderAtBasic(pd, rows, banks, boardX, n, i);
    } else {
      assert w < n - 1;
      ProcessBanksSlotHeader(pd, rows, banks, boardX, n - 1, i);
      ProcessBanksTasksStep(pd, rows, banks, boardX, n);
    }
  }

  /** The fold's last bank, when BASIC, sets the header of the slot of a staged row's task that no later row names. */
  lemma SlotHeaderAtBasic(pd: PoolData, rows: seq<seq<int>>, banks: seq<Schema>, boardX: int, n: nat, i: nat)
    requires 0 < n <= |banks| && Processable(pd, rows, banks, boardX) && banks[n - 1].storageType == STORAGE_BASIC
    requires i < |rows| && Staged(rows[i]) && LastForTask(rows, |rows|, i)
    ensures var r := ProcessBanks(pd, rows, banks, boardX, n);
      var t := rows[i][1];
      && 0 <= t < |r.tasks|
      && r.tasks[t].tid == t && r.tasks[t].status == rows[i][2] && r.tasks[t].location == (rows[i][3], rows[i][4])
  {
    ProcessBanksTasksStep(pd, rows, banks, boardX, n);
    BasicPassHeader(ProcessBanks(pd, rows, banks, boardX, n - 1).tasks, pd, rows, banks, boardX, n - 1, i);
  }

  /**
   * CheckpointProcess(m, p, c) on the master's memory, for every task bank:
   * each shared buffer as ProcessShared leaves it, each slot's BASIC bank as
   * ProcessBasic leaves it, everything else unchanged, and the task table
   * untouched when Storage() did not materialise it.
   */
  lemma CheckpointProcessBanks(pd: PoolData, c: Checkpoint, banks: seq<Schema>, boardX: int)
    requires Processable(pd, c.rows, banks, boardX)
    ensures var r := ProcessBanks(pd, c.rows, banks, boardX, |banks|);
      && (forall k :: 0 <= k < |banks| ==>
            r.shared[k] == (if IsSharedPolicy(banks[k].storageType) then SharedPass(pd, c.rows, banks, boardX, k) else pd.shared[k]))
      && (forall t, k :: 0 <= t < |pd.tasks| && 0 <= k < |pd.tasks[t].banks| ==>
            r.tasks[t].banks[k] ==
              (if k < |banks| && banks[k].storageType == STORAGE_BASIC then BasicPass(pd.tasks, pd, c.rows, banks, boardX, k)[t].banks[k]
               else pd.tasks[t].banks[k]))
      && (!HasGroupBank(banks, |banks|) ==> r.tasks == pd.tasks)
  {
    forall k | 0 <= k < |banks| {
      ProcessBanksShared(pd, c.rows, banks, boardX, |banks|, k);
    }
    forall t, k | 0 <= t < |pd.tasks| && 0 <= k < |pd.tasks[t].banks| {
      ProcessBanksBasic(pd, c.rows, banks, boardX, |banks|, t, k);
    }
    if !HasGroupBank(banks, |banks|) {
      ProcessBanksNoTasks(pd, c.rows, banks, boardX, |banks|);
    }
  }
}

=== FILE: cint.dfy ===
/**
 * C integer arithmetic. Dafny's `/` and `%` are Euclidean; C (C99 and later)
 * truncates the quotient toward zero and gives the remainder the sign of the
 * dividend. Every division in the modelled sources goes through these.
 */
module CInt {

  const INT_MIN: int := -0x8000_0000
  const INT_MAX: int := 0x7FFF_FFFF

  /** True when v fits a 32-bit two's-complement `int`. */
  predicate IsInt32(v: int) {
    INT_MIN <= v <= INT_MAX
  }

  function Abs(v: int): nat {
    if v < 0 then -v else v
  }

  /** C `a / b`: the quotient truncated toward zero. */
  function CDiv(a: int, b: int): int
    requires b != 0
  {
    var q := Abs(a) / Abs(b);
    if (a < 0) == (b < 0) then q else -q
  }

  /** C `a % b`: the remainder that satisfies `a == CDiv(a, b) * b + CRem(a, b)`. */
  function CRem(a: int, b: int): (r: int)
    requires b != 0
    ensures a == CDiv(a, b) * b + r
  {
    var m := Abs(a) % Abs(b);
    assert Abs(a) == (Abs(a) / Abs(b)) * Abs(b) + m;
    if a < 0 then -m else m
  }

  /** On a non-negative dividend and a positive divisor C agrees with Dafny. */
  lemma NonNegativeDivision(a: int, b: int)
    requires a >= 0 && b > 0
    ensures CDiv(a, b) == a / b && CRem(a, b) == a % b
    ensures 0 <= CRem(a, b) < b
  {
  }

  /** The C remainder is smaller in magnitude than the divisor and never has the opposite sign of the dividend. */
  lemma RemainderBounds(a: int, b: int)
    requires b != 0
    ensures Abs(CRem(a, b)) < Abs(b)
    ensures a >= 0 ==> CRem(a, b) >= 0
    ensures a <= 0 ==> CRem(a, b) <= 0
  {
  }
}

=== FILE: codec.dfy ===
/**
 * Pack and Unpack of src/core/MMpi.c: the wire format of one task message.
 * A message is HEADER_SIZE C ints (4 bytes each, little-endian two's
 * complement) holding tag, tid, status and the 2-D location, followed by
 * each task bank's raw bytes at a running byte offset. Banks without `sync`
 * keep their offset but are neither written nor read.
 */
module Codec {
  import opened Defs
  import opened CInt
  import Public
  import opened Storage

  newtype byte = b: int | 0 <= b < 256

  const TWO32: int := 0x1_0000_0000

  /** One C int as its four bytes in memory. */
  function EncodeInt(v: int): (bs: seq<byte>)
    requires IsInt32(v)
    ensures |bs| == 4
  {
    var u := if v < 0 then v + TWO32 else v;
    [(u % 256) as byte, (u / 256 % 256) as byte, (u / 65536 % 256) as byte, (u / 16777216) as byte]
  }

  function DecodeInt(bs: seq<byte>): (v: int)
    requires |bs| == 4
    ensures IsInt32(v)
  {
    var u := bs[0] as int + 256 * (bs[1] as int + 256 * (bs[2] as int + 256 * bs[3] as int));
    if u > INT_MAX then u - TWO32 else u
  }

  lemma DecodeEncodeInt(v: int)
    requires IsInt32(v)
    ensures DecodeInt(EncodeInt(v)) == v
  {
    var u := if v < 0 then v + TWO32 else v;
    var r1 := u / 256;
    var r2 := r1 / 256;
    assert u == u % 256 + 256 * r1;
    assert r1 == r1 % 256 + 256 * r2;
    assert r2 == r2 % 256 + 256 * (r2 / 256);
    assert u / 65536 == r2;
    assert u / 16777216 == r2 / 256;
  }

  /** An int array copied byte for byte (memcpy of `n` ints). */
  function EncodeInts(vs: seq<int>): (bs: seq<byte>)
    requires forall i :: 0 <= i < |vs| ==> IsInt32(vs[i])
    ensures |bs| == 4 * |vs|
  {
    if vs == [] then [] else EncodeInt(vs[0]) + EncodeInts(vs[1..])
  }

  function DecodeInts(bs: seq<byte>, n: nat): (vs: seq<int>)
    requires |bs| == 4 * n
    ensures |vs| == n && forall i :: 0 <= i < n ==> IsInt32(vs[i])
  {
    if n == 0 then [] else [DecodeInt(bs[..4])] + DecodeInts(bs[4..], n - 1)
  }

  lemma {:induction false} DecodeEncodeInts(vs: seq<int>)
    requires forall i :: 0 <= i < |vs| ==> IsInt32(vs[i])
    ensures DecodeInts(EncodeInts(vs), |vs|) == vs
  {
    if vs != [] {
      var bs := EncodeInts(vs);
      assert bs[..4] == EncodeInt(vs[0]);
      assert bs[4..] == EncodeInts(vs[1..]);
      DecodeEncodeInt(vs[0]);
      DecodeEncodeInts(vs[1..]);
    }
  }

  /** The task as the codec sees it: header fields and each task bank's raw bytes (`storage[i].memory`). */
  datatype Task = Task(tid: int, status: int, location: (int, int), memory: seq<seq<byte>>)

  /** GetSize(rank, dim) * datatype_size: a bank's size in bytes. */
  function BankBytes(s: Schema): int
    requires s.rank <= MAX_RANK
  {
    Public.GetSize(s.rank, s.dim) * s.datatypeSize
  }

  /** Every bank has a rank GetSize can read and a non-negative byte size. */
  predicate Sized(banks: seq<Schema>) {
    forall i :: 0 <= i < |banks| ==> banks[i].rank <= MAX_RANK && BankBytes(banks[i]) >= 0
  }

  /** The byte size of banks 0..n-1 together. */
  function PayloadBytes(banks: seq<Schema>, n: nat): (r: int)
    requires n <= |banks| && Sized(banks)
    ensures r >= 0
  {
    if n == 0 then 0 else PayloadBytes(banks, n - 1) + BankBytes(banks[n - 1])
  }

  lemma {:induction false} PayloadMonotone(banks: seq<Schema>, i: nat, j: nat)
    requires i <= j <= |banks| && Sized(banks)
    ensures PayloadBytes(banks, i) <= PayloadBytes(banks, j)
    decreases j - i
  {
    if i < j {
      PayloadMonotone(banks, i, j - 1);
    }
  }

  /** The message size the master and the workers allocate: the header plus every bank. */
  function MessageBytes(headerSize: nat, banks: seq<Schema>): int
    requires Sized(banks)
  {
    4 * headerSize + PayloadBytes(banks, |banks|)
  }

  /** A task's memory matches the bank layout. */
  predicate Fitted(t: Task, banks: seq<Schema>)
    requires Sized(banks)
  {
    |t.memory| == |banks| && forall i :: 0 <= i < |banks| ==> |t.memory[i]| == BankBytes(banks[i])
  }

  /** The header Pack builds: tag, tid, status, location, then the uninitialised rest of `header[]`. */
  function PackHeader(tag: int, t: Task, rest: seq<int>): seq<int> {
    [tag, t.tid, t.status, t.location.0, t.location.1] + rest
  }

  /** Overwrites buffer[at..at+|data|] with data. */
  function Splice(buffer: seq<byte>, at: nat, data: seq<byte>): (r: seq<byte>)
    requires at + |data| <= |buffer|
    ensures |r| == |buffer|
    ensures r[at..at + |data|] == data
    ensures forall k :: 0 <= k < |buffer| && !(at <= k < at + |data|) ==> r[k] == buffer[k]
  {
    var r := seq(|buffer|, k requires 0 <= k < |buffer| => if at <= k < at + |data| then data[k - at] else buffer[k]);
    assert r[at..at + |data|] == data;
    r
  }

  /** Pack's bank loop over banks 0..n-1: each sync bank's bytes are copied at its running offset. */
  function PackBanks(buffer: seq<byte>, headerSize: nat, banks: seq<Schema>, t: Task, n: nat): (r: seq<byte>)
    requires n <= |banks| && Sized(banks) && Fitted(t, banks)
    requires MessageBytes(headerSize, banks) <= |buffer|
    ensures |r| == |buffer|
  {
    if n == 0 then buffer
    else
      var before := PackBanks(buffer, headerSize, banks, t, n - 1);
      PayloadMonotone(banks, n, |banks|);
      if banks[n - 1].sync != 0 then Splice(before, 4 * headerSize + PayloadBytes(banks, n - 1), t.memory[n - 1]) else before
  }

  /** The message a task occupies: a bank's bytes start after the header and the earlier banks. */
  function BankStart(headerSize: nat, banks: seq<Schema>, i: nat): int
    requires i <= |banks| && Sized(banks)
  {
    4 * headerSize + PayloadBytes(banks, i)
  }

  /** The bytes of bank i in a message buffer. */
  function BankIn(buffer: seq<byte>, headerSize: nat, banks: seq<Schema>, i: nat): (r: seq<byte>)
    requires i < |banks| && Sized(banks) && MessageBytes(headerSize, banks) <= |buffer|
    ensures |r| == BankBytes(banks[i])
  {
    PayloadMonotone(banks, i + 1, |banks|);
    buffer[BankStart(headerSize, banks, i)..BankStart(headerSize, banks, i) + BankBytes(banks[i])]
  }

  /**
   * PackBanks leaves in each bank's byte range either the task's bytes (sync
   * banks among the first n) or what the buffer held there.
   */
  lemma {:induction false} PackBanksContents(buffer: seq<byte>, headerSize: nat, banks: seq<Schema>, t: Task, n: nat, i: nat)
    requires n <= |banks| && Sized(banks) && Fitted(t, banks)
    requires MessageBytes(headerSize, banks) <= |buffer|
    requires i < |banks|
    ensures BankIn(PackBanks(buffer, headerSize, banks, t, n), headerSize, banks, i)
      == if i < n && banks[i].sync != 0 then t.memory[i] else BankIn(buffer, headerSize, banks, i)
    decreases n
  {
    if n > 0 {
      PackBanksContents(buffer, headerSize, banks, t, n - 1, i);
      if i == n - 1 {
        PackBanksStepSame(buffer, headerSize, banks, t, n);
      } else {
        PackBanksStepOther(buffer, headerSize, banks, t, n, i);
      }
    }
  }

  /** Step n of the loop is a splice of bank n-1's bytes at its start, or nothing for a non-sync bank. */
  lemma PackBanksUnfold(buffer: seq<byte>, headerSize: nat, banks: seq<Schema>, t: Task, n: nat)
    requires 0 < n <= |banks| && Sized(banks) && Fitted(t, banks)
    requires MessageBytes(headerSize, banks) <= |buffer|
    ensures BankStart(headerSize, banks, n - 1) + |t.memory[n - 1]| <= |buffer|
    ensures PackBanks(buffer, headerSize, banks, t, n) ==
      if banks[n - 1].sync != 0
      then Splice(PackBanks(buffer, headerSize, banks, t, n - 1), BankStart(headerSize, banks, n - 1), t.memory[n - 1])
      else PackBanks(buffer, headerSize, banks, t, n - 1)
  {
    PayloadMonotone(banks, n, |banks|);
  }

  /** Step n of the loop leaves bank n-1's range holding the task's bytes when bank n-1 is sync. */
  lemma PackBanksStepSame(buffer: seq<byte>, headerSize: nat, banks: seq<Schema>, t: Task, n: nat)
    requires 0 < n <= |banks| && Sized(banks) && Fitted(t, banks)
    requires MessageBytes(headerSize, banks) <= |buffer|
    ensures BankIn(PackBanks(buffer, headerSize, banks, t, n), headerSize, banks, n - 1) ==
      if banks[n - 1].sync != 0 then t.memory[n - 1] else BankIn(PackBanks(buffer, headerSize, banks, t, n - 1), headerSize, banks, n - 1)
  {
    PackBanksUnfold(buffer, headerSize, banks, t, n);
  }

  /** Step n of the loop leaves every other bank's range as it was. */
  lemma PackBanksStepOther(buffer: seq<byte>, headerSize: nat, banks: seq<Schema>, t: Task, n: nat, i: nat)
    requires 0 < n <= |banks| && Sized(banks) && Fitted(t, banks)
    requires MessageBytes(headerSize, banks) <= |buffer|
    requires i < |banks| && i != n - 1
    ensures BankIn(PackBanks(buffer, headerSize, banks, t, n), headerSize, banks, i)
      == BankIn(PackBanks(buffer, headerSize, banks, t, n - 1), headerSize, banks, i)
  {
    PackBanksUnfold(buffer, headerSize, banks, t, n);
    if banks[n - 1].sync != 0 {
      var before := PackBanks(buffer, headerSize, banks, t, n - 1);
      BanksApart(headerSize, banks, i, n - 1);
      SpliceElsewhere(before, BankStart(headerSize, banks, n - 1), t.memory[n - 1],
        BankStart(headerSize, banks, i), BankStart(headerSize, banks, i) + BankBytes(banks[i]));
    }
  }

  /** Two different banks' byte ranges do not overlap, and both lie inside the message. */
  lemma BanksApart(headerSize: nat, banks: seq<Schema>, i: nat, j: nat)
    requires i < |banks| && j < |banks| && i != j && Sized(banks)
    ensures BankStart(headerSize, banks, i) + BankBytes(banks[i]) <= MessageBytes(headerSize, banks)
    ensures BankStart(headerSize, banks, j) + BankBytes(banks[j]) <= MessageBytes(headerSize, banks)
    ensures BankStart(headerSize, banks, i) + BankBytes(banks[i]) <= BankStart(headerSize, banks, j)
      || BankStart(headerSize, banks, j) + BankBytes(banks[j]) <= BankStart(headerSize, banks, i)
  {
    PayloadMonotone(banks, i + 1, |banks|);
    PayloadMonotone(banks, j + 1, |banks|);
    if i < j {
      PayloadMonotone(banks, i + 1, j);
    } else {
      PayloadMonotone(banks, j + 1, i);
    }
  }

  /** A splice leaves a disjoint range as it was. */
  lemma SpliceElsewhere(buffer: seq<byte>, at: nat, data: seq<byte>, lo: int, hi: int)
    requires at + |data| <= |buffer| && 0 <= lo <= hi <= |buffer|
    requires hi <= at || at + |data| <= lo
    ensures Splice(buffer, at, data)[lo..hi] == buffer[lo..hi]
  {
    var r := Splice(buffer, at, data);
    assert forall k :: lo <= k < hi ==> r[k] == buffer[k];
  }

  lemma {:induction false} PackBanksPrefix(buffer: seq<byte>, headerSize: nat, banks: seq<Schema>, t: Task, n: nat)
    requires n <= |banks| && Sized(banks) && Fitted(t, banks)
    requires MessageBytes(headerSize, banks) <= |buffer|
    ensures PackBanks(buffer, headerSize, banks, t, n)[..4 * headerSize] == buffer[..4 * headerSize]
  {
    if n > 0 {
      PackBanksPrefix(buffer, headerSize, banks, t, n - 1);
    }
  }

  /** What Pack leaves behind: the message buffer, and on the master the board. */
  datatype Packed = Packed(buffer: seq<byte>, board: seq<seq<int>>)

  predicate OnBoard(board: seq<seq<int>>, location: (int, int)) {
    0 <= location.0 < |board| && 0 <= location.1 < |board[location.0]|
  }

  function SetCell(board: seq<seq<int>>, location: (int, int), v: int): (r: seq<seq<int>>)
    requires OnBoard(board, location)
    ensures |r| == |board| && forall x :: 0 <= x < |board| ==> |r[x]| == |board[x]|
    ensures forall x, y :: 0 <= x < |r| && 0 <= y < |r[x]| ==> r[x][y] == if (x, y) == location then v else board[x][y]
  {
    board[location.0 := board[location.0][location.1 := v]]
  }

  /**
   * Pack(m, buffer, p, t, tag): the header goes first; unless the tag is
   * TERMINATE the sync banks follow and, on the master, the task's board
   * cell becomes IN_USE. `rest` is the uninitialised part of `header[]`
   * beyond the five fields.
   */
  function Pack(buffer: seq<byte>, headerSize: nat, banks: seq<Schema>, t: Task, tag: int, rest: seq<int>,
                isMaster: bool, board: seq<seq<int>>): (r: Packed)
    requires headerSize >= 5 && |rest| == headerSize - 5
    requires IsInt32(tag) && IsInt32(t.tid) && IsInt32(t.status) && IsInt32(t.location.0) && IsInt32(t.location.1)
    requires forall i :: 0 <= i < |rest| ==> IsInt32(rest[i])
    requires Sized(banks) && Fitted(t, banks) && MessageBytes(headerSize, banks) <= |buffer|
    requires isMaster && tag != TAG_TERMINATE ==> OnBoard(board, t.location)
    ensures |r.buffer| == |buffer|
    ensures r.buffer[..4 * headerSize] == EncodeInts(PackHeader(tag, t, rest))
    ensures tag == TAG_TERMINATE ==> r.buffer[4 * headerSize..] == buffer[4 * headerSize..] && r.board == board
    ensures tag != TAG_TERMINATE ==> r.board == if isMaster then SetCell(board, t.location, TASK_IN_USE) else board
  {
    var header := PackHeader(tag, t, rest);
    var withHeader := Splice(buffer, 0, EncodeInts(header));
    if tag == TAG_TERMINATE then Packed(withHeader, board)
    else
      var out := PackBanks(withHeader, headerSize, banks, t, |banks|);
      PackBanksPrefix(withHeader, headerSize, banks, t, |banks|);
      Packed(out, if isMaster then SetCell(board, t.location, TASK_IN_USE) else board)
  }

  /** Unpack's bank loop: each sync bank's bytes are read from its running offset; other banks keep theirs. */
  function UnpackBanks(buffer: seq<byte>, headerSize: nat, banks: seq<Schema>, memory: seq<seq<byte>>): (r: seq<seq<byte>>)
    requires Sized(banks) && MessageBytes(headerSize, banks) <= |buffer| && |memory| == |banks|
    ensures |r| == |banks|
    ensures forall i :: 0 <= i < |banks| ==> r[i] == if banks[i].sync != 0 then BankIn(buffer, headerSize, banks, i) else memory[i]
  {
    seq(|banks|, i requires 0 <= i < |banks| => if banks[i].sync != 0 then BankIn(buffer, headerSize, banks, i) else memory[i])
  }

  /** What Unpack produces: the tag, the task with its header fields and bank bytes, and on the master the board. */
  datatype Unpacked = Unpacked(tag: int, task: Task, board: seq<seq<int>>)

  /**
   * Unpack(m, buffer, p, t, &tag): header fields always; unless the tag is
   * TERMINATE the sync banks' bytes and, on the master, the board cell of
   * the task's location set to the received status.
   */
  function Unpack(buffer: seq<byte>, headerSize: nat, banks: seq<Schema>, t: Task, isMaster: bool,
                  board: seq<seq<int>>): (r: Unpacked)
    requires headerSize >= 5 && Sized(banks) && |t.memory| == |banks| && MessageBytes(headerSize, banks) <= |buffer|
    requires isMaster ==> var h := DecodeInts(buffer[..4 * headerSize], headerSize);
      h[0] != TAG_TERMINATE ==> OnBoard(board, (h[3], h[4]))
    ensures var h := DecodeInts(buffer[..4 * headerSize], headerSize);
      && r.tag == h[0] && r.task.tid == h[1] && r.task.status == h[2] && r.task.location == (h[3], h[4])
      && (r.tag == TAG_TERMINATE ==> r.task.memory == t.memory && r.board == board)
      && (r.tag != TAG_TERMINATE ==> r.task.memory == UnpackBanks(buffer, headerSize, banks, t.memory))
      && (r.tag != TAG_TERMINATE ==> r.board == if isMaster then SetCell(board, r.task.location, r.task.status) else board)
  {
    var h := DecodeInts(buffer[..4 * headerSize], headerSize);
    var tag := h[0];
    var header := Task(h[1], h[2], (h[3], h[4]), t.memory);
    if tag == TAG_TERMINATE then Unpacked(tag, header, board)
    else
      var received := header.(memory := UnpackBanks(buffer, headerSize, banks, t.memory));
      Unpacked(tag, received, if isMaster then SetCell(board, received.location, received.status) else board)
  }

  /** The header Pack writes decodes to the fields it was built from. */
  lemma PackedHeaderDecodes(buffer: seq<byte>, headerSize: nat, banks: seq<Schema>, t: Task, tag: int, rest: seq<int>)
    requires headerSize >= 5 && |rest| == headerSize - 5
    requires IsInt32(tag) && IsInt32(t.tid) && IsInt32(t.status) && IsInt32(t.location.0) && IsInt32(t.location.1)
    requires forall i :: 0 <= i < |rest| ==> IsInt32(rest[i])
    requires Sized(banks) && Fitted(t, banks) && MessageBytes(headerSize, banks) <= |buffer|
    ensures DecodeInts(Pack(buffer, headerSize, banks, t, tag, rest, false, []).buffer[..4 * headerSize], headerSize)
      == PackHeader(tag, t, rest)
  {
    DecodeEncodeInts(PackHeader(tag, t, rest));
  }

  /** The bytes Pack leaves in a bank's range: the task's own for a sync bank. */
  lemma PackedBank(buffer: seq<byte>, headerSize: nat, banks: seq<Schema>, t: Task, tag: int, rest: seq<int>, i: nat)
    requires headerSize >= 5 && |rest| == headerSize - 5
    requires IsInt32(tag) && IsInt32(t.tid) && IsInt32(t.status) && IsInt32(t.location.0) && IsInt32(t.location.1)
    requires forall i :: 0 <= i < |rest| ==> IsInt32(rest[i])
    requires Sized(banks) && Fitted(t, banks) && MessageBytes(headerSize, banks) <= |buffer|
    requires tag != TAG_TERMINATE && i < |banks| && banks[i].sync != 0
    ensures BankIn(Pack(buffer, headerSize, banks, t, tag, rest, false, []).buffer, headerSize, banks, i) == t.memory[i]
  {
    var withHeader := Splice(buffer, 0, EncodeInts(PackHeader(tag, t, rest)));
    PackBanksContents(withHeader, headerSize, banks, t, |banks|, i);
  }

  /** Unpack yields a task with C-int header fields whose memory still matches the bank layout. */
  lemma UnpackedFits(buffer: seq<byte>, headerSize: nat, banks: seq<Schema>, t: Task)
    requires headerSize >= 5 && Sized(banks) && Fitted(t, banks) && MessageBytes(headerSize, banks) <= |buffer|
    ensures var u := Unpack(buffer, headerSize, banks, t, false, []).task;
      IsInt32(u.tid) && IsInt32(u.status) && IsInt32(u.location.0) && IsInt32(u.location.1) && Fitted(u, banks)
  {
    var h := DecodeInts(buffer[..4 * headerSize], headerSize);
    assert IsInt32(h[1]) && IsInt32(h[2]) && IsInt32(h[3]) && IsInt32(h[4]);
  }

  /**
   * The round trip: whatever the buffer held before, unpacking what Pack
   * wrote gives back the tag, the header fields and, unless the tag is
   * TERMINATE, the bytes of every sync bank; non-sync banks keep the
   * receiver's bytes.
   */
  lemma UnpackPack(buffer: seq<byte>, headerSize: nat, banks: seq<Schema>, t: Task, tag: int, rest: seq<int>, receiver: Task)
    requires headerSize >= 5 && |rest| == headerSize - 5
    requires IsInt32(tag) && IsInt32(t.tid) && IsInt32(t.status) && IsInt32(t.location.0) && IsInt32(t.location.1)
    requires forall i :: 0 <= i < |rest| ==> IsInt32(rest[i])
    requires Sized(banks) && Fitted(t, banks) && Fitted(receiver, banks) && MessageBytes(headerSize, banks) <= |buffer|
    ensures var sent := Pack(buffer, headerSize, banks, t, tag, rest, false, []).buffer;
      var got := Unpack(sent, headerSize, banks, receiver, false, []);
      && got.tag == tag && got.task.tid == t.tid && got.task.status == t.status && got.task.location == t.location
      && (tag == TAG_TERMINATE ==> got.task.memory == receiver.memory)
      && (tag != TAG_TERMINATE ==> forall i :: 0 <= i < |banks| ==>
            got.task.memory[i] == if banks[i].sync != 0 then t.memory[i] else receiver.memory[i])
  {
    var sent := Pack(buffer, headerSize, banks, t, tag, rest, false, []).buffer;
    PackedHeaderDecodes(buffer, headerSize, banks, t, tag, rest);
    if tag != TAG_TERMINATE {
      var got := Unpack(sent, headerSize, banks, receiver, false, []);
      forall i | 0 <= i < |banks|
        ensures got.task.memory[i] == if banks[i].sync != 0 then t.memory[i] else receiver.memory[i]
      {
        if banks[i].sync != 0 {
          PackedBank(buffer, headerSize, banks, t, tag, rest, i);
        }
      }
    }
  }
}

=== FILE: decimal.dfy ===
/**
 * Decimal rendering as printf's `%d` and `%0Nd` produce it for non-negative
 * values, and its inverse. The pool group names ("pool-%04d", MPool.c) and
 * the backup file names ("%02d", MCheckpoint.c) are built from these.
 */
module Decimal {

  predicate IsDigit(c: char) {
    '0' <= c <= '9'
  }

  function DigitChar(d: nat): (c: char)
    requires d < 10
    ensures IsDigit(c) && c as int - '0' as int == d
  {
    (d + '0' as int) as char
  }

  function DigitValue(c: char): nat
    requires IsDigit(c)
  {
    c as int - '0' as int
  }

  /** `%d` of a non-negative value: no sign, no leading zero. */
  function Dec(n: nat): (s: string)
    ensures |s| >= 1 && forall i :: 0 <= i < |s| ==> IsDigit(s[i])
    ensures n < 10 <==> |s| == 1
    ensures n >= 1 ==> s[0] != '0'
  {
    if n < 10 then [DigitChar(n)] else Dec(n / 10) + [DigitChar(n % 10)]
  }

  /** `%0Nd` of a non-negative value: Dec(n) left-padded with zeros to at least `width` characters. */
  function ZeroPad(n: nat, width: nat): (s: string)
    ensures |s| == (if |Dec(n)| >= width then |Dec(n)| else width)
    ensures forall i :: 0 <= i < |s| ==> IsDigit(s[i])
    ensures s[|s| - |Dec(n)|..] == Dec(n)
    ensures forall i :: 0 <= i < |s| - |Dec(n)| ==> s[i] == '0'
  {
    if |Dec(n)| >= width then Dec(n) else seq(width - |Dec(n)|, _ => '0') + Dec(n)
  }

  /** The value of a string of decimal digits, leading zeros allowed. */
  function Parse(s: string): nat
    requires forall i :: 0 <= i < |s| ==> IsDigit(s[i])
  {
    if s == [] then 0 else Parse(s[..|s| - 1]) * 10 + DigitValue(s[|s| - 1])
  }

  lemma {:induction false} ParseDec(n: nat)
    ensures Parse(Dec(n)) == n
  {
    if n >= 10 {
      var s := Dec(n);
      assert s[..|s| - 1] == Dec(n / 10);
      ParseDec(n / 10);
    }
  }

  lemma {:induction false} ParseLeadingZeros(k: nat, s: string)
    requires forall i :: 0 <= i < |s| ==> IsDigit(s[i])
    ensures var z := seq(k, _ => '0') + s; (forall i :: 0 <= i < |z| ==> IsDigit(z[i])) && Parse(z) == Parse(s)
    decreases |s|, k
  {
    var z := seq(k, _ => '0') + s;
    if s == [] {
      if k > 0 {
        assert z[..|z| - 1] == seq(k - 1, _ => '0') + [];
        ParseLeadingZeros(k - 1, []);
      }
    } else {
      assert z[..|z| - 1] == seq(k, _ => '0') + s[..|s| - 1];
      ParseLeadingZeros(k, s[..|s| - 1]);
    }
  }

  /** Parsing undoes zero-padded rendering. */
  lemma ParseZeroPad(n: nat, width: nat)
    ensures Parse(ZeroPad(n, width)) == n
  {
    var d := Dec(n);
    ParseDec(n);
    if |d| < width {
      assert ZeroPad(n, width) == seq(width - |d|, _ => '0') + d;
      ParseLeadingZeros(width - |d|, d);
    } else {
      assert ZeroPad(n, width) == d;
    }
  }

  /** Zero-padded rendering is injective: distinct values never share a name. */
  lemma ZeroPadInjective(n: nat, m: nat, width: nat)
    requires n != m
    ensures ZeroPad(n, width) != ZeroPad(m, width)
  {
    ParseZeroPad(n, width);
    ParseZeroPad(m, width);
  }
}

=== FILE: defaultmodule.dfy ===
/**
 * The default user module of the skeleton farm
 * (src/modules/default/mechanic_module_default.c): the farm resolution and
 * the mapping of a pixel number onto the x-by-y board.
 */
module DefaultModule {
  import opened CInt
  import opened Public

  /** A pixel's coordinates as sent to a worker: board column, board row, pixel number. */
  datatype Coords = Coords(x: int, y: int, pixel: int)

  /** default_farmResolution: one pixel per board cell (32-bit overflow not modelled). */
  function FarmResolution(x: int, y: int): (farm: int)
    ensures x > 0 && y > 0 ==> farm > 0
    ensures x == 0 || y == 0 ==> farm == 0
  {
    x * y
  }

  /**
   * default_pixelCoordsMap as written: two unbraced `if`s, so the second
   * assignment of each line runs whatever the condition; the pixel number
   * slot is left as it was.
   */
  function PixelCoordsMap(t: Coords, p: int, x: int, y: int): (r: Coords)
    requires y != 0
    ensures r.x == CDiv(p, y) && r.y == CRem(p, y) && r.pixel == t.pixel
  {
    var first := (if p < y then t.(x := CDiv(p, y)) else t).(y := p);
    var second := (if p > y - 1 then first.(x := CDiv(p, y)) else first).(y := CRem(p, y));
    second
  }

  /** On [0, farm resolution) the mapping lands on the board and can be undone: p is the row-major index. */
  lemma PixelCoordsOnBoard(t: Coords, p: int, x: int, y: int)
    requires x > 0 && y > 0 && 0 <= p < FarmResolution(x, y)
    ensures var r := PixelCoordsMap(t, p, x, y);
      0 <= r.x < x && 0 <= r.y < y && r.x * y + r.y == p
  {
    NonNegativeDivision(p, y);
    QuotientBelow(p, x, y);
  }

  /** Distinct pixels of the board get distinct coordinates. */
  lemma PixelCoordsInjective(t1: Coords, t2: Coords, p1: int, p2: int, x: int, y: int)
    requires x > 0 && y > 0 && 0 <= p1 < FarmResolution(x, y) && 0 <= p2 < FarmResolution(x, y)
    requires PixelCoordsMap(t1, p1, x, y).x == PixelCoordsMap(t2, p2, x, y).x
    requires PixelCoordsMap(t1, p1, x, y).y == PixelCoordsMap(t2, p2, x, y).y
    ensures p1 == p2
  {
    PixelCoordsOnBoard(t1, p1, x, y);
    PixelCoordsOnBoard(t2, p2, x, y);
  }

  /** Every board cell is hit by the pixel of its row-major index. */
  lemma PixelCoordsSurjective(t: Coords, x: int, y: int, i: int, j: int)
    requires x > 0 && y > 0 && 0 <= i < x && 0 <= j < y
    ensures 0 <= i * y + j < FarmResolution(x, y)
    ensures var r := PixelCoordsMap(t, i * y + j, x, y); r.x == i && r.y == j
  {
    MultiplyMonotone(i + 1, x, y);
    var p := i * y + j;
    NonNegativeDivision(p, y);
    DivisionUnique(p, y, i, j);
  }

  /** The quotient and remainder of a division by a positive divisor are unique. */
  lemma DivisionUnique(p: int, y: int, i: int, j: int)
    requires y > 0 && 0 <= j < y && p == i * y + j
    ensures p / y == i && p % y == j
  {
    var q, m := p / y, p % y;
    assert (q - i) * y == j - m;
    if q > i {
      MultiplyMonotone(1, q - i, y);
    } else if q < i {
      MultiplyMonotone(1, i - q, y);
    }
  }

  /** default_pixelCoords: the worker's result record is the coordinate triple it received. */
  function PixelCoords(t: Coords): (r: Coords)
    ensures r == t
  {
    Coords(t.x, t.y, t.pixel)
  }

  /**
   * A pixel's round trip: mapped by PixelCoordsMap and echoed by
   * PixelCoords, pixel p of the board comes back as the cell of row-major
   * index p, on the board.
   */
  lemma ResultLocatesPixel(t: Coords, p: int, x: int, y: int)
    requires x > 0 && y > 0 && 0 <= p < FarmResolution(x, y)
    ensures var r := PixelCoords(PixelCoordsMap(t, p, x, y));
      0 <= r.x < x && 0 <= r.y < y && r.x * y + r.y == p && r.pixel == t.pixel
  {
    PixelCoordsOnBoard(t, p, x, y);
  }

  /** Distinct pixels of the board come back from the workers as distinct cells. */
  lemma ResultsDistinct(t1: Coords, t2: Coords, p1: int, p2: int, x: int, y: int)
    requires x > 0 && y > 0 && 0 <= p1 < FarmResolution(x, y) && 0 <= p2 < FarmResolution(x, y) && p1 != p2
    ensures var r1 := PixelCoords(PixelCoordsMap(t1, p1, x, y));
      var r2 := PixelCoords(PixelCoordsMap(t2, p2, x, y));
      (r1.x, r1.y) != (r2.x, r2.y)
  {
    ResultLocatesPixel(t1, p1, x, y);
    ResultLocatesPixel(t2, p2, x, y);
  }
}

=== FILE: defs.dfy ===
/**
 * Constants of Mechanic. MAX_RANK and the pool decisions come from
 * src/core/MMechanic2.h; the header that defines the task states, the message
 * tags and the storage types is not part of this model, so those are
 * placeholders: distinct values, the task states negative so that they can
 * never be mistaken for a task id (ids are >= 0).
 */
module Defs {

  const MAX_RANK: int := 2

  const POOL_FINALIZE: int := 0
  const POOL_CREATE_NEW: int := 1

  const SUCCESS: int := 0

  /** The ICE-file status, and the MPI error the master aborts with on an unknown tag. */
  const CORE_ICE: int := 112
  const CORE_ERR_MPI: int := 911

  /** The coordinator's rank. */
  const MASTER: int := 0

  /* Task states (board cells, task status). */
  const TASK_EMPTY: int := -1
  const TASK_IN_USE: int := -2
  const TASK_FINISHED: int := -3

  /* Message tags (header slot 0). */
  const TAG_DATA: int := 2
  const TAG_RESULT: int := 59
  const TAG_CHECKPOINT: int := 71
  const TAG_TERMINATE: int := 99

  /*
   * Mapping policies (schema.storage_type); all non-negative. STORAGE_BASIC
   * is the name CheckpointProcess and the GA module use for the policy that
   * MStorage.c calls STORAGE_GROUP: a dataset per task id, read back through
   * the materialised p->tasks table. The two names stand for one value here.
   */
  const STORAGE_GROUP: int := 1
  const STORAGE_PM3D: int := 2
  const STORAGE_BOARD: int := 3
  const STORAGE_LIST: int := 4
  const STORAGE_BASIC: int := STORAGE_GROUP

  /** The three policies whose task banks share one pool-wide dataset. */
  predicate IsSharedPolicy(storageType: int) {
    storageType == STORAGE_PM3D || storageType == STORAGE_LIST || storageType == STORAGE_BOARD
  }
}

=== FILE: farmskel.dfy ===
/**
 * The first-generation MPI task farm (src/mpifarm_skel.c). The master hands
 * out pixel numbers 0, 1, ... of an xres-by-yres map, one per worker,
 * refills a worker whenever its result arrives, collects the results still
 * outstanding once every pixel is out, and finally terminates every worker.
 * The run is modelled as the trace of sends and receives the master makes;
 * which worker's result arrives next is an oracle.
 */
module FarmSkel {
  import opened Defs
  import opened CInt
  import opened DefaultModule

  /** The MPI error code the skeleton aborts with. */
  const ABORT_CODE: int := 911

  /**
   * map2d(c) with method 0: the pixel number goes to slot 2, then the same
   * two unbraced `if` lines as the default module's pixel map.
   */
  function Map2d(c: int, x: int, y: int): (r: Coords)
    requires y != 0
    ensures r == Coords(CDiv(c, y), CRem(c, y), c)
  {
    PixelCoordsMap(Coords(0, 0, c), c, x, y)
  }

  /** Pixels [0, xres*yres) map one-to-one onto the board cells. */
  lemma Map2dOnBoard(c: int, d: int, x: int, y: int)
    requires x > 0 && y > 0 && 0 <= c < x * y && 0 <= d < x * y
    ensures 0 <= Map2d(c, x, y).x < x && 0 <= Map2d(c, x, y).y < y
    ensures Map2d(c, x, y).x == Map2d(d, x, y).x && Map2d(c, x, y).y == Map2d(d, x, y).y ==> c == d
  {
    PixelCoordsOnBoard(Coords(0, 0, c), c, x, y);
    PixelCoordsOnBoard(Coords(0, 0, d), d, x, y);
  }

  /**
   * The bound of the initial send loop as written: `nodes` is mpi_size when
   * farm_res > mpi_size and farm_res + 1 otherwise, so the loop over
   * 1 <= i < nodes reaches rank nodes - 1.
   */
  function NodesAsWritten(farmRes: int, mpiSize: int): int {
    if farmRes > mpiSize then mpiSize else farmRes + 1
  }

  /** With exactly as many pixels as processes the initial loop sends to rank mpi_size, which does not exist. */
  lemma AsWrittenTargetsMissingRank(mpiSize: int)
    requires mpiSize >= 2
    ensures NodesAsWritten(mpiSize, mpiSize) - 1 == mpiSize
  {
  }

  /** The bound as intended: one initial task per worker, and no more tasks than pixels. */
  function NodesIntended(farmRes: int, mpiSize: int): (nodes: int)
    requires farmRes >= 1 && mpiSize >= 2
    ensures 2 <= nodes <= mpiSize
    ensures nodes - 1 == if farmRes < mpiSize - 1 then farmRes else mpiSize - 1
  {
    if farmRes >= mpiSize then mpiSize else farmRes + 1
  }

  /** The two rules differ only at farm_res == mpi_size. */
  lemma NodesAgreeElsewhere(farmRes: int, mpiSize: int)
    requires farmRes >= 1 && mpiSize >= 2 && farmRes != mpiSize
    ensures NodesAsWritten(farmRes, mpiSize) == NodesIntended(farmRes, mpiSize)
  {
  }

  /** One communication of the master. */
  datatype Event = Send(dest: int, tag: int, coords: Coords) | Recv(source: int)

  /** Aborted before farming; blocked in a receive no worker will answer; or finished. */
  datatype FarmRun = Aborted(code: int) | Blocked | Finished(events: seq<Event>)

  predicate IsData(e: Event) {
    e.Send? && e.tag == TAG_DATA
  }

  /** The pixel numbers of the data sends, in order. */
  function DataPixels(ev: seq<Event>): (pixels: seq<int>)
    ensures |pixels| <= |ev|
  {
    if |ev| == 0 then []
    else DataPixels(ev[..|ev| - 1]) + (if IsData(ev[|ev| - 1]) then [ev[|ev| - 1].coords.pixel] else [])
  }

  /** The number of receives. */
  function Receives(ev: seq<Event>): (n: nat)
    ensures n <= |ev|
  {
    if |ev| == 0 then 0
    else Receives(ev[..|ev| - 1]) + (if ev[|ev| - 1].Recv? then 1 else 0)
  }

  function Range(n: nat): (r: seq<int>)
    ensures |r| == n && forall i :: 0 <= i < n ==> r[i] == i
  {
    seq(n, i => i)
  }

  lemma RangeStep(n: nat)
    ensures Range(n) + [n] == Range(n + 1)
  {
    assert forall i :: 0 <= i < n + 1 ==> (Range(n) + [n])[i] == Range(n + 1)[i];
  }

  /**
   * What the event `e` may be after the trace `before`: a receive only while a
   * result is outstanding; a send only to a worker rank; a data send carries
   * map2d of its pixel and goes either to the next worker of the initial
   * round or to the worker whose result was just received.
   */
  predicate EventOk(before: seq<Event>, e: Event, x: int, y: int, mpiSize: int, nodes: int)
    requires y != 0
  {
    match e
    case Recv(_) => Receives(before) < |DataPixels(before)|
    case Send(dest, tag, coords) =>
      && 1 <= dest < mpiSize
      && (tag == TAG_DATA || tag == TAG_TERMINATE)
      && (tag == TAG_DATA ==>
           && coords == Map2d(coords.pixel, x, y)
           && ((|before| < nodes - 1 && dest == |before| + 1)
               || (|before| > 0 && before[|before| - 1] == Recv(dest))))
  }

  /** Every event of the trace is allowed after the events before it. */
  predicate Sound(ev: seq<Event>, x: int, y: int, mpiSize: int, nodes: int)
    requires y != 0
  {
    forall k :: 0 <= k < |ev| ==> EventOk(ev[..k], ev[k], x, y, mpiSize, nodes)
  }

  /** No terminate has been sent yet. */
  predicate OnlyData(ev: seq<Event>) {
    DataUpTo(ev, |ev|)
  }

  /** No terminate among the first n events. */
  predicate DataUpTo(ev: seq<Event>, n: int)
    requires n <= |ev|
  {
    forall k :: 0 <= k < n && ev[k].Send? ==> ev[k].tag == TAG_DATA
  }

  lemma AppendEvent(ev: seq<Event>, e: Event, x: int, y: int, mpiSize: int, nodes: int)
    requires y != 0
    requires Sound(ev, x, y, mpiSize, nodes) && EventOk(ev, e, x, y, mpiSize, nodes)
    ensures Sound(ev + [e], x, y, mpiSize, nodes)
    ensures DataPixels(ev + [e]) == DataPixels(ev) + (if IsData(e) then [e.coords.pixel] else [])
    ensures Receives(ev + [e]) == Receives(ev) + (if e.Recv? then 1 else 0)
    ensures OnlyData(ev) && (e.Recv? || e.tag == TAG_DATA) ==> OnlyData(ev + [e])
  {
    var ev' := ev + [e];
    assert ev'[..|ev|] == ev;
    forall k | 0 <= k < |ev'|
      ensures EventOk(ev'[..k], ev'[k], x, y, mpiSize, nodes)
    {
      if k < |ev| {
        assert ev'[..k] == ev[..k];
      }
    }
  }

  /**
   * The master of the farm together with the checks of main(): resolution
   * 0 or a single process abort with 911; a non-positive farm resolution
   * leaves the master waiting for a result no worker was asked for. The
   * k-th receive returns a result from `source(k)`, a worker rank.
   */
  method FarmMaster(x: int, y: int, mpiSize: int, source: nat -> int) returns (run: FarmRun)
    requires mpiSize >= 1
    requires mpiSize >= 2 ==> forall n: nat :: 1 <= source(n) < mpiSize
    ensures run.Aborted? <==> x == 0 || y == 0 || mpiSize == 1
    ensures run.Aborted? ==> run.code == ABORT_CODE
    ensures run.Blocked? <==> !run.Aborted? && FarmResolution(x, y) <= 0
    ensures run.Finished? ==> y != 0 && FarmResolution(x, y) >= 1 && mpiSize >= 2
    ensures run.Finished? ==>
      var ev := run.events;
      && DataPixels(ev) == Range(FarmResolution(x, y))
      && Receives(ev) == FarmResolution(x, y)
      && Sound(ev, x, y, mpiSize, NodesIntended(FarmResolution(x, y), mpiSize))
      && EndsWithTerminates(ev, mpiSize, Map2d(FarmResolution(x, y), x, y))
      && DataUpTo(ev, |ev| - (mpiSize - 1))
  {
    if x == 0 || y == 0 || mpiSize == 1 {
      return Aborted(ABORT_CODE);
    }
    var farmRes := FarmResolution(x, y);
    if farmRes <= 0 {
      return Blocked;
    }
    var nodes := NodesIntended(farmRes, mpiSize);
    var ev := InitialRound(x, y, mpiSize, nodes);
    ev := Refill(ev, x, y, mpiSize, nodes, farmRes, source);
    ev := Drain(ev, x, y, mpiSize, nodes, farmRes, source);
    var drained := ev;
    ev := TerminateAll(drained, x, y, mpiSize, nodes, farmRes);
    return Finished(ev);
  }

  /** The initial round: pixel i-1 to worker i for 1 <= i < nodes. */
  method InitialRound(x: int, y: int, mpiSize: int, nodes: int) returns (ev: seq<Event>)
    requires y != 0 && 1 <= nodes <= mpiSize
    ensures |ev| == nodes - 1
    ensures DataPixels(ev) == Range(nodes - 1) && Receives(ev) == 0
    ensures Sound(ev, x, y, mpiSize, nodes) && OnlyData(ev)
  {
    ev := [];
    var npxc := 0;
    var i := 1;
    while i < nodes
      invariant 1 <= i <= nodes
      invariant npxc == i - 1 == |ev|
      invariant DataPixels(ev) == Range(npxc) && Receives(ev) == 0
      invariant Sound(ev, x, y, mpiSize, nodes) && OnlyData(ev)
    {
      var e := Send(i, TAG_DATA, Map2d(npxc, x, y));
      AppendEvent(ev, e, x, y, mpiSize, nodes);
      ev := ev + [e];
      RangeStep(npxc);
      npxc, i := npxc + 1, i + 1;
    }
  }

  /**
   * The main loop: receive a result, then send the next pixel to its sender
   * until every pixel is out. The number outstanding stays nodes - 1 and
   * drops to nodes - 2 with the final receive.
   */
  method Refill(ev0: seq<Event>, x: int, y: int, mpiSize: int, nodes: int, farmRes: int, source: nat -> int)
    returns (ev: seq<Event>)
    requires y != 0 && 2 <= nodes <= mpiSize && nodes - 1 <= farmRes
    requires forall n: nat :: 1 <= source(n) < mpiSize
    requires |ev0| >= 1 && DataPixels(ev0) == Range(nodes - 1) && Receives(ev0) == 0
    requires Sound(ev0, x, y, mpiSize, nodes) && OnlyData(ev0)
    ensures DataPixels(ev) == Range(farmRes) && Receives(ev) + (nodes - 2) == farmRes
    ensures Sound(ev, x, y, mpiSize, nodes) && OnlyData(ev)
  {
    ev := ev0;
    var npxc := nodes - 1;
    while true
      invariant nodes - 1 <= npxc <= farmRes
      invariant DataPixels(ev) == Range(npxc) && Receives(ev) + (nodes - 1) == npxc
      invariant |ev| >= 1
      invariant Sound(ev, x, y, mpiSize, nodes) && OnlyData(ev)
      decreases farmRes - npxc
    {
      var from := source(Receives(ev));
      var got := Recv(from);
      AppendEvent(ev, got, x, y, mpiSize, nodes);
      ev := ev + [got];
      if npxc < farmRes {
        var e := Send(from, TAG_DATA, Map2d(npxc, x, y));
        assert ev[|ev| - 1] == Recv(from);
        AppendEvent(ev, e, x, y, mpiSize, nodes);
        ev := ev + [e];
        RangeStep(npxc);
        npxc := npxc + 1;
      } else {
        break;
      }
    }
  }

  /** Receive exactly the results still outstanding once every pixel is out. */
  method Drain(ev0: seq<Event>, x: int, y: int, mpiSize: int, nodes: int, farmRes: int, source: nat -> int)
    returns (ev: seq<Event>)
    requires y != 0 && nodes >= 2 && farmRes >= 1
    requires forall n: nat :: 1 <= source(n) < mpiSize
    requires DataPixels(ev0) == Range(farmRes) && Receives(ev0) + (nodes - 2) == farmRes
    requires Sound(ev0, x, y, mpiSize, nodes) && OnlyData(ev0)
    ensures DataPixels(ev) == Range(farmRes) && Receives(ev) == farmRes
    ensures Sound(ev, x, y, mpiSize, nodes) && OnlyData(ev)
  {
    ev := ev0;
    var count := nodes - 2;
    var i := 0;
    while i < count
      invariant 0 <= i <= count
      invariant DataPixels(ev) == Range(farmRes) && Receives(ev) + (count - i) == farmRes
      invariant Sound(ev, x, y, mpiSize, nodes) && OnlyData(ev)
    {
      var got := Recv(source(Receives(ev)));
      AppendEvent(ev, got, x, y, mpiSize, nodes);
      ev := ev + [got];
      i := i + 1;
    }
  }

  /** The trace ends with TERMINATE, carrying `c`, to each rank 1 .. mpi_size-1 in turn. */
  predicate EndsWithTerminates(ev: seq<Event>, mpiSize: int, c: Coords) {
    |ev| >= mpiSize - 1 && forall i :: 1 <= i < mpiSize ==> ev[|ev| - mpiSize + i] == Send(i, TAG_TERMINATE, c)
  }

  /** TERMINATE, carrying map2d of the exhausted pixel counter, to each rank 1 .. mpi_size-1 in turn. */
  method TerminateAll(ev0: seq<Event>, x: int, y: int, mpiSize: int, nodes: int, farmRes: int)
    returns (ev: seq<Event>)
    requires y != 0 && mpiSize >= 1 && farmRes >= 1
    requires DataPixels(ev0) == Range(farmRes) && Receives(ev0) == farmRes
    requires Sound(ev0, x, y, mpiSize, nodes) && OnlyData(ev0)
    ensures |ev| == |ev0| + mpiSize - 1 && ev[..|ev| - (mpiSize - 1)] == ev0
    ensures DataUpTo(ev, |ev| - (mpiSize - 1))
    ensures DataPixels(ev) == Range(farmRes) && Receives(ev) == farmRes
    ensures Sound(ev, x, y, mpiSize, nodes)
    ensures EndsWithTerminates(ev, mpiSize, Map2d(farmRes, x, y))
  {
    ev := ev0;
    var j := 1;
    while j < mpiSize
      invariant 1 <= j <= mpiSize
      invariant TerminatedUpTo(ev, ev0, j, Map2d(farmRes, x, y))
      invariant DataPixels(ev) == Range(farmRes) && Receives(ev) == farmRes
      invariant Sound(ev, x, y, mpiSize, nodes)
    {
      var e := Send(j, TAG_TERMINATE, Map2d(farmRes, x, y));
      AppendEvent(ev, e, x, y, mpiSize, nodes);
      TerminateStep(ev, ev0, j, Map2d(farmRes, x, y));
      ev := ev + [e];
      j := j + 1;
    }
    TerminatesAtEnd(ev, ev0, mpiSize, Map2d(farmRes, x, y));
    assert forall k :: 0 <= k < |ev0| ==> ev[k] == ev0[k];
  }

  /** ev is ev0 followed by TERMINATE, carrying `c`, to ranks 1 .. j-1. */
  predicate TerminatedUpTo(ev: seq<Event>, ev0: seq<Event>, j: int, c: Coords) {
    && j >= 1 && |ev| == |ev0| + j - 1 && ev[..|ev0|] == ev0
    && forall t :: 1 <= t < j ==> ev[|ev0| + t - 1] == Send(t, TAG_TERMINATE, c)
  }

  lemma TerminateStep(ev: seq<Event>, ev0: seq<Event>, j: int, c: Coords)
    requires j >= 1 && TerminatedUpTo(ev, ev0, j, c)
    ensures TerminatedUpTo(ev + [Send(j, TAG_TERMINATE, c)], ev0, j + 1, c)
  {
    var ev' := ev + [Send(j, TAG_TERMINATE, c)];
    assert ev'[..|ev0|] == ev[..|ev0|];
    forall t | 1 <= t < j
      ensures ev'[|ev0| + t - 1] == Send(t, TAG_TERMINATE, c)
    {
      assert ev'[|ev0| + t - 1] == ev[|ev0| + t - 1];
    }
  }

  /** Terminates at positions start .. start+mpi_size-2 of a trace that ends there are its last mpi_size-1 events. */
  lemma TerminatesAtEnd(ev: seq<Event>, ev0: seq<Event>, mpiSize: int, c: Coords)
    requires mpiSize >= 1 && TerminatedUpTo(ev, ev0, mpiSize, c)
    ensures EndsWithTerminates(ev, mpiSize, c)
    ensures |ev| == |ev0| + mpiSize - 1 && ev[..|ev| - (mpiSize - 1)] == ev0
  {
    forall i | 1 <= i < mpiSize
      ensures ev[|ev| - mpiSize + i] == Send(i, TAG_TERMINATE, c)
    {
      assert |ev| - mpiSize + i == |ev0| + i - 1;
    }
  }
}

=== FILE: ga.dfy ===
/**
 * The genetic-algorithm module (src/modules/mechanic_module_ga.c). Each
 * pool is a generation: workers compute the fitness of one organism each,
 * the coordinator's PoolProcess sums the fitness, stops on a perfect
 * organism or the generation limit, and otherwise breeds the children that
 * the next pool's PoolPrepare copies in. Bank values are doubles that the
 * module only ever casts to int, so they are ints here; every `rand()` call
 * is an oracle argument indexed by where it is drawn.
 */
module GA {
  import opened Defs
  import opened CInt

  const MAX_GENERATIONS: int := 1000

  type Grid = seq<seq<int>>

  predicate IsGrid(g: Grid, rows: int, cols: int) {
    |g| == rows && forall i :: 0 <= i < |g| ==> |g[i]| == cols
  }

  /**
   * A generation: pool id, storage[0] population (pool_size x genes),
   * storage[1] model row, storage[2][0][0] total fitness, storage[3]
   * children, and the task bank of per-organism fitness.
   */
  datatype Generation = Generation(pid: int, population: Grid, model: seq<int>, total: int,
                                   children: Grid, fitness: seq<int>)

  // ---------------------------------------------------------------------
  // Fitness
  // ---------------------------------------------------------------------

  /** The number of positions below n where the organism agrees with the model. */
  function Matches(organism: seq<int>, model: seq<int>, n: int): (m: int)
    requires n <= |organism| && n <= |model|
    ensures n <= 0 ==> m == 0
    ensures n >= 0 ==> 0 <= m <= n
    decreases n
  {
    if n <= 0 then 0
    else Matches(organism, model, n - 1) + (if organism[n - 1] == model[n - 1] then 1 else 0)
  }

  /** Full fitness means the organism is the model. */
  lemma {:induction false} PerfectMeansModel(organism: seq<int>, model: seq<int>, n: int)
    requires 0 <= n <= |organism| && n <= |model|
    ensures Matches(organism, model, n) == n <==> organism[..n] == model[..n]
    decreases n
  {
    if n > 0 {
      PerfectMeansModel(organism, model, n - 1);
      assert organism[..n] == organism[..n - 1] + [organism[n - 1]];
      assert model[..n] == model[..n - 1] + [model[n - 1]];
      if organism[..n] == model[..n] {
        assert organism[..n - 1] == organism[..n][..n - 1];
        assert model[..n - 1] == model[..n][..n - 1];
      }
    }
  }

  /** Fitness(p, t, genes): the matching genes of organism tid; TaskProcess stores it in the task's bank. */
  method Fitness(population: Grid, model: seq<int>, tid: int, genes: int) returns (fit: int)
    requires 0 <= tid < |population|
    requires genes <= |population[tid]| && genes <= |model|
    ensures fit == Matches(population[tid], model, genes)
    ensures genes >= 0 ==> 0 <= fit <= genes
  {
    fit := 0;
    var i := 0;
    while i < genes
      invariant 0 <= i && (genes >= 0 ==> i <= genes) && (genes < 0 ==> i == 0)
      invariant fit == Matches(population[tid], model, i)
    {
      if population[tid][i] == model[i] {
        fit := fit + 1;
      }
      i := i + 1;
    }
  }

  // ---------------------------------------------------------------------
  // Evaluation and selection
  // ---------------------------------------------------------------------

  /** The total of a fitness list; never negative when no entry is. */
  function Sum(s: seq<int>): (total: int)
    ensures (forall i :: 0 <= i < |s| ==> s[i] >= 0) ==> total >= 0
  {
    if |s| == 0 then 0 else Sum(s[..|s| - 1]) + s[|s| - 1]
  }

  lemma SumStep(s: seq<int>, k: int)
    requires 0 <= k < |s|
    ensures Sum(s[..k + 1]) == Sum(s[..k]) + s[k]
  {
    assert s[..k + 1][..k] == s[..k];
  }

  predicate Reaches(fitness: seq<int>, maxFitness: int) {
    exists i :: 0 <= i < |fitness| && fitness[i] == maxFitness
  }

  /**
   * EvaluateOrganisms(p, max_fitness): the total fitness (stored in
   * storage[2][0][0]) and whether some organism reaches max_fitness.
   */
  method EvaluateOrganisms(fitness: seq<int>, maxFitness: int) returns (total: int, perfect: bool)
    ensures total == Sum(fitness)
    ensures perfect <==> Reaches(fitness, maxFitness)
  {
    total := 0;
    var i := 0;
    while i < |fitness|
      invariant 0 <= i <= |fitness|
      invariant total == Sum(fitness[..i])
    {
      SumStep(fitness, i);
      total := total + fitness[i];
      i := i + 1;
    }
    assert fitness[..|fitness|] == fitness;
    i := 0;
    while i < |fitness|
      invariant 0 <= i <= |fitness|
      invariant forall k :: 0 <= k < i ==> fitness[k] != maxFitness
    {
      if fitness[i] == maxFitness {
        return total, true;
      }
      i := i + 1;
    }
    return total, false;
  }

  /** The roulette threshold r = rand() % (total + 1). */
  function Threshold(draw: int, total: int): int
    requires total + 1 != 0
  {
    CRem(draw, total + 1)
  }

  /** The running fitness sum up to and including organism j reaches r. */
  predicate Reached(fitness: seq<int>, r: int, j: int)
    requires 0 <= j < |fitness|
  {
    Sum(fitness[..j + 1]) >= r
  }

  /** The organisms from `k` on: the first whose running fitness sum reaches r, or 0 when none does. */
  function SelectFrom(fitness: seq<int>, r: int, k: nat): (i: int)
    requires k <= |fitness|
    ensures i == 0 || k <= i < |fitness|
    decreases |fitness| - k
  {
    if k == |fitness| then 0
    else if Reached(fitness, r, k) then k
    else SelectFrom(fitness, r, k + 1)
  }

  /** The index chosen is the least whose prefix sum reaches r; 0 when no prefix does. */
  lemma {:induction false} SelectFromLeast(fitness: seq<int>, r: int, k: nat)
    requires k <= |fitness|
    requires forall j :: 0 <= j < k ==> !Reached(fitness, r, j)
    ensures var i := SelectFrom(fitness, r, k);
      (exists j :: 0 <= j < |fitness| && Reached(fitness, r, j)) ==>
        0 <= i < |fitness| && Reached(fitness, r, i) && forall j :: 0 <= j < i ==> !Reached(fitness, r, j)
    ensures (forall j :: 0 <= j < |fitness| ==> !Reached(fitness, r, j)) ==> SelectFrom(fitness, r, k) == 0
    decreases |fitness| - k
  {
    if k < |fitness| && !Reached(fitness, r, k) {
      SelectFromLeast(fitness, r, k + 1);
    }
  }

  /** SelectOneOrganism(p) with `draw` as its rand(). */
  method SelectOneOrganism(fitness: seq<int>, total: int, draw: int) returns (i: int)
    requires total + 1 != 0
    ensures i == SelectFrom(fitness, Threshold(draw, total), 0)
  {
    var r := Threshold(draw, total);
    var t := 0;
    var k := 0;
    while k < |fitness|
      invariant 0 <= k <= |fitness|
      invariant t == Sum(fitness[..k])
      invariant SelectFrom(fitness, r, 0) == SelectFrom(fitness, r, k)
    {
      SumStep(fitness, k);
      t := t + fitness[k];
      if t >= r {
        return k;
      }
      k := k + 1;
    }
    return 0;
  }

  /**
   * With non-negative fitness, its true total and a non-negative draw, the
   * threshold is reached by the whole population, so the scan never falls
   * through and the parent is a real organism chosen by the roulette rule.
   */
  lemma SelectionReaches(fitness: seq<int>, draw: int)
    requires |fitness| > 0 && draw >= 0
    requires forall i :: 0 <= i < |fitness| ==> fitness[i] >= 0
    ensures var r := Threshold(draw, Sum(fitness));
      var i := SelectFrom(fitness, r, 0);
      && 0 <= r <= Sum(fitness)
      && 0 <= i < |fitness| && Reached(fitness, r, i)
      && forall j :: 0 <= j < i ==> !Reached(fitness, r, j)
  {
    var total := Sum(fitness);
    NonNegativeDivision(draw, total + 1);
    var r := Threshold(draw, total);
    assert fitness[..(|fitness| - 1) + 1] == fitness;
    assert Reached(fitness, r, |fitness| - 1);
    SelectFromLeast(fitness, r, 0);
  }

  // ---------------------------------------------------------------------
  // Breeding
  // ---------------------------------------------------------------------

  /** The rand() draws of one child: the two roulette draws, the crossover draw, and per gene a mutation bit and a fresh allele draw. */
  datatype Draws = Draws(pickOne: int -> int, pickTwo: int -> int, crossover: int -> int,
                         mutate: (int, int) -> bool, allele: (int, int) -> int)

  /** Gene j of a child: a fresh allele when mutated, else parentOne's gene before the crossover point and parentTwo's from it on. */
  function ChildGene(population: Grid, parentOne: int, parentTwo: int, crossoverPoint: int,
                     mutated: bool, alleleDraw: int, alleles: int, j: int): int
    requires alleles != 0
    requires 0 <= parentOne < |population| && 0 <= parentTwo < |population|
    requires 0 <= j < |population[parentOne]| && j < |population[parentTwo]|
  {
    if mutated then CRem(alleleDraw, alleles)
    else if j < crossoverPoint then population[parentOne][j]
    else population[parentTwo][j]
  }

  /** The parents and crossover point of child i. */
  function ParentOne(fitness: seq<int>, total: int, d: Draws, i: int): int
    requires total + 1 != 0
  {
    SelectFrom(fitness, Threshold(d.pickOne(i), total), 0)
  }

  function ParentTwo(fitness: seq<int>, total: int, d: Draws, i: int): int
    requires total + 1 != 0
  {
    SelectFrom(fitness, Threshold(d.pickTwo(i), total), 0)
  }

  function CrossoverPoint(d: Draws, genes: int, i: int): int
    requires genes != 0
  {
    CRem(d.crossover(i), genes)
  }

  /** The preconditions of breeding: a pool_size x genes population with one fitness per organism. */
  predicate Breedable(population: Grid, fitness: seq<int>, total: int, genes: int, alleles: int) {
    && genes >= 1 && alleles != 0 && total + 1 != 0
    && |fitness| == |population| && IsGrid(population, |population|, genes)
  }

  /** Child i, gene by gene. */
  method ProduceChild(population: Grid, fitness: seq<int>, total: int, genes: int, alleles: int, d: Draws, i: int)
    returns (child: seq<int>)
    requires Breedable(population, fitness, total, genes, alleles) && |population| > 0
    ensures |child| == genes
    ensures forall j :: 0 <= j < genes ==>
      child[j] == ChildGene(population, ParentOne(fitness, total, d, i), ParentTwo(fitness, total, d, i),
                            CrossoverPoint(d, genes, i), d.mutate(i, j), d.allele(i, j), alleles, j)
  {
    var parentOne := SelectOneOrganism(fitness, total, d.pickOne(i));
    var parentTwo := SelectOneOrganism(fitness, total, d.pickTwo(i));
    var crossoverPoint := CRem(d.crossover(i), genes);
    child := [];
    var j := 0;
    while j < genes
      invariant 0 <= j <= genes && |child| == j
      invariant forall k :: 0 <= k < j ==>
        child[k] == ChildGene(population, parentOne, parentTwo, crossoverPoint, d.mutate(i, k), d.allele(i, k), alleles, k)
    {
      var gene;
      if d.mutate(i, j) {
        gene := CRem(d.allele(i, j), alleles);
      } else if j < crossoverPoint {
        gene := population[parentOne][j];
      } else {
        gene := population[parentTwo][j];
      }
      child := child + [gene];
      j := j + 1;
    }
  }

  /** ProduceNextGeneration(p, genes, alleles, mutation_rate): one child per organism. */
  method ProduceNextGeneration(population: Grid, fitness: seq<int>, total: int, genes: int, alleles: int, d: Draws)
    returns (children: Grid)
    requires Breedable(population, fitness, total, genes, alleles)
    ensures IsGrid(children, |population|, genes)
    ensures forall i, j :: 0 <= i < |population| && 0 <= j < genes ==>
      children[i][j] == ChildGene(population, ParentOne(fitness, total, d, i), ParentTwo(fitness, total, d, i),
                                  CrossoverPoint(d, genes, i), d.mutate(i, j), d.allele(i, j), alleles, j)
  {
    children := [];
    var i := 0;
    while i < |population|
      invariant 0 <= i <= |population| && IsGrid(children, i, genes)
      invariant forall k, j :: 0 <= k < i && 0 <= j < genes ==>
        children[k][j] == ChildGene(population, ParentOne(fitness, total, d, k), ParentTwo(fitness, total, d, k),
                                    CrossoverPoint(d, genes, k), d.mutate(k, j), d.allele(k, j), alleles, j)
    {
      var child := ProduceChild(population, fitness, total, genes, alleles, d, i);
      children := children + [child];
      i := i + 1;
    }
  }

  predicate AllelesIn(g: Grid, alleles: int) {
    forall i, j :: 0 <= i < |g| && 0 <= j < |g[i]| ==> 0 <= g[i][j] < alleles
  }

  ghost predicate DrawsNonNegative(d: Draws) {
    forall i, j :: d.allele(i, j) >= 0
  }

  /** Breeding keeps every gene a valid allele: children are made only of fresh alleles and parents' genes. */
  lemma ChildrenAreAlleles(population: Grid, fitness: seq<int>, total: int, genes: int, alleles: int, d: Draws, children: Grid)
    requires Breedable(population, fitness, total, genes, alleles) && alleles > 0
    requires AllelesIn(population, alleles) && DrawsNonNegative(d)
    requires IsGrid(children, |population|, genes)
    requires forall i, j :: 0 <= i < |population| && 0 <= j < genes ==>
      children[i][j] == ChildGene(population, ParentOne(fitness, total, d, i), ParentTwo(fitness, total, d, i),
                                  CrossoverPoint(d, genes, i), d.mutate(i, j), d.allele(i, j), alleles, j)
    ensures AllelesIn(children, alleles)
  {
    forall i, j | 0 <= i < |children| && 0 <= j < |children[i]|
      ensures 0 <= children[i][j] < alleles
    {
      if d.mutate(i, j) {
        NonNegativeDivision(d.allele(i, j), alleles);
      }
    }
  }

  // ---------------------------------------------------------------------
  // The pool hooks
  // ---------------------------------------------------------------------

  /** The generation is over: a perfect organism, or past max-generations or MAX_GENERATIONS. */
  predicate Stops(g: Generation, maxgen: int, maxFitness: int) {
    Reaches(g.fitness, maxFitness) || g.pid > maxgen || g.pid > MAX_GENERATIONS
  }

  /**
   * PoolProcess(all, p, s): evaluate, then either finalize or breed the
   * children of the next generation.
   */
  method PoolProcess(g: Generation, maxgen: int, maxFitness: int, genes: int, alleles: int, d: Draws)
    returns (decision: int, next: Generation)
    requires genes >= 1 && alleles != 0
    requires |g.fitness| == |g.population| && IsGrid(g.population, |g.population|, genes)
    requires forall i :: 0 <= i < |g.fitness| ==> g.fitness[i] >= 0
    ensures next.total == Sum(g.fitness)
    ensures decision == POOL_FINALIZE <==> Stops(g, maxgen, maxFitness)
    ensures decision == POOL_FINALIZE || decision == POOL_CREATE_NEW
    ensures decision == POOL_FINALIZE ==> next == g.(total := Sum(g.fitness))
    ensures decision == POOL_CREATE_NEW ==>
      && next.(children := g.children) == g.(total := Sum(g.fitness))
      && IsGrid(next.children, |g.population|, genes)
      && forall i, j :: 0 <= i < |g.population| && 0 <= j < genes ==>
           next.children[i][j] == ChildGene(g.population, ParentOne(g.fitness, next.total, d, i), ParentTwo(g.fitness, next.total, d, i),
                                            CrossoverPoint(d, genes, i), d.mutate(i, j), d.allele(i, j), alleles, j)
  {
    var total, perfect := EvaluateOrganisms(g.fitness, maxFitness);
    next := g.(total := total);
    if perfect || g.pid > maxgen || g.pid > MAX_GENERATIONS {
      return POOL_FINALIZE, next;
    }
    var children := ProduceNextGeneration(g.population, g.fitness, total, genes, alleles, d);
    next := next.(children := children);
    return POOL_CREATE_NEW, next;
  }

  /**
   * A run of the GA's pools: generation k has pid k, and every generation
   * but the last was answered POOL_CREATE_NEW, that is, did not stop.
   */
  predicate GenerationRun(gs: seq<Generation>, maxgen: int, maxFitness: int) {
    && (forall k :: 0 <= k < |gs| ==> gs[k].pid == k)
    && (forall k :: 0 <= k < |gs| - 1 ==> !Stops(gs[k], maxgen, maxFitness))
  }

  /**
   * Whatever the fitness, a run has at most MAX_GENERATIONS + 2 pools (pids
   * 0..MAX_GENERATIONS + 1), and at most max-generations + 2 when that
   * option is at least -1.
   */
  lemma GenerationLimit(gs: seq<Generation>, maxgen: int, maxFitness: int)
    requires GenerationRun(gs, maxgen, maxFitness)
    ensures |gs| <= MAX_GENERATIONS + 2
    ensures maxgen >= -1 ==> |gs| <= maxgen + 2
  {
    if |gs| >= 2 {
      // the last generation that went on had pid |gs| - 2 and did not stop
      var k := |gs| - 2;
      assert gs[k].pid == k && !Stops(gs[k], maxgen, maxFitness);
    }
  }

  /** InitializeOrganisms(p, genes, alleles): rand() % alleles for every organism gene, then for the model. */
  function InitializeOrganisms(poolSize: nat, genes: nat, alleles: int, organismDraw: (int, int) -> int, modelDraw: int -> int)
    : (r: (Grid, seq<int>))
    requires alleles != 0
    ensures IsGrid(r.0, poolSize, genes) && |r.1| == genes
    ensures forall i, j :: 0 <= i < poolSize && 0 <= j < genes ==> r.0[i][j] == CRem(organismDraw(i, j), alleles)
    ensures forall j :: 0 <= j < genes ==> r.1[j] == CRem(modelDraw(j), alleles)
  {
    (seq(poolSize, i => seq(genes, j => CRem(organismDraw(i, j), alleles))),
     seq(genes, j => CRem(modelDraw(j), alleles)))
  }

  /** With a positive allele count and non-negative draws every initial gene and model entry is a valid allele. */
  lemma InitialAlleles(poolSize: nat, genes: nat, alleles: int, organismDraw: (int, int) -> int, modelDraw: int -> int)
    requires alleles > 0
    requires forall i, j :: organismDraw(i, j) >= 0
    requires forall j :: modelDraw(j) >= 0
    ensures var r := InitializeOrganisms(poolSize, genes, alleles, organismDraw, modelDraw);
      AllelesIn(r.0, alleles) && forall j :: 0 <= j < |r.1| ==> 0 <= r.1[j] < alleles
  {
    var r := InitializeOrganisms(poolSize, genes, alleles, organismDraw, modelDraw);
    forall i, j | 0 <= i < |r.0| && 0 <= j < |r.0[i]|
      ensures 0 <= r.0[i][j] < alleles
    {
      NonNegativeDivision(organismDraw(i, j), alleles);
    }
    forall j | 0 <= j < |r.1|
      ensures 0 <= r.1[j] < alleles
    {
      NonNegativeDivision(modelDraw(j), alleles);
    }
  }

  /**
   * PoolPrepare(all, p, s): the first pool draws a random population and
   * model; every later pool takes the previous pool's children as its
   * population and keeps its model.
   */
  function PoolPrepare(all: seq<Generation>, g: Generation, genes: nat, alleles: int,
                       organismDraw: (int, int) -> int, modelDraw: int -> int): (r: Generation)
    requires g.pid >= 0 && alleles != 0
    requires IsGrid(g.population, |g.population|, genes) && |g.model| == genes
    requires g.pid > 0 ==> g.pid - 1 < |all| && IsGrid(all[g.pid - 1].children, |g.population|, genes)
                           && |all[g.pid - 1].model| >= genes
    ensures r.(population := g.population, model := g.model) == g
    ensures g.pid == 0 ==> (r.population, r.model) == InitializeOrganisms(|g.population|, genes, alleles, organismDraw, modelDraw)
    ensures g.pid > 0 ==> r.population == all[g.pid - 1].children && r.model == all[g.pid - 1].model[..genes]
  {
    if g.pid == 0 then
      var init := InitializeOrganisms(|g.population|, genes, alleles, organismDraw, modelDraw);
      g.(population := init.0, model := init.1)
    else
      var previous := all[g.pid - 1];
      var population := seq(|g.population|, i requires 0 <= i < |g.population| => seq(genes, j requires 0 <= j < genes => previous.children[i][j]));
      var model := seq(genes, j requires 0 <= j < genes => previous.model[j]);
      assert forall i :: 0 <= i < |population| ==> population[i] == previous.children[i];
      assert model == previous.model[..genes];
      g.(population := population, model := model)
  }

  /** Prepare then breed keeps the whole population inside the alleles from one generation to the next. */
  lemma NextPopulationAlleles(all: seq<Generation>, g: Generation, genes: nat, alleles: int,
                              organismDraw: (int, int) -> int, modelDraw: int -> int)
    requires g.pid > 0 && alleles > 0
    requires IsGrid(g.population, |g.population|, genes) && |g.model| == genes
    requires g.pid - 1 < |all| && IsGrid(all[g.pid - 1].children, |g.population|, genes) && |all[g.pid - 1].model| >= genes
    requires AllelesIn(all[g.pid - 1].children, alleles)
    ensures AllelesIn(PoolPrepare(all, g, genes, alleles, organismDraw, modelDraw).population, alleles)
  {
  }
}

=== FILE: master.dfy ===
/**
 * Master(m, p) of src/modes/taskfarm/Master.c: the coordinator's loop. The
 * model is a state machine driven by the events the coordinator observes:
 * the ICE probe and the next message MPI_Recv returns. GetNewTask is an
 * oracle `pick` from the board to the next task, if any; sends are recorded
 * in an outbox, checkpoint flushes in a log.
 */
module Master {
  import opened Defs
  import opened Wrappers

  /** A board location (the three coordinates Master.c indexes board_buffer with). */
  type Loc3 = (int, int, int)

  /** A board_buffer cell: status, the node that holds the task (kept only with `stats`), checkpoint id. */
  datatype Cell = Cell(status: int, node: int, cid: int)

  /** What GetNewTask hands out. */
  datatype NewTask = NewTask(tid: int, location: Loc3, cid: int)

  /** A received message: its source rank, its header ints (HEADER_SIZE of them) and the rest. */
  datatype Msg = Msg(source: int, header: seq<int>, body: seq<int>)

  /** A message the coordinator sends. */
  datatype Send = Dispatch(node: int, task: NewTask) | Echo(node: int, msg: Msg) | Terminate(node: int)

  /** One CheckpointProcess of the staged messages under checkpoint id `cid`. */
  datatype Flush = Flush(cid: int, staged: seq<Msg>)

  datatype Phase = Running | Finished | Aborted(code: int)

  datatype MasterState = MasterState(
    board: map<Loc3, Cell>,
    completed: int,
    poolSize: int,
    cid: int,
    windowSize: int,
    staged: seq<Msg>,
    terminated: int,
    outbox: seq<Send>,
    flushes: seq<Flush>,
    phase: Phase)

  /** GetNewTask hands out only board cells that are EMPTY. */
  predicate ValidPick(pick: map<Loc3, Cell> -> Option<NewTask>, board: map<Loc3, Cell>) {
    pick(board).Some? ==> pick(board).value.location in board && board[pick(board).value.location].status == TASK_EMPTY
  }

  /** GetNewTask is valid on every board. */
  ghost predicate PickValid(pick: map<Loc3, Cell> -> Option<NewTask>) {
    forall b :: ValidPick(pick, b)
  }

  /** Header slots 3..5 name a board cell. */
  function HeaderLoc(h: seq<int>): Loc3
    requires |h| >= 7
  {
    (h[3], h[4], h[5])
  }

  /** How many TERMINATE messages rank r has been sent. */
  function TerminateCount(outbox: seq<Send>, r: int): nat {
    if outbox == [] then 0
    else TerminateCount(outbox[..|outbox| - 1], r) + (if outbox[|outbox| - 1] == Terminate(r) then 1 else 0)
  }

  lemma {:induction false} TerminateCountAppend(a: seq<Send>, b: seq<Send>, r: int)
    ensures TerminateCount(a + b, r) == TerminateCount(a, r) + TerminateCount(b, r)
    decreases |b|
  {
    if b == [] {
      assert a + b == a;
    } else {
      assert (a + b)[..|a + b| - 1] == a + b[..|b| - 1];
      TerminateCountAppend(a, b[..|b| - 1], r);
    }
  }

  /** Sending one more message adds to the count only if it terminates r. */
  lemma TerminateCountSnoc(a: seq<Send>, e: Send, r: int)
    ensures TerminateCount(a + [e], r) == TerminateCount(a, r) + (if e == Terminate(r) then 1 else 0)
  {
    assert (a + [e])[..|a|] == a;
  }

  /** 1 when lo <= r < hi, else 0: how often a rank in a range is told. */
  function Once(lo: int, hi: int, r: int): nat {
    if lo <= r < hi then 1 else 0
  }

  /** The TERMINATE messages to ranks lo..hi-1, in order. */
  function Terminates(lo: int, hi: int): (r: seq<Send>)
    decreases hi - lo
    ensures |r| == (if hi > lo then hi - lo else 0)
    ensures forall i :: 0 <= i < |r| ==> r[i] == Terminate(lo + i)
  {
    if hi <= lo then [] else [Terminate(lo)] + Terminates(lo + 1, hi)
  }

  lemma {:induction false} TerminatesCount(lo: int, hi: int, r: int)
    ensures TerminateCount(Terminates(lo, hi), r) == Once(lo, hi, r)
    decreases if hi > lo then hi - lo else 0
  {
    if lo < hi {
      var rest := Terminates(lo + 1, hi);
      assert Terminates(lo, hi) == [Terminate(lo)] + rest;
      TerminateCountAppend([Terminate(lo)], rest, r);
      assert [Terminate(lo)][..0] == [];
      assert TerminateCount([Terminate(lo)], r) == if lo == r then 1 else 0;
      TerminatesCount(lo + 1, hi, r);
    } else {
      assert Terminates(lo, hi) == [];
    }
  }

  /**
   * Dispatching a task to `node`: its cell becomes IN_USE with the task's
   * checkpoint id (and, with `stats`, the node), and the task is sent.
   */
  function SendTask(s: MasterState, node: int, t: NewTask, stats: bool): (r: MasterState)
    requires t.location in s.board
    ensures r.board == s.board[t.location := Cell(TASK_IN_USE, if stats then node else s.board[t.location].node, t.cid)]
    ensures r.outbox == s.outbox + [Dispatch(node, t)]
    ensures r.(board := s.board, outbox := s.outbox) == s
  {
    var cell := s.board[t.location];
    s.(board := s.board[t.location := Cell(TASK_IN_USE, if stats then node else cell.node, t.cid)],
       outbox := s.outbox + [Dispatch(node, t)])
  }

  /**
   * The seeding loop for ranks i..mpiSize-1: each rank gets a task while
   * GetNewTask has one, and a TERMINATE (counted in `terminated`) otherwise.
   */
  function Seed(s: MasterState, i: int, mpiSize: int, pick: map<Loc3, Cell> -> Option<NewTask>, stats: bool): (r: MasterState)
    requires PickValid(pick)
    decreases mpiSize - i
    ensures r.board.Keys == s.board.Keys
    ensures r.staged == s.staged && r.windowSize == s.windowSize && r.flushes == s.flushes && r.phase == s.phase
    ensures r.completed == s.completed && r.poolSize == s.poolSize && r.cid == s.cid
  {
    if i >= mpiSize then s
    else match pick(s.board)
      case None => Seed(s.(terminated := s.terminated + 1, outbox := s.outbox + [Terminate(i)]), i + 1, mpiSize, pick, stats)
      case Some(t) =>
        assert ValidPick(pick, s.board);
        Seed(SendTask(s, i, t, stats), i + 1, mpiSize, pick, stats)
  }

  /** Once GetNewTask has run dry it stays dry, since the board does not change: every remaining rank gets a TERMINATE. */
  lemma {:induction false} SeedDry(s: MasterState, i: int, mpiSize: int, pick: map<Loc3, Cell> -> Option<NewTask>, stats: bool)
    requires PickValid(pick)
    requires i <= mpiSize && pick(s.board).None?
    ensures Seed(s, i, mpiSize, pick, stats).outbox == s.outbox + Terminates(i, mpiSize)
    ensures Seed(s, i, mpiSize, pick, stats).terminated == s.terminated + (mpiSize - i)
    decreases mpiSize - i
  {
    if i < mpiSize {
      var next := s.(terminated := s.terminated + 1, outbox := s.outbox + [Terminate(i)]);
      assert Seed(s, i, mpiSize, pick, stats) == Seed(next, i + 1, mpiSize, pick, stats);
      SeedDry(next, i + 1, mpiSize, pick, stats);
      assert Terminates(i, mpiSize) == [Terminate(i)] + Terminates(i + 1, mpiSize);
      assert s.outbox + [Terminate(i)] + Terminates(i + 1, mpiSize) == s.outbox + Terminates(i, mpiSize);
    } else {
      assert Terminates(i, mpiSize) == [];
      assert s.outbox + [] == s.outbox;
    }
  }

  /**
   * The seeding loop dispatches to a first run of ranks and terminates the
   * rest, so the ranks told to terminate are mpiSize-terminated..mpiSize-1,
   * each once.
   */
  lemma {:induction false} SeedTerminatesSuffix(s: MasterState, i: int, mpiSize: int, pick: map<Loc3, Cell> -> Option<NewTask>, stats: bool, r: int)
    requires PickValid(pick)
    requires 1 <= i <= mpiSize && s.terminated == 0
    requires TerminateCount(s.outbox, r) == 0
    ensures var q := Seed(s, i, mpiSize, pick, stats);
      && 0 <= q.terminated <= mpiSize - 1
      && TerminateCount(q.outbox, r) == Once(mpiSize - q.terminated, mpiSize, r)
    decreases mpiSize - i
  {
    if pick(s.board).None? {
      SeedDry(s, i, mpiSize, pick, stats);
      TerminateCountAppend(s.outbox, Terminates(i, mpiSize), r);
      TerminatesCount(i, mpiSize, r);
    } else if i < mpiSize {
      var t := pick(s.board).value;
      assert ValidPick(pick, s.board);
      var next := SendTask(s, i, t, stats);
      assert Seed(s, i, mpiSize, pick, stats) == Seed(next, i + 1, mpiSize, pick, stats);
      TerminateCountSnoc(s.outbox, Dispatch(i, t), r);
      SeedTerminatesSuffix(next, i + 1, mpiSize, pick, stats, r);
    }
  }

  /** Seeding never takes a cell back out of IN_USE: GetNewTask only hands out EMPTY cells. */
  lemma {:induction false} SeedKeepsInUse(s: MasterState, i: int, mpiSize: int, pick: map<Loc3, Cell> -> Option<NewTask>, stats: bool, l: Loc3)
    requires PickValid(pick)
    requires l in s.board && s.board[l].status == TASK_IN_USE
    ensures Seed(s, i, mpiSize, pick, stats).board[l].status == TASK_IN_USE
    decreases mpiSize - i
  {
    if i < mpiSize {
      match pick(s.board)
      case None =>
        SeedKeepsInUse(s.(terminated := s.terminated + 1, outbox := s.outbox + [Terminate(i)]), i + 1, mpiSize, pick, stats, l);
      case Some(t) =>
        assert ValidPick(pick, s.board);
        SeedKeepsInUse(SendTask(s, i, t, stats), i + 1, mpiSize, pick, stats, l);
    }
  }

  /**
   * The message at position pos of q's outbox, the one seeding sent to rank
   * i + (pos - base): a TERMINATE, or a task whose cell is now IN_USE.
   */
  predicate SeedMessage(q: MasterState, base: int, i: int, pos: int)
    requires 0 <= pos < |q.outbox|
  {
    var m := q.outbox[pos];
    var rank := i + (pos - base);
    m == Terminate(rank)
    || (m.Dispatch? && m.node == rank && m.task.location in q.board && q.board[m.task.location].status == TASK_IN_USE)
  }

  /** q's outbox is s's followed by one seeding message for each rank i..mpiSize-1, in rank order. */
  predicate SeededFrom(q: MasterState, s: MasterState, i: int, mpiSize: int)
    requires i <= mpiSize
  {
    && |q.outbox| == |s.outbox| + (mpiSize - i)
    && q.outbox[..|s.outbox|] == s.outbox
    && forall pos :: |s.outbox| <= pos < |q.outbox| ==> SeedMessage(q, |s.outbox|, i, pos)
  }

  /** The seeding loop sends exactly one message to each rank i..mpiSize-1: a task (its cell marked IN_USE) or a TERMINATE. */
  lemma {:induction false} SeedOneEach(s: MasterState, i: int, mpiSize: int, pick: map<Loc3, Cell> -> Option<NewTask>, stats: bool)
    requires PickValid(pick)
    requires i <= mpiSize
    ensures SeededFrom(Seed(s, i, mpiSize, pick, stats), s, i, mpiSize)
    decreases mpiSize - i
  {
    var q := Seed(s, i, mpiSize, pick, stats);
    if i == mpiSize {
      assert q == s;
      assert s.outbox[..|s.outbox|] == s.outbox;
    } else {
      var next;
      match pick(s.board) {
        case None =>
          next := s.(terminated := s.terminated + 1, outbox := s.outbox + [Terminate(i)]);
        case Some(t) =>
          assert ValidPick(pick, s.board);
          next := SendTask(s, i, t, stats);
          SeedKeepsInUse(next, i + 1, mpiSize, pick, stats, t.location);
      }
      assert q == Seed(next, i + 1, mpiSize, pick, stats);
      SeedOneEach(next, i + 1, mpiSize, pick, stats);
      assert |next.outbox| == |s.outbox| + 1;
      assert q.outbox[..|next.outbox|] == next.outbox;
      assert q.outbox[..|s.outbox|] == next.outbox[..|s.outbox|];
      assert next.outbox[..|s.outbox|] == s.outbox;
      assert q.outbox[|s.outbox|] == next.outbox[|s.outbox|];
      forall pos | |s.outbox| <= pos < |q.outbox|
        ensures SeedMessage(q, |s.outbox|, i, pos)
      {
        if pos > |s.outbox| {
          assert SeedMessage(q, |next.outbox|, i + 1, pos);
        }
      }
    }
  }

  /** The `finalize:` loop: TERMINATE to ranks 1..mpiSize-1-terminated, then the coordinator is done. */
  function TerminateWorkers(s: MasterState, mpiSize: int): (r: MasterState)
    ensures r.outbox == s.outbox + Terminates(1, mpiSize - s.terminated) && r.phase == Finished
  {
    s.(outbox := s.outbox + Terminates(1, mpiSize - s.terminated), phase := Finished)
  }

  /**
   * The WriteData and CheckpointProcess calls of a flush, recorded as the
   * checkpoint id and the window's staged messages; what CheckpointProcess
   * does with them is Checkpoint.ProcessBanks.
   */
  function FlushWindow(s: MasterState): (r: MasterState)
    ensures r.flushes == s.flushes + [Flush(s.cid, s.staged)]
  {
    s.(flushes := s.flushes + [Flush(s.cid, s.staged)])
  }

  /**
   * The start of Master: an empty window of `windowSize` slots, then either
   * straight to the terminate loop (a restart whose pool is already
   * complete) or the seeding loop.
   */
  function Start(board: map<Loc3, Cell>, completed: int, poolSize: int, windowSize: int, mpiSize: int,
                 pick: map<Loc3, Cell> -> Option<NewTask>, stats: bool): (r: MasterState)
    requires PickValid(pick)
    ensures r.board.Keys == board.Keys && r.staged == [] && r.flushes == [] && r.cid == 0
    ensures r.windowSize == windowSize && r.completed == completed && r.poolSize == poolSize
    ensures completed == poolSize ==> r.phase == Finished && r.outbox == Terminates(1, mpiSize)
    ensures completed != poolSize ==> r.phase == Running
  {
    var s := MasterState(board, completed, poolSize, 0, windowSize, [], 0, [], [], Running);
    if completed == poolSize then TerminateWorkers(s, mpiSize)
    else Seed(s, 1, mpiSize, pick, stats)
  }

  /** The flush at the head of each iteration: when the window is full or the ICE file is present. */
  function FlushIfDue(s: MasterState, ice: bool): (r: MasterState)
    ensures (|s.staged| > s.windowSize - 1 || ice) ==>
      r == s.(flushes := s.flushes + [Flush(s.cid, s.staged)], cid := s.cid + 1, staged := [])
    ensures !(|s.staged| > s.windowSize - 1 || ice) ==> r == s
  {
    if |s.staged| > s.windowSize - 1 || ice then FlushWindow(s).(cid := s.cid + 1, staged := []) else s
  }

  /** Messages that carry a task's data into the checkpoint window. */
  predicate Stages(tag: int) {
    tag == TAG_RESULT || tag == TAG_CHECKPOINT
  }

  /**
   * Handling one received message: a RESULT completes a task; RESULT and
   * CHECKPOINT messages are staged; the board cell named in the header takes
   * the reported status and checkpoint id; a RESULT earns its sender a new
   * task when there is one, a CHECKPOINT is sent back, any other tag aborts.
   */
  function Handle(s: MasterState, msg: Msg, pick: map<Loc3, Cell> -> Option<NewTask>, stats: bool): (r: MasterState)
    requires |msg.header| >= 7 && HeaderLoc(msg.header) in s.board
    requires PickValid(pick)
    ensures r.board.Keys == s.board.Keys && r.windowSize == s.windowSize && r.flushes == s.flushes
    ensures r.terminated == s.terminated && r.poolSize == s.poolSize && r.cid == s.cid
    ensures r.completed == s.completed + (if msg.header[0] == TAG_RESULT then 1 else 0)
    ensures r.staged == s.staged + (if Stages(msg.header[0]) then [msg] else [])
    ensures !Stages(msg.header[0]) ==> r.phase == Aborted(CORE_ERR_MPI) && r.outbox == s.outbox
    ensures msg.header[0] == TAG_CHECKPOINT ==> r.phase == s.phase && r.outbox == s.outbox + [Echo(msg.source, msg)]
    ensures msg.header[0] == TAG_RESULT ==> r.phase == s.phase && |s.outbox| <= |r.outbox| <= |s.outbox| + 1
    ensures msg.header[0] == TAG_RESULT && |r.outbox| > |s.outbox| ==>
      && r.outbox == s.outbox + [r.outbox[|s.outbox|]]
      && r.outbox[|s.outbox|].Dispatch? && r.outbox[|s.outbox|].node == msg.source
      && r.outbox[|s.outbox|].task.location in s.board
      && r.board[r.outbox[|s.outbox|].task.location].status == TASK_IN_USE
    ensures var h := msg.header;
      var dispatched := if h[0] == TAG_RESULT && |r.outbox| > |s.outbox| then {r.outbox[|s.outbox|].task.location} else {};
      && (HeaderLoc(h) !in dispatched ==>
            r.board[HeaderLoc(h)] == Cell(h[2], if stats then msg.source else s.board[HeaderLoc(h)].node, h[6]))
      && forall l :: l in s.board && l != HeaderLoc(h) && l !in dispatched ==> r.board[l] == s.board[l]
  {
    var h := msg.header;
    var counted := if h[0] == TAG_RESULT then s.(completed := s.completed + 1) else s;
    var staged := if Stages(h[0]) then counted.(staged := counted.staged + [msg]) else counted;
    var cell := staged.board[HeaderLoc(h)];
    var marked := staged.(board := staged.board[HeaderLoc(h) := Cell(h[2], if stats then msg.source else cell.node, h[6])]);
    if h[0] == TAG_RESULT then
      match pick(marked.board)
      case None => marked
      case Some(t) =>
        assert ValidPick(pick, marked.board);
        SendTask(marked, msg.source, t, stats)
    else if h[0] == TAG_CHECKPOINT then marked.(outbox := marked.outbox + [Echo(msg.source, msg)])
    else marked.(phase := Aborted(CORE_ERR_MPI))
  }

  /** One event of the loop: the ICE probe and, unless it aborts, the message received. */
  datatype Event = Event(ice: bool, msg: Msg)

  /**
   * One pass of the farm loop: flush if due, abort on ICE, handle the
   * message, and when every task of the pool is complete the final flush
   * and the terminate loop.
   */
  function Iterate(s: MasterState, e: Event, mpiSize: int, pick: map<Loc3, Cell> -> Option<NewTask>, stats: bool): (r: MasterState)
    requires s.phase == Running
    requires |e.msg.header| >= 7 && HeaderLoc(e.msg.header) in s.board
    requires PickValid(pick)
    ensures r.board.Keys == s.board.Keys && r.windowSize == s.windowSize
    ensures e.ice ==> r.phase == Aborted(CORE_ICE) && r.outbox == s.outbox && r.flushes == s.flushes + [Flush(s.cid, s.staged)]
    ensures !e.ice && !Stages(e.msg.header[0]) ==> r.phase == Aborted(CORE_ERR_MPI)
    ensures !e.ice && Stages(e.msg.header[0]) ==>
      var done := s.completed + (if e.msg.header[0] == TAG_RESULT then 1 else 0);
      var f := FlushIfDue(s, false);
      && r.completed == done
      && (r.phase == Finished <==> done == s.poolSize)
      && (r.phase != Finished ==> r.phase == Running && r.flushes == f.flushes)
      && (r.phase == Finished ==> r.flushes == f.flushes + [Flush(f.cid, f.staged + [e.msg])])
  {
    var f := FlushIfDue(s, e.ice);
    if e.ice then f.(phase := Aborted(CORE_ICE))
    else
      var h := Handle(f, e.msg, pick, stats);
      if h.phase == Running && h.completed == h.poolSize then TerminateWorkers(FlushWindow(h), mpiSize) else h
  }

  /** The loop over a sequence of events, stopping once the coordinator finishes or aborts. */
  function Run(s: MasterState, events: seq<Event>, mpiSize: int, pick: map<Loc3, Cell> -> Option<NewTask>, stats: bool): (r: MasterState)
    requires forall i :: 0 <= i < |events| ==> |events[i].msg.header| >= 7 && HeaderLoc(events[i].msg.header) in s.board
    requires PickValid(pick)
    ensures r.board.Keys == s.board.Keys
    decreases |events|
  {
    if events == [] || s.phase != Running then s
    else Run(Iterate(s, events[0], mpiSize, pick, stats), events[1..], mpiSize, pick, stats)
  }

  /**
   * The loop invariant: the window never holds more than its size, every
   * flush processed at most a window's worth, and the workers told to
   * terminate are, while the loop runs, exactly the ranks seeding ran out
   * of tasks for; once finished, every worker rank 1..mpiSize-1 has been
   * told exactly once.
   */
  ghost predicate Inv(s: MasterState, mpiSize: int) {
    && s.windowSize >= 1
    && |s.staged| <= s.windowSize
    && (forall k :: 0 <= k < |s.flushes| ==> |s.flushes[k].staged| <= s.windowSize)
    && 0 <= s.terminated <= mpiSize - 1
    && (forall r :: TerminateCount(s.outbox, r) ==
          (if s.phase == Finished then Once(1, mpiSize, r) else Once(mpiSize - s.terminated, mpiSize, r)))
  }

  lemma StartEstablishes(board: map<Loc3, Cell>, completed: int, poolSize: int, windowSize: int, mpiSize: int,
                         pick: map<Loc3, Cell> -> Option<NewTask>, stats: bool)
    requires PickValid(pick)
    requires windowSize >= 1 && mpiSize >= 2
    ensures Inv(Start(board, completed, poolSize, windowSize, mpiSize, pick, stats), mpiSize)
  {
    var s := MasterState(board, completed, poolSize, 0, windowSize, [], 0, [], [], Running);
    var q := Start(board, completed, poolSize, windowSize, mpiSize, pick, stats);
    forall r: int
      ensures TerminateCount(q.outbox, r) ==
        (if q.phase == Finished then Once(1, mpiSize, r) else Once(mpiSize - q.terminated, mpiSize, r))
    {
      if completed == poolSize {
        TerminateCountAppend([], Terminates(1, mpiSize), r);
        TerminatesCount(1, mpiSize, r);
      } else {
        SeedTerminatesSuffix(s, 1, mpiSize, pick, stats, r);
      }
    }
    if completed != poolSize {
      SeedTerminatesSuffix(s, 1, mpiSize, pick, stats, 0);
    }
  }

  /**
   * A window of size <= 0, which CheckpointLoad produces for a checkpoint
   * size of -(mpi_size-1) or less: the head-of-loop test flushes on every
   * pass, and the message received next is still staged, so the window
   * (a NULL buffer) holds one record more than its size, or the final flush
   * processes one.
   */
  lemma NonPositiveWindowOverruns(s: MasterState, e: Event, mpiSize: int, pick: map<Loc3, Cell> -> Option<NewTask>, stats: bool)
    requires s.phase == Running && s.windowSize <= 0
    requires |e.msg.header| >= 7 && HeaderLoc(e.msg.header) in s.board
    requires PickValid(pick)
    requires !e.ice && Stages(e.msg.header[0])
    ensures var r := Iterate(s, e, mpiSize, pick, stats);
      && (r.phase == Running ==> r.staged == [e.msg] && |r.staged| > r.windowSize)
      && (r.phase == Finished ==> r.flushes[|r.flushes| - 1] == Flush(s.cid + 1, [e.msg]) && 1 > r.windowSize)
  {
    var f := FlushIfDue(s, false);
    assert f.staged == [] && f.cid == s.cid + 1;
  }

  /** The terminate loop completes the set of told workers: every rank 1..mpiSize-1 exactly once. */
  lemma TerminateWorkersTellsEachOnce(s: MasterState, mpiSize: int, r: int)
    requires 0 <= s.terminated <= mpiSize - 1
    requires TerminateCount(s.outbox, r) == Once(mpiSize - s.terminated, mpiSize, r)
    ensures TerminateCount(TerminateWorkers(s, mpiSize).outbox, r) == Once(1, mpiSize, r)
  {
    TerminateCountAppend(s.outbox, Terminates(1, mpiSize - s.terminated), r);
    TerminatesCount(1, mpiSize - s.terminated, r);
  }

  lemma HandleSendsNoTerminate(s: MasterState, msg: Msg, pick: map<Loc3, Cell> -> Option<NewTask>, stats: bool, r: int)
    requires |msg.header| >= 7 && HeaderLoc(msg.header) in s.board
    requires PickValid(pick)
    ensures TerminateCount(Handle(s, msg, pick, stats).outbox, r) == TerminateCount(s.outbox, r)
  {
    var q := Handle(s, msg, pick, stats);
    if q.outbox != s.outbox {
      var last := q.outbox[|q.outbox| - 1];
      assert q.outbox[..|q.outbox| - 1] == s.outbox;
      assert !last.Terminate?;
    }
  }

  /** The flush at the head of a pass keeps the invariant and leaves room for one more message unless ICE aborts. */
  lemma FlushIfDueKeeps(s: MasterState, ice: bool, mpiSize: int)
    requires s.phase == Running && Inv(s, mpiSize)
    ensures var f := FlushIfDue(s, ice);
      && Inv(f, mpiSize) && f.phase == Running && f.board == s.board
      && (|f.staged| <= f.windowSize - 1 || ice)
  {
  }

  /** Handling a message with room in the window keeps the invariant. */
  lemma HandleKeeps(f: MasterState, msg: Msg, mpiSize: int, pick: map<Loc3, Cell> -> Option<NewTask>, stats: bool)
    requires f.phase == Running && Inv(f, mpiSize) && |f.staged| <= f.windowSize - 1
    requires |msg.header| >= 7 && HeaderLoc(msg.header) in f.board
    requires PickValid(pick)
    ensures var h := Handle(f, msg, pick, stats);
      Inv(h, mpiSize) && (h.phase == Running || h.phase == Aborted(CORE_ERR_MPI))
  {
    var h := Handle(f, msg, pick, stats);
    forall r: int
      ensures TerminateCount(h.outbox, r) == TerminateCount(f.outbox, r)
    {
      HandleSendsNoTerminate(f, msg, pick, stats, r);
    }
  }

  /** The final flush and the terminate loop turn the running invariant into the finished one. */
  lemma FinishKeeps(h: MasterState, mpiSize: int)
    requires h.phase == Running && Inv(h, mpiSize)
    ensures Inv(TerminateWorkers(FlushWindow(h), mpiSize), mpiSize)
  {
    forall r: int
      ensures TerminateCount(TerminateWorkers(FlushWindow(h), mpiSize).outbox, r) == Once(1, mpiSize, r)
    {
      TerminateWorkersTellsEachOnce(FlushWindow(h), mpiSize, r);
    }
  }

  /** Every pass of the loop keeps the invariant. */
  lemma IteratePreserves(s: MasterState, e: Event, mpiSize: int, pick: map<Loc3, Cell> -> Option<NewTask>, stats: bool)
    requires s.phase == Running && Inv(s, mpiSize)
    requires |e.msg.header| >= 7 && HeaderLoc(e.msg.header) in s.board
    requires PickValid(pick)
    ensures Inv(Iterate(s, e, mpiSize, pick, stats), mpiSize)
  {
    FlushIfDueKeeps(s, e.ice, mpiSize);
    var f := FlushIfDue(s, e.ice);
    if !e.ice {
      HandleKeeps(f, e.msg, mpiSize, pick, stats);
      var h := Handle(f, e.msg, pick, stats);
      if h.phase == Running && h.completed == h.poolSize {
        FinishKeeps(h, mpiSize);
      }
    }
  }

  /**
   * Over any run: the invariant holds throughout, so staging never
   * overruns the checkpoint window and a coordinator that finishes has told
   * every worker rank to terminate exactly once.
   */
  lemma {:induction false} RunPreserves(s: MasterState, events: seq<Event>, mpiSize: int, pick: map<Loc3, Cell> -> Option<NewTask>, stats: bool)
    requires Inv(s, mpiSize)
    requires forall i :: 0 <= i < |events| ==> |events[i].msg.header| >= 7 && HeaderLoc(events[i].msg.header) in s.board
    requires PickValid(pick)
    ensures var q := Run(s, events, mpiSize, pick, stats);
      && Inv(q, mpiSize)
      && (q.phase == Finished ==> forall r :: 1 <= r < mpiSize ==> TerminateCount(q.outbox, r) == 1)
    decreases |events|
  {
    if events != [] && s.phase == Running {
      IteratePreserves(s, events[0], mpiSize, pick, stats);
      RunPreserves(Iterate(s, events[0], mpiSize, pick, stats), events[1..], mpiSize, pick, stats);
    }
  }
}

=== FILE: pool.dfy ===
/**
 * The pool lifecycle of src/core/MPool.c: PoolLoad names the pool,
 * PoolPrepare runs the module's hook on the coordinator, persists the pool
 * data and broadcasts the sync pool banks, PoolProcess asks the module
 * whether to create another pool and broadcasts the answer. Bank contents
 * are grids of numbers; MPI_Bcast is the copy from the coordinator.
 */
module Pool {
  import opened Defs
  import opened Wrappers
  import opened Decimal
  import opened Storage

  /** A bank's data. */
  type Grid = seq<seq<int>>

  /** The freshly loaded pool: id, name, and whether its HDF5 group is created (on the coordinator only). */
  datatype LoadedPool = LoadedPool(pid: int, name: string, createsGroup: bool)

  /** `sprintf(name, "pool-%04d", pid)`; a negative id keeps its sign inside the width. */
  function PoolName(pid: int): (name: string)
    ensures |name| >= 5 + 4 && name[..5] == "pool-"
  {
    "pool-" + (if pid >= 0 then ZeroPad(pid, 4) else "-" + ZeroPad(-pid, 3))
  }

  /** PoolLoad(m, pid). */
  function PoolLoad(pid: int, node: int): (p: LoadedPool)
    ensures p.pid == pid && p.name == PoolName(pid)
    ensures p.createsGroup <==> node == MASTER
  {
    LoadedPool(pid, PoolName(pid), node == MASTER)
  }

  /** The digits of a pool's name give back its id, so distinct pools get distinct groups. */
  lemma PoolNameParses(pid: int)
    requires pid >= 0
    ensures var digits := PoolName(pid)[5..];
      (forall i :: 0 <= i < |digits| ==> IsDigit(digits[i])) && Parse(digits) == pid
  {
    assert PoolName(pid)[5..] == ZeroPad(pid, 4);
    ParseZeroPad(pid, 4);
  }

  lemma PoolNamesDistinct(a: int, b: int)
    requires 0 <= a && 0 <= b && a != b
    ensures PoolName(a) != PoolName(b)
  {
    PoolNameParses(a);
    PoolNameParses(b);
  }

  /** The module's PoolPrepare hook: the status it returns and the pool banks it leaves. */
  datatype HookResult = HookResult(status: int, banks: seq<Grid>)

  /** What PoolPrepare leaves on a process: its return status and its pool banks. */
  datatype Prepared = Prepared(status: int, banks: seq<Grid>)

  /** The coordinator's banks after the hook, if the module provides one. */
  function AfterHook(banks: seq<Grid>, hook: Option<seq<Grid> -> HookResult>): seq<Grid> {
    match hook
    case None => banks
    case Some(h) => h(banks).banks
  }

  /** MPI_Bcast of every sync pool bank from the coordinator's copy into this process's. */
  function BroadcastSync(schemas: seq<Schema>, coordinator: seq<Grid>, local: seq<Grid>): (r: seq<Grid>)
    requires |coordinator| == |schemas| && |local| == |schemas|
    ensures |r| == |schemas|
    ensures forall i :: 0 <= i < |schemas| ==> r[i] == if schemas[i].sync != 0 then coordinator[i] else local[i]
  {
    seq(|schemas|, i requires 0 <= i < |schemas| => if schemas[i].sync != 0 then coordinator[i] else local[i])
  }

  /**
   * PoolPrepare(m, p) on `node`. On the coordinator the hook runs and the
   * status returned is WritePoolData's (`write`), whatever the hook
   * returned; elsewhere it is 0. Every process ends with the coordinator's
   * copy of each sync pool bank.
   */
  function PoolPrepare(node: int, schemas: seq<Schema>, coordinator: seq<Grid>, local: seq<Grid>,
                       hook: Option<seq<Grid> -> HookResult>, write: seq<Grid> -> int): (r: Prepared)
    requires |coordinator| == |schemas| && |local| == |schemas|
    requires node == MASTER ==> local == coordinator
    requires hook.Some? ==> forall b :: |b| == |schemas| ==> |hook.value(b).banks| == |schemas|
    ensures |r.banks| == |schemas|
    ensures r.status == if node == MASTER then write(AfterHook(coordinator, hook)) else 0
    ensures forall i :: 0 <= i < |schemas| && schemas[i].sync != 0 ==> r.banks[i] == AfterHook(coordinator, hook)[i]
    ensures node != MASTER ==> forall i :: 0 <= i < |schemas| && schemas[i].sync == 0 ==> r.banks[i] == local[i]
  {
    var prepared := AfterHook(coordinator, hook);
    if node == MASTER then Prepared(write(prepared), prepared)
    else Prepared(0, BroadcastSync(schemas, prepared, local))
  }

  /** After PoolPrepare any two processes hold the same sync pool banks. */
  lemma PreparedSyncAgrees(n1: int, n2: int, schemas: seq<Schema>, coordinator: seq<Grid>, local1: seq<Grid>, local2: seq<Grid>,
                           hook: Option<seq<Grid> -> HookResult>, write: seq<Grid> -> int, i: int)
    requires |coordinator| == |schemas| && |local1| == |schemas| && |local2| == |schemas|
    requires n1 == MASTER ==> local1 == coordinator
    requires n2 == MASTER ==> local2 == coordinator
    requires hook.Some? ==> forall b :: |b| == |schemas| ==> |hook.value(b).banks| == |schemas|
    requires 0 <= i < |schemas| && schemas[i].sync != 0
    ensures PoolPrepare(n1, schemas, coordinator, local1, hook, write).banks[i]
      == PoolPrepare(n2, schemas, coordinator, local2, hook, write).banks[i]
  {
  }

  /**
   * What `pool_create` holds on `node` before the broadcast: 0
   * (POOL_FINALIZE) unless this is the coordinator and the module provides a
   * PoolProcess hook, whose answer it then is.
   */
  function LocalDecision(node: int, hook: Option<int>): int {
    if node == MASTER && hook.Some? then hook.value else POOL_FINALIZE
  }

  /** MPI_Bcast of one int from MASTER: the coordinator keeps its value, every other process takes the coordinator's. */
  function Bcast(node: int, mine: int, root: int): int {
    if node == MASTER then mine else root
  }

  /**
   * PoolProcess(m, p) on `node`, where `hooks(n)` is what the module's hook
   * would answer on process n (None when it has none). Each process starts
   * from its own LocalDecision and the broadcast overwrites it, so every
   * process returns the coordinator's answer, or POOL_FINALIZE when the
   * coordinator has no hook, whatever the hooks elsewhere would say.
   */
  function PoolProcess(node: int, hooks: int -> Option<int>): (decision: int)
    ensures hooks(MASTER).None? ==> decision == POOL_FINALIZE
    ensures hooks(MASTER).Some? ==> decision == hooks(MASTER).value
  {
    Bcast(node, LocalDecision(node, hooks(node)), LocalDecision(MASTER, hooks(MASTER)))
  }

  /**
   * Every process takes the same decision, and it depends only on the
   * coordinator's hook.
   */
  lemma PoolProcessAgrees(n1: int, n2: int, hooks1: int -> Option<int>, hooks2: int -> Option<int>)
    requires hooks1(MASTER) == hooks2(MASTER)
    ensures PoolProcess(n1, hooks1) == PoolProcess(n2, hooks2)
  {
    if n1 == MASTER {
      assert PoolProcess(n1, hooks1) == LocalDecision(MASTER, hooks1(MASTER));
    }
    if n2 == MASTER {
      assert PoolProcess(n2, hooks2) == LocalDecision(MASTER, hooks2(MASTER));
    }
  }
}

=== FILE: public.dfy ===
/**
 * The array helpers of src/core/MPublic.c: the element count of a shape and
 * the row layout of a freshly allocated two-level buffer.
 */
module Public {
  import opened Wrappers

  /** The product of every entry of s: the reference for GetSize. */
  function Product(s: seq<int>): int {
    if |s| == 0 then 1 else Product(s[..|s| - 1]) * s[|s| - 1]
  }

  /** GetSize's loop from index i on, with `size` the product accumulated so far. */
  function Accumulate(size: int, rank: int, dims: seq<int>, i: nat): int
    requires rank <= |dims|
    decreases rank - i
  {
    if i >= rank then size else Accumulate(size * dims[i], rank, dims, i + 1)
  }

  /**
   * GetSize(rank, dims): starts from dims[0] and multiplies in dims[1..rank-1].
   * dims[0] is read whatever the rank, so dims must hold at least one entry.
   */
  function GetSize(rank: int, dims: seq<int>): int
    requires 1 <= |dims| && rank <= |dims|
  {
    Accumulate(dims[0], rank, dims, 1)
  }

  lemma {:induction false} AccumulateIsProduct(rank: int, dims: seq<int>, i: nat)
    requires 1 <= i <= rank <= |dims|
    ensures Accumulate(Product(dims[..i]), rank, dims, i) == Product(dims[..rank])
    decreases rank - i
  {
    if i < rank {
      assert dims[..i + 1][..i] == dims[..i];
      AccumulateIsProduct(rank, dims, i + 1);
    }
  }

  /** GetSize is the product of the first `rank` dims, and just dims[0] when rank <= 1. */
  lemma GetSizeIsProduct(rank: int, dims: seq<int>)
    requires 1 <= |dims| && rank <= |dims|
    ensures rank >= 1 ==> GetSize(rank, dims) == Product(dims[..rank])
    ensures rank <= 1 ==> GetSize(rank, dims) == dims[0]
  {
    if rank >= 1 {
      assert dims[..1][..0] == [];
      AccumulateIsProduct(rank, dims, 1);
    }
  }

  lemma {:induction false} ProductPositive(s: seq<int>)
    requires forall j :: 0 <= j < |s| ==> s[j] > 0
    ensures Product(s) > 0
  {
    if |s| > 0 {
      ProductPositive(s[..|s| - 1]);
    }
  }

  /** A shape whose used dims are all positive has a positive element count. */
  lemma GetSizePositive(rank: int, dims: seq<int>)
    requires 1 <= |dims| && rank <= |dims|
    requires dims[0] > 0
    requires forall j :: 0 <= j < rank ==> dims[j] > 0
    ensures GetSize(rank, dims) > 0
  {
    GetSizeIsProduct(rank, dims);
    if rank >= 1 {
      ProductPositive(dims[..rank]);
    }
  }

  /** For a rank-2 shape GetSize is dims[0] * dims[1]. */
  lemma GetSizeRankTwo(dims: seq<int>)
    requires |dims| >= 2
    ensures GetSize(2, dims) == dims[0] * dims[1]
  {
  }

  /**
   * A two-level buffer as AllocateBuffer builds it: one zeroed block of
   * `size` elements and a row table whose entry i is the flat offset of row i.
   */
  datatype RowBuffer = RowBuffer(block: seq<int>, rows: seq<int>)

  /**
   * AllocateBuffer(rank, dims). NULL (None) when the element count is not
   * positive; also when dims[0] is negative, since the row table's calloc is
   * then asked for a negative count converted to a huge size_t and fails.
   * The buffer is zero-filled (calloc) and row i starts at i * dims[1].
   */
  function AllocateBuffer(rank: int, dims: seq<int>): (r: Option<RowBuffer>)
    requires 2 <= |dims| && rank <= |dims|
    ensures r.None? <==> GetSize(rank, dims) <= 0 || dims[0] <= 0
    ensures r.Some? ==> |r.value.block| == GetSize(rank, dims)
    ensures r.Some? ==> forall k :: 0 <= k < |r.value.block| ==> r.value.block[k] == 0
    ensures r.Some? ==> |r.value.rows| == dims[0]
  {
    var size := GetSize(rank, dims);
    if size <= 0 || dims[0] <= 0 then None
    else Some(RowBuffer(seq(size, _ => 0), seq(dims[0], i => i * dims[1])))
  }

  /** k / b stays below a when k < a * b. */
  lemma QuotientBelow(k: int, a: int, b: int)
    requires 0 <= k < a * b && b > 0
    ensures 0 <= k / b < a
  {
    var q := k / b;
    assert q * b <= k;
    CancelFactor(q, a, b);
  }

  /** Cancelling a positive factor keeps a strict inequality. */
  lemma CancelFactor(x: int, y: int, b: int)
    requires b > 0 && x * b < y * b
    ensures x < y
  {
    if x >= y {
      MultiplyMonotone(y, x, b);
    }
  }

  lemma MultiplyMonotone(x: int, y: int, b: int)
    requires x <= y && b >= 0
    ensures x * b <= y * b
  {
  }

  /**
   * For rank 2 the rows of AllocateBuffer are disjoint, each `dims[1]` wide,
   * and together cover the block [0, size) exactly.
   */
  lemma RowsPartitionBlock(dims: seq<int>)
    requires |dims| >= 2 && dims[0] > 0 && dims[1] > 0
    ensures AllocateBuffer(2, dims).Some?
    ensures var b := AllocateBuffer(2, dims).value;
      && (forall i :: 0 <= i < |b.rows| ==> 0 <= b.rows[i] && b.rows[i] + dims[1] <= |b.block|)
      && (forall i, j :: 0 <= i < j < |b.rows| ==> b.rows[i] + dims[1] <= b.rows[j])
      && (forall k :: 0 <= k < |b.block| ==> b.rows[k / dims[1]] <= k < b.rows[k / dims[1]] + dims[1])
  {
    GetSizePositive(2, dims);
    var b := AllocateBuffer(2, dims).value;
    assert |b.block| == dims[0] * dims[1];
    RowStartsPartition(b.rows, |b.block|, dims[0], dims[1]);
  }

  /** Row starts i * d1 for i < d0 tile the block [0, d0 * d1). */
  lemma RowStartsPartition(rows: seq<int>, size: int, d0: int, d1: int)
    requires d0 > 0 && d1 > 0 && size == d0 * d1 && |rows| == d0
    requires forall i :: 0 <= i < |rows| ==> rows[i] == i * d1
    ensures forall i :: 0 <= i < |rows| ==> 0 <= rows[i] && rows[i] + d1 <= size
    ensures forall i, j :: 0 <= i < j < |rows| ==> rows[i] + d1 <= rows[j]
    ensures forall k :: 0 <= k < size ==> 0 <= k / d1 < |rows| && rows[k / d1] <= k < rows[k / d1] + d1
  {
    forall i | 0 <= i < |rows|
      ensures 0 <= rows[i] && rows[i] + d1 <= size
    {
      MultiplyMonotone(i + 1, d0, d1);
    }
    forall i, j | 0 <= i < j < |rows|
      ensures rows[i] + d1 <= rows[j]
    {
      MultiplyMonotone(i + 1, j, d1);
    }
    forall k | 0 <= k < size
      ensures 0 <= k / d1 < |rows|
      ensures rows[k / d1] <= k < rows[k / d1] + d1
    {
      QuotientBelow(k, d0, d1);
    }
  }
}

=== FILE: restart.dfy ===
/**
 * Restart(m, pools, pool_counter) of src/core/MRestart.c: after the layouts
 * of pools 0..last are rebuilt, the coordinator reads back each pool's board
 * and persisted banks, and then every process takes part in broadcasting
 * each pool's sync banks. The model is the sequence of data operations a
 * process performs; HDF5 and MPI themselves are not modelled.
 */
module Restart {
  import opened Defs
  import opened Storage

  /** The per-bank operations of the restart. */
  datatype Kind = PoolBankRead | TaskBankRead | PoolBankBroadcast

  datatype Action =
    | ReadBoard(pool: int)
    | BankOp(kind: Kind, pool: int, bank: int)

  /** One pool's rebuilt layout: its pool banks and its task banks. */
  datatype Layout = Layout(poolBanks: seq<Schema>, taskBanks: seq<Schema>)

  predicate Ranked(banks: seq<Schema>) {
    forall j :: 0 <= j < |banks| ==> banks[j].rank <= MAX_RANK
  }

  predicate LayoutsRanked(layouts: seq<Layout>) {
    forall i :: 0 <= i < |layouts| ==> Ranked(layouts[i].poolBanks) && Ranked(layouts[i].taskBanks)
  }

  /**
   * Which banks an operation applies to: a pool bank is read back when it
   * has elements and is persisted; a task bank also needs a shared policy
   * (BASIC task banks are not restored); a pool bank is broadcast when it is
   * sync and has elements.
   */
  predicate Wants(kind: Kind, s: Schema)
    requires s.rank <= MAX_RANK
  {
    match kind
    case PoolBankRead => Elements(s) > 0 && s.useHdf
    case TaskBankRead => Elements(s) > 0 && s.useHdf && IsSharedPolicy(s.storageType)
    case PoolBankBroadcast => s.sync != 0 && Elements(s) > 0
  }

  /** The inner loop over banks 0..n-1 of one pool for one kind of operation. */
  function Select(kind: Kind, pool: int, banks: seq<Schema>, n: nat): (r: seq<Action>)
    requires n <= |banks| && Ranked(banks)
    ensures forall k :: 0 <= k < |r| ==>
      r[k].BankOp? && r[k].kind == kind && r[k].pool == pool && 0 <= r[k].bank < n && Wants(kind, banks[r[k].bank])
    ensures forall j :: 0 <= j < n && Wants(kind, banks[j]) ==> BankOp(kind, pool, j) in r
    ensures forall k, k' :: 0 <= k < k' < |r| ==> r[k].bank < r[k'].bank
  {
    if n == 0 then []
    else
      var before := Select(kind, pool, banks, n - 1);
      if Wants(kind, banks[n - 1]) then before + [BankOp(kind, pool, n - 1)] else before
  }


  /** The reads step (C) makes for `pool`: its board, its wanted pool banks, its wanted task banks. */
  predicate ReadOf(a: Action, pool: int, l: Layout)
    requires Ranked(l.poolBanks) && Ranked(l.taskBanks)
  {
    a.pool == pool &&
    match a
    case ReadBoard(_) => true
    case BankOp(kind, _, j) =>
      match kind
      case PoolBankRead => 0 <= j < |l.poolBanks| && Wants(PoolBankRead, l.poolBanks[j])
      case TaskBankRead => 0 <= j < |l.taskBanks| && Wants(TaskBankRead, l.taskBanks[j])
      case PoolBankBroadcast => false
  }

  /** A read of one of pools 0..n-1. */
  predicate MasterRead(a: Action, layouts: seq<Layout>, n: nat)
    requires n <= |layouts| && LayoutsRanked(layouts)
  {
    0 <= a.pool < n && ReadOf(a, a.pool, layouts[a.pool])
  }

  /** Step (C) on the coordinator for one pool: its board, then its pool banks, then its task banks. */
  function PoolReads(pool: int, l: Layout): (r: seq<Action>)
    requires Ranked(l.poolBanks) && Ranked(l.taskBanks)
    ensures forall a :: a in r <==> ReadOf(a, pool, l)
  {
    var pools := Select(PoolBankRead, pool, l.poolBanks, |l.poolBanks|);
    var tasks := Select(TaskBankRead, pool, l.taskBanks, |l.taskBanks|);
    var r := [ReadBoard(pool)] + pools + tasks;
    assert forall a :: a in r <==> a == ReadBoard(pool) || a in pools || a in tasks;
    r
  }

  /** Step (C) on the coordinator for pools 0..n-1, pool by pool. */
  function MasterReads(layouts: seq<Layout>, n: nat): (r: seq<Action>)
    requires n <= |layouts| && LayoutsRanked(layouts)
    ensures forall a :: a in r <==> MasterRead(a, layouts, n)
  {
    if n == 0 then []
    else
      var before := MasterReads(layouts, n - 1);
      var current := PoolReads(n - 1, layouts[n - 1]);
      assert forall a :: a in before + current <==> a in before || a in current;
      before + current
  }

  predicate IsBroadcast(a: Action) {
    a.BankOp? && a.kind == PoolBankBroadcast
  }

  /** A broadcast of a wanted pool bank of one of pools 0..n-1. */
  predicate BroadcastOf(a: Action, layouts: seq<Layout>, n: nat)
    requires n <= |layouts| && LayoutsRanked(layouts)
  {
    IsBroadcast(a) && 0 <= a.pool < n && 0 <= a.bank < |layouts[a.pool].poolBanks|
    && Wants(PoolBankBroadcast, layouts[a.pool].poolBanks[a.bank])
  }

  /** The broadcast loop for pools 0..n-1, run by every process. */
  function Broadcasts(layouts: seq<Layout>, n: nat): (r: seq<Action>)
    requires n <= |layouts| && LayoutsRanked(layouts)
    ensures forall k :: 0 <= k < |r| ==> IsBroadcast(r[k])
    ensures forall a :: a in r <==> BroadcastOf(a, layouts, n)
  {
    if n == 0 then []
    else
      var l := layouts[n - 1];
      var before := Broadcasts(layouts, n - 1);
      var current := Select(PoolBankBroadcast, n - 1, l.poolBanks, |l.poolBanks|);
      assert forall a :: a in before + current <==> a in before || a in current;
      before + current
  }

  /** The data operations of Restart on `node` for pools 0..last. */
  function RestartPlan(node: int, last: int, layouts: seq<Layout>): seq<Action>
    requires last < |layouts| && LayoutsRanked(layouts)
  {
    if last < 0 then []
    else (if node == MASTER then MasterReads(layouts, last + 1) else []) + Broadcasts(layouts, last + 1)
  }

  /**
   * What Restart does: the coordinator, and only it, reads every pool's
   * board, its persisted non-empty pool banks and its persisted non-empty
   * shared-policy task banks; every process broadcasts every non-empty sync
   * pool bank; all reads come before the first broadcast.
   */
  lemma RestartPlanContents(node: int, last: int, layouts: seq<Layout>)
    requires last < |layouts| && LayoutsRanked(layouts)
    ensures last >= 0 ==> var plan := RestartPlan(node, last, layouts);
      forall a :: a in plan <==> (node == MASTER && MasterRead(a, layouts, last + 1)) || BroadcastOf(a, layouts, last + 1)
    ensures last < 0 ==> RestartPlan(node, last, layouts) == []
    ensures var plan := RestartPlan(node, last, layouts);
      forall x, y :: 0 <= x < |plan| && 0 <= y < |plan| && IsBroadcast(plan[y]) && !IsBroadcast(plan[x]) ==> x < y
  {
    if last >= 0 {
      var fetched := if node == MASTER then MasterReads(layouts, last + 1) else [];
      var broadcast := Broadcasts(layouts, last + 1);
      var plan := fetched + broadcast;
      assert RestartPlan(node, last, layouts) == plan;
      assert forall a :: a in plan <==> a in fetched || a in broadcast;
      forall x | |fetched| <= x < |plan|
        ensures IsBroadcast(plan[x])
      {
        assert plan[x] == broadcast[x - |fetched|];
      }
      forall y | 0 <= y < |fetched|
        ensures !IsBroadcast(plan[y])
      {
        assert plan[y] == fetched[y] && plan[y] in fetched;
      }
    }
  }
}

=== FILE: storage.dfy ===
/**
 * The storage-layout engine of src/core/MStorage.c: validation and
 * normalisation of bank schemas (CheckLayout), the used-bank count
 * (GetBanks), the mapping-policy shape rule shared by dataset creation and
 * the master's task-bank buffers, the Storage() stage that ties them
 * together, and the write mode CommitData picks per bank.
 */
module Storage {
  import opened Wrappers
  import opened Defs
  import Public

  /** A shape or an offset: always MAX_RANK entries, as in `int dim[MAX_RANK]`. */
  type Dims = d: seq<int> | |d| == 2 witness [0, 0]

  /** The HDF5 dataspace class of a bank; only H5S_SIMPLE is distinguished. */
  datatype Dataspace = Simple | OtherSpace(code: int)

  /**
   * A bank layout (`schema`, with the computed fields of later API
   * generations). `datatype` is the HDF5 type handle, missing when <= 0;
   * `path` is None for a NULL path.
   */
  datatype Schema = Schema(
    path: Option<string>,
    rank: int,
    dim: Dims,
    useHdf: bool,
    sync: int,
    storageType: int,
    dataspace: Dataspace,
    typeHandle: int,
    elements: int,
    datatypeSize: int,
    size: int,
    offset: Dims)

  /** The reason CheckLayout stops the run (Error(CORE_ERR_STORAGE)). */
  datatype StorageError =
    | RankTooSmall
    | RankTooLarge
    | BadDimension(index: int, value: int)
    | MissingDatatype
    | MissingStorageType
    | MissingPath

  /** The element count of a schema's own shape. */
  function Elements(s: Schema): int
    requires s.rank <= MAX_RANK
  {
    Public.GetSize(s.rank, s.dim)
  }

  /** The first used dimension j >= from that is not positive. */
  function FirstBadDim(dim: Dims, rank: int, from: nat): (r: Option<int>)
    requires rank <= 2
    decreases rank - from
    ensures r.None? <==> forall j :: from <= j < rank ==> dim[j] > 0
    ensures r.Some? ==> from <= r.value < rank && dim[r.value] <= 0
    ensures r.Some? ==> forall j :: from <= j < r.value ==> dim[j] > 0
  {
    if from >= rank then None
    else if dim[from] <= 0 then Some(from)
    else FirstBadDim(dim, rank, from + 1)
  }

  /** Everything CheckLayout demands of one bank. */
  predicate Valid(s: Schema) {
    && 1 < s.rank <= MAX_RANK
    && (forall j :: 0 <= j < s.rank ==> s.dim[j] > 0)
    && s.typeHandle > 0
    && s.storageType >= 0
    && (s.useHdf ==> s.path.Some?)
  }

  /**
   * CheckLayout's loop body for one bank: the checks in source order, then
   * for a use_hdf bank the fix-ups (SIMPLE dataspace, zero offsets, sync
   * forced to 1), then the computed counts. `sizeOf` stands for
   * H5Tget_size.
   */
  function CheckBank(s: Schema, sizeOf: int -> int): (r: Result<Schema, StorageError>)
    ensures r.Success? <==> Valid(s)
    ensures s.rank <= 1 ==> r == Failure(RankTooSmall)
    ensures s.rank > MAX_RANK ==> r == Failure(RankTooLarge)
    ensures r.Success? ==>
      var c := r.value;
      && c.path == s.path && c.rank == s.rank && c.dim == s.dim && c.useHdf == s.useHdf
      && c.storageType == s.storageType && c.typeHandle == s.typeHandle
      && c.elements == Public.GetSize(s.rank, s.dim) && c.elements > 0
      && c.datatypeSize == sizeOf(s.typeHandle)
      && c.size == c.elements * c.datatypeSize
      && (s.useHdf ==> c.dataspace == Simple && c.offset == [0, 0] && c.sync == 1)
      && (!s.useHdf ==> c.dataspace == s.dataspace && c.offset == s.offset && c.sync == s.sync)
  {
    if s.rank <= 1 then Failure(RankTooSmall)
    else if s.rank > MAX_RANK then Failure(RankTooLarge)
    else
      var bad := FirstBadDim(s.dim, s.rank, 0);
      if bad.Some? then Failure(BadDimension(bad.value, s.dim[bad.value]))
      else if s.typeHandle <= 0 then Failure(MissingDatatype)
      else if s.storageType < 0 then Failure(MissingStorageType)
      else if s.useHdf && s.path.None? then Failure(MissingPath)
      else
        Public.GetSizePositive(s.rank, s.dim);
        var fixed := if s.useHdf then s.(dataspace := Simple, offset := [0, 0], sync := 1) else s;
        var elements := Public.GetSize(s.rank, s.dim);
        var width := sizeOf(s.typeHandle);
        Success(fixed.(elements := elements, datatypeSize := width, size := elements * width))
  }

  /** Re-checking a checked bank gives the same bank back. */
  lemma CheckBankIdempotent(s: Schema, sizeOf: int -> int)
    requires CheckBank(s, sizeOf).Success?
    ensures CheckBank(CheckBank(s, sizeOf).value, sizeOf) == CheckBank(s, sizeOf)
  {
  }

  /** The index of the first bank below `banks`, from `from` on, that fails CheckBank. */
  function FirstInvalid(s: seq<Schema>, banks: int, from: nat): (r: Option<nat>)
    requires banks <= |s|
    decreases banks - from
    ensures r.None? <==> forall i :: from <= i < banks ==> Valid(s[i])
    ensures r.Some? ==> from <= r.value < banks && !Valid(s[r.value])
    ensures r.Some? ==> forall i :: from <= i < r.value ==> Valid(s[i])
  {
    if from >= banks then None
    else if !Valid(s[from]) then Some(from)
    else FirstInvalid(s, banks, from + 1)
  }

  /** The checked versions of s[from..banks-1], or the error of the first bank that fails. */
  function CheckBanks(s: seq<Schema>, banks: int, from: nat, sizeOf: int -> int): (r: Result<seq<Schema>, StorageError>)
    requires banks <= |s|
    decreases banks - from
    ensures r.Success? <==> FirstInvalid(s, banks, from).None?
    ensures r.Success? ==> |r.value| == (if from < banks then banks - from else 0)
    ensures r.Success? ==> forall i :: from <= i < banks ==> CheckBank(s[i], sizeOf) == Success(r.value[i - from])
    ensures r.Failure? ==> CheckBank(s[FirstInvalid(s, banks, from).value], sizeOf) == Failure(r.error)
  {
    if from >= banks then Success([])
    else
      match CheckBank(s[from], sizeOf)
      case Failure(e) => Failure(e)
      case Success(c) =>
        var rest := CheckBanks(s, banks, from + 1, sizeOf);
        if rest.Failure? then Failure(rest.error) else Success([c] + rest.value)
  }

  /**
   * CheckLayout(banks, s): checks and fixes s[0..banks-1] in order; the first
   * failing bank stops the run with its error; entries at or past `banks`
   * are not looked at.
   */
  function CheckLayout(banks: int, s: seq<Schema>, sizeOf: int -> int): (r: Result<seq<Schema>, StorageError>)
    requires banks <= |s|
    ensures r.Success? <==> forall i :: 0 <= i < banks ==> Valid(s[i])
    ensures r.Success? ==> |r.value| == |s|
    ensures r.Success? ==> forall i :: 0 <= i < banks ==> CheckBank(s[i], sizeOf) == Success(r.value[i])
    ensures r.Success? ==> forall i :: banks <= i < |s| && 0 <= i ==> r.value[i] == s[i]
    ensures r.Failure? ==>
      var bad := FirstInvalid(s, banks, 0).value;
      && 0 <= bad < banks && !Valid(s[bad])
      && (forall k :: 0 <= k < bad ==> Valid(s[k]))
      && CheckBank(s[bad], sizeOf) == Failure(r.error)
  {
    if banks <= 0 then Success(s)
    else
      var checked :- CheckBanks(s, banks, 0, sizeOf);
      Success(checked + s[banks..])
  }

  /** CheckLayout is idempotent: re-checking its output yields identical layouts. */
  lemma CheckLayoutIdempotent(banks: int, s: seq<Schema>, sizeOf: int -> int)
    requires banks <= |s|
    requires CheckLayout(banks, s, sizeOf).Success?
    ensures CheckLayout(banks, CheckLayout(banks, s, sizeOf).value, sizeOf) == CheckLayout(banks, s, sizeOf)
  {
    var once := CheckLayout(banks, s, sizeOf).value;
    forall i | 0 <= i < banks
      ensures Valid(once[i]) && CheckBank(once[i], sizeOf) == Success(once[i])
    {
      CheckBankIdempotent(s[i], sizeOf);
    }
    var twice := CheckLayout(banks, once, sizeOf).value;
    assert twice == once;
  }

  /** The banks below `allocatedBanks` whose rank is positive. */
  function UsedBelow(s: seq<Schema>, n: int): set<int> {
    set i | 0 <= i < n && 0 <= i < |s| && s[i].rank > 0
  }

  /** The used-bank count as the set size: the reference for GetBanks. */
  function BanksInUse(allocatedBanks: int, s: seq<Schema>): int {
    |UsedBelow(s, allocatedBanks)|
  }

  /** GetBanks(allocated_banks, s): counts the banks with rank > 0 among the allocatedBanks ones. */
  method GetBanks(allocatedBanks: int, s: seq<Schema>) returns (inUse: int)
    requires allocatedBanks <= |s|
    ensures inUse == BanksInUse(allocatedBanks, s)
    ensures 0 <= inUse && (allocatedBanks >= 0 ==> inUse <= allocatedBanks) && (allocatedBanks < 0 ==> inUse == 0)
  {
    inUse := 0;
    var i := 0;
    while i < allocatedBanks
      invariant 0 <= i <= (if allocatedBanks < 0 then 0 else allocatedBanks)
      invariant 0 <= inUse <= i
      invariant inUse == |UsedBelow(s, i)|
    {
      if s[i].rank > 0 {
        assert UsedBelow(s, i + 1) == UsedBelow(s, i) + {i};
        inUse := inUse + 1;
      } else {
        assert UsedBelow(s, i + 1) == UsedBelow(s, i);
      }
      i := i + 1;
    }
    if allocatedBanks < 0 {
      assert UsedBelow(s, i) == {};
      assert UsedBelow(s, allocatedBanks) == {};
    }
  }

  /**
   * The mapping-policy rule for the pool-wide extent of a bank, used both by
   * CreateDataset and by the master's task-bank allocation in Storage():
   * GROUP keeps its dims, PM3D and LIST stack pool_size copies along dim 0,
   * BOARD tiles the board. Other policies have no pool-wide extent.
   */
  function PoolShape(s: Schema, poolSize: int, board: Dims): Option<Dims> {
    if s.storageType == STORAGE_GROUP then Some(s.dim)
    else if s.storageType == STORAGE_PM3D || s.storageType == STORAGE_LIST then Some([s.dim[0] * poolSize, s.dim[1]])
    else if s.storageType == STORAGE_BOARD then Some([s.dim[0] * board[0], s.dim[1] * board[1]])
    else None
  }

  /**
   * The extent CreateDataset gives a dataset: only a SIMPLE dataspace gets
   * one. For a policy outside GROUP/PM3D/LIST/BOARD the source passes
   * uninitialised dims; that case is None here.
   */
  function DatasetExtent(s: Schema, poolSize: int, board: Dims): (r: Option<Dims>)
    ensures s.dataspace != Simple ==> r.None?
    ensures s.dataspace == Simple && s.storageType == STORAGE_GROUP ==> r == Some(s.dim)
    ensures s.dataspace == Simple && (s.storageType == STORAGE_PM3D || s.storageType == STORAGE_LIST) ==>
      r == Some([s.dim[0] * poolSize, s.dim[1]])
    ensures s.dataspace == Simple && s.storageType == STORAGE_BOARD ==> r == Some([s.dim[0] * board[0], s.dim[1] * board[1]])
    ensures s.storageType != STORAGE_GROUP && !IsSharedPolicy(s.storageType) ==> r.None?
  {
    if s.dataspace == Simple then PoolShape(s, poolSize, board) else None
  }

  /**
   * The element count the master allocates for a task bank in Storage():
   * PM3D/LIST and BOARD banks get a pool-wide buffer, other banks none.
   */
  function MasterAllocation(s: Schema, poolSize: int, board: Dims): Option<int>
    requires s.rank <= MAX_RANK
  {
    if s.storageType == STORAGE_PM3D || s.storageType == STORAGE_LIST then
      Some(Public.GetSize(s.rank, [s.dim[0] * poolSize, s.dim[1]]))
    else if s.storageType == STORAGE_BOARD then
      Some(Public.GetSize(s.rank, [s.dim[0] * board[0], s.dim[1] * board[1]]))
    else None
  }

  /**
   * Dataset creation and master allocation follow one rule: for a shared
   * policy the master buffer holds exactly the elements of the dataset
   * extent; PM3D/LIST scale dim 0 by pool_size, BOARD scales both dims by
   * the board's, and every other dim is the bank's own.
   */
  lemma ShapeRuleShared(s: Schema, poolSize: int, board: Dims)
    requires s.rank == MAX_RANK && IsSharedPolicy(s.storageType)
    ensures PoolShape(s, poolSize, board).Some?
    ensures MasterAllocation(s, poolSize, board) == Some(Public.GetSize(s.rank, PoolShape(s, poolSize, board).value))
    ensures s.dataspace == Simple ==> DatasetExtent(s, poolSize, board) == PoolShape(s, poolSize, board)
    ensures var shape := PoolShape(s, poolSize, board).value;
      && (s.storageType != STORAGE_BOARD ==> shape[0] == s.dim[0] * poolSize && shape[1] == s.dim[1])
      && (s.storageType == STORAGE_BOARD ==> shape[0] == s.dim[0] * board[0] && shape[1] == s.dim[1] * board[1])
    ensures Public.GetSize(s.rank, PoolShape(s, poolSize, board).value) ==
      PoolShape(s, poolSize, board).value[0] * PoolShape(s, poolSize, board).value[1]
  {
  }

  /** A pool as the module's Storage() hook declares it (before the core's checks). */
  datatype PoolLayout = PoolLayout(board: Schema, poolBanks: seq<Schema>, taskBanks: seq<Schema>)

  /**
   * A pool after the core's Storage() stage: the board cell count, the used
   * bank counts, the checked schemas, and on the master the element count of
   * each task bank's pool-wide buffer (None where none is allocatedBanks).
   */
  datatype StoredPool = StoredPool(
    poolSize: int,
    poolBankCount: int,
    taskBankCount: int,
    board: Schema,
    poolBanks: seq<Schema>,
    taskBanks: seq<Schema>,
    masterBuffers: seq<Option<int>>,
    materializeTasks: bool)

  /** A bank forced to the GROUP policy (pool banks have no other). */
  function ForceGroup(banks: seq<Schema>, n: int): seq<Schema> {
    seq(|banks|, i requires 0 <= i < |banks| => if i < n then banks[i].(storageType := STORAGE_GROUP) else banks[i])
  }

  /** True when some used task bank has the GROUP policy (p->tasks is then materialised). */
  predicate HasGroupBank(banks: seq<Schema>, n: int)
    requires n <= |banks|
  {
    exists i :: 0 <= i < n && banks[i].storageType == STORAGE_GROUP
  }

  /** The master zeroes the offsets of the used task banks. */
  function ZeroOffsets(banks: seq<Schema>, n: int): seq<Schema> {
    seq(|banks|, i requires 0 <= i < |banks| => if i < n then banks[i].(offset := [0, 0]) else banks[i])
  }

  /** The master's pool-wide buffer for each used task bank. */
  function TaskBuffers(banks: seq<Schema>, n: nat, poolSize: int, board: Dims): seq<Option<int>>
    requires n <= |banks| && forall i :: 0 <= i < n ==> banks[i].rank <= MAX_RANK
  {
    seq(n, i requires 0 <= i < n => MasterAllocation(banks[i], poolSize, board))
  }

  /** Every bank below n passes CheckLayout. */
  predicate PrefixValid(banks: seq<Schema>, n: int)
    requires n <= |banks|
  {
    forall i :: 0 <= i < n ==> Valid(banks[i])
  }

  /** The pool record Storage() leaves behind, from the checked schemas. */
  function Assemble(poolSize: int, poolCount: int, taskCount: nat, board: Schema,
                    poolBanks: seq<Schema>, taskBanks: seq<Schema>, isMaster: bool): (q: StoredPool)
    requires taskCount <= |taskBanks| && board.rank <= MAX_RANK
    requires forall i :: 0 <= i < taskCount ==> taskBanks[i].rank <= MAX_RANK
    ensures q.poolSize == poolSize && q.poolBankCount == poolCount && q.taskBankCount == taskCount
    ensures q.board == board && |q.poolBanks| == |poolBanks| && |q.taskBanks| == |taskBanks|
    ensures forall i :: 0 <= i < poolCount && i < |poolBanks| ==> q.poolBanks[i] == poolBanks[i].(storageType := STORAGE_GROUP)
    ensures forall i :: 0 <= i < taskCount ==>
      q.taskBanks[i] == (if isMaster then taskBanks[i].(offset := [0, 0]) else taskBanks[i])
    ensures isMaster ==> |q.masterBuffers| == taskCount
    ensures isMaster ==> forall i :: 0 <= i < taskCount ==>
      q.masterBuffers[i] == MasterAllocation(q.taskBanks[i], poolSize, board.dim)
    ensures !isMaster ==> q.masterBuffers == [] && !q.materializeTasks
  {
    var grouped := ForceGroup(poolBanks, poolCount);
    if !isMaster then
      StoredPool(poolSize, poolCount, taskCount, board, grouped, taskBanks, [], false)
    else
      var zeroed := ZeroOffsets(taskBanks, taskCount);
      StoredPool(poolSize, poolCount, taskCount, board, grouped, zeroed,
        TaskBuffers(zeroed, taskCount, poolSize, board.dim), HasGroupBank(taskBanks, taskCount))
  }

  /**
   * Storage(m, p) after the user hooks have declared the layout: pool_size
   * from the board, the used bank counts, CheckLayout of the board, the pool
   * banks (then forced to GROUP) and the task banks; on the master, the
   * pool-wide task buffers and zeroed task offsets. The source computes
   * pool_size before it checks the board; here the board is checked first,
   * so a board of rank above MAX_RANK fails with RankTooLarge without its
   * dims being read past their end (see AsWrittenPoolSizeReadsPastDims).
   */
  function StoragePool(p: PoolLayout, banksPerPool: int, banksPerTask: int, sizeOf: int -> int, isMaster: bool): (r: Result<StoredPool, StorageError>)
    requires banksPerPool <= |p.poolBanks| && banksPerTask <= |p.taskBanks|
    ensures BanksInUse(banksPerPool, p.poolBanks) <= |p.poolBanks|
    ensures BanksInUse(banksPerTask, p.taskBanks) <= |p.taskBanks|
    ensures r.Success? <==>
      && Valid(p.board)
      && PrefixValid(p.poolBanks, BanksInUse(banksPerPool, p.poolBanks))
      && PrefixValid(p.taskBanks, BanksInUse(banksPerTask, p.taskBanks))
    ensures !Valid(p.board) ==> r == Failure(CheckBank(p.board, sizeOf).error)
    ensures r.Success? ==> StoredFrom(p, banksPerPool, banksPerTask, sizeOf, isMaster, r.value)
  {
    BanksInUseBound(banksPerPool, p.poolBanks);
    BanksInUseBound(banksPerTask, p.taskBanks);
    var poolCount := BanksInUse(banksPerPool, p.poolBanks);
    var taskCount := BanksInUse(banksPerTask, p.taskBanks);
    match CheckLayout(1, [p.board], sizeOf)
    case Failure(e) => Failure(e)
    case Success(board) =>
      var poolSize := Public.GetSize(p.board.rank, p.board.dim);
      match CheckLayout(poolCount, p.poolBanks, sizeOf)
      case Failure(e) => Failure(e)
      case Success(poolBanks) =>
        match CheckLayout(taskCount, p.taskBanks, sizeOf)
        case Failure(e) => Failure(e)
        case Success(taskBanks) =>
          AssembledStored(p, banksPerPool, banksPerTask, sizeOf, isMaster);
          Success(Assemble(poolSize, poolCount, taskCount, board[0], poolBanks, taskBanks, isMaster))
  }

  /** GetSize(rank, dim) reads dim[i]: dims[0] always, then dims[1..rank-1]. */
  predicate GetSizeReads(rank: int, i: int) {
    i == 0 || 1 <= i < rank
  }

  /**
   * As written, Storage() runs GetSize on the board (MStorage.c:33) before
   * CheckLayout rejects a rank above MAX_RANK (MStorage.c:40, 124-127): with
   * such a rank GetSize reads board dims past the end of `dim[MAX_RANK]`.
   */
  lemma AsWrittenPoolSizeReadsPastDims(board: Schema)
    requires board.rank > MAX_RANK
    ensures GetSizeReads(board.rank, MAX_RANK) && MAX_RANK >= |board.dim|
    ensures CheckBank(board, x => x) == Failure(RankTooLarge)
  {
  }

  /**
   * What Storage() promises of the pool it leaves: pool_size from the board
   * (positive), the used bank counts, the checked board, each used pool bank
   * its checked form forced to GROUP, each used task bank its checked form
   * (with zeroed offsets on the master), every bank past the used counts as
   * declared, and on the master one pool-wide buffer per task bank and the
   * task table exactly when some task bank is GROUP.
   */
  predicate StoredFrom(p: PoolLayout, banksPerPool: int, banksPerTask: int, sizeOf: int -> int, isMaster: bool, q: StoredPool)
    requires banksPerPool <= |p.poolBanks| && banksPerTask <= |p.taskBanks|
  {
    && CheckBank(p.board, sizeOf) == Success(q.board)
    && q.poolSize == Public.GetSize(p.board.rank, p.board.dim) && q.poolSize > 0
    && q.poolBankCount == BanksInUse(banksPerPool, p.poolBanks)
    && q.taskBankCount == BanksInUse(banksPerTask, p.taskBanks)
    && |q.poolBanks| == |p.poolBanks| && |q.taskBanks| == |p.taskBanks|
    && 0 <= q.poolBankCount <= |q.poolBanks| && 0 <= q.taskBankCount <= |q.taskBanks|
    && (forall i :: 0 <= i < q.poolBankCount ==>
          CheckBank(p.poolBanks[i], sizeOf).Success? && q.poolBanks[i] == CheckBank(p.poolBanks[i], sizeOf).value.(storageType := STORAGE_GROUP))
    && (forall i :: q.poolBankCount <= i < |q.poolBanks| ==> q.poolBanks[i] == p.poolBanks[i])
    && (forall i :: 0 <= i < q.taskBankCount ==>
          CheckBank(p.taskBanks[i], sizeOf).Success? && q.taskBanks[i] ==
            (if isMaster then CheckBank(p.taskBanks[i], sizeOf).value.(offset := [0, 0]) else CheckBank(p.taskBanks[i], sizeOf).value))
    && (forall i :: q.taskBankCount <= i < |q.taskBanks| ==> q.taskBanks[i] == p.taskBanks[i])
    && (forall i :: 0 <= i < q.taskBankCount ==> q.taskBanks[i].rank == MAX_RANK)
    && (isMaster ==> |q.masterBuffers| == q.taskBankCount)
    && (isMaster ==> forall i :: 0 <= i < q.taskBankCount ==>
          q.masterBuffers[i] == MasterAllocation(q.taskBanks[i], q.poolSize, q.board.dim))
    && (isMaster ==> (q.materializeTasks <==> HasGroupBank(p.taskBanks, q.taskBankCount)))
    && (!isMaster ==> q.masterBuffers == [] && !q.materializeTasks)
  }

  /** The checked layouts assemble into a pool meeting StoredFrom. */
  lemma AssembledStored(p: PoolLayout, banksPerPool: int, banksPerTask: int, sizeOf: int -> int, isMaster: bool)
    requires banksPerPool <= |p.poolBanks| && banksPerTask <= |p.taskBanks|
    requires BanksInUse(banksPerPool, p.poolBanks) <= |p.poolBanks|
    requires 0 <= BanksInUse(banksPerTask, p.taskBanks) <= |p.taskBanks|
    requires CheckLayout(1, [p.board], sizeOf).Success?
    requires CheckLayout(BanksInUse(banksPerPool, p.poolBanks), p.poolBanks, sizeOf).Success?
    requires CheckLayout(BanksInUse(banksPerTask, p.taskBanks), p.taskBanks, sizeOf).Success?
    ensures
      var taskCount := BanksInUse(banksPerTask, p.taskBanks);
      var taskBanks := CheckLayout(taskCount, p.taskBanks, sizeOf).value;
      && Valid(p.board)
      && (forall i :: 0 <= i < taskCount ==> taskBanks[i].rank <= MAX_RANK)
      && CheckLayout(1, [p.board], sizeOf).value[0].rank <= MAX_RANK
      && StoredFrom(p, banksPerPool, banksPerTask, sizeOf, isMaster,
           Assemble(Public.GetSize(p.board.rank, p.board.dim), BanksInUse(banksPerPool, p.poolBanks), taskCount,
             CheckLayout(1, [p.board], sizeOf).value[0], CheckLayout(BanksInUse(banksPerPool, p.poolBanks), p.poolBanks, sizeOf).value,
             taskBanks, isMaster))
  {
    assert Valid([p.board][0]);
    Public.GetSizePositive(p.board.rank, p.board.dim);
    CheckedShape(BanksInUse(banksPerTask, p.taskBanks), p.taskBanks, sizeOf);
    var taskCount := BanksInUse(banksPerTask, p.taskBanks);
    var taskBanks := CheckLayout(taskCount, p.taskBanks, sizeOf).value;
    forall i | 0 <= i < taskCount
      ensures taskBanks[i].storageType == STORAGE_GROUP <==> p.taskBanks[i].storageType == STORAGE_GROUP
    {
    }
  }

  /** A checked bank keeps its policy and dims and has rank MAX_RANK (CheckLayout admits no other). */
  lemma CheckedShape(n: int, s: seq<Schema>, sizeOf: int -> int)
    requires n <= |s| && CheckLayout(n, s, sizeOf).Success?
    ensures var c := CheckLayout(n, s, sizeOf).value;
      forall i :: 0 <= i < n ==> c[i].storageType == s[i].storageType && c[i].dim == s[i].dim && c[i].rank == MAX_RANK
  {
    var c := CheckLayout(n, s, sizeOf).value;
    forall i | 0 <= i < n
      ensures c[i].storageType == s[i].storageType && c[i].dim == s[i].dim && c[i].rank == MAX_RANK
    {
      assert CheckBank(s[i], sizeOf) == Success(c[i]);
    }
  }

  lemma BanksInUseBound(allocatedBanks: int, s: seq<Schema>)
    requires allocatedBanks <= |s|
    ensures 0 <= BanksInUse(allocatedBanks, s) <= |s|
    ensures allocatedBanks >= 0 ==> BanksInUse(allocatedBanks, s) <= allocatedBanks
  {
    if allocatedBanks <= 0 {
      assert UsedBelow(s, allocatedBanks) == {};
    } else {
      UsedBelowSize(s, allocatedBanks);
    }
  }

  lemma {:induction false} UsedBelowSize(s: seq<Schema>, n: nat)
    ensures |UsedBelow(s, n)| <= n
  {
    if n == 0 {
      assert UsedBelow(s, n) == {};
    } else {
      UsedBelowSize(s, n - 1);
      assert UsedBelow(s, n) <= UsedBelow(s, n - 1) + {n - 1};
      SubsetSize(UsedBelow(s, n), UsedBelow(s, n - 1) + {n - 1});
    }
  }

  lemma SubsetSize<T>(a: set<T>, b: set<T>)
    requires a <= b
    ensures |a| <= |b|
  {
    assert b == a + (b - a);
  }

  /** How CommitData writes one bank. */
  datatype WriteMode =
    | WholeDataset
    | Hyperslab(dims: Dims, offsets: Dims)

  datatype Write = Write(bank: nat, mode: WriteMode)

  /** CommitData writes a bank only when it is persisted and its byte size is positive. */
  predicate Committed(s: Schema) {
    s.useHdf && s.size > 0
  }

  /** A GROUP bank is written whole, any other as a hyperslab of its own dims at its offset. */
  function ModeFor(s: Schema): WriteMode {
    if s.storageType == STORAGE_GROUP then WholeDataset else Hyperslab(s.dim, s.offset)
  }

  /** The banks a write plan touches. */
  function Touched(r: seq<Write>): set<nat> {
    set k | 0 <= k < |r| :: r[k].bank
  }

  lemma TouchedCons(w: Write, rest: seq<Write>)
    ensures Touched([w] + rest) == {w.bank} + Touched(rest)
  {
    var r := [w] + rest;
    assert r[0] == w;
    forall x | x in Touched(rest)
      ensures x in Touched(r)
    {
      var k :| 0 <= k < |rest| && rest[k].bank == x;
      assert r[k + 1].bank == x;
    }
  }

  /**
   * CommitData(h5location, banks, s): the writes it issues, in bank order.
   * HDF5 itself is not modelled; only which bank goes out how.
   */
  function CommitData(banks: int, s: seq<Schema>, from: nat): (r: seq<Write>)
    requires banks <= |s|
    decreases |s| - from
    ensures forall k :: 0 <= k < |r| ==>
      (from <= r[k].bank < banks && Committed(s[r[k].bank]) && r[k].mode == ModeFor(s[r[k].bank]))
    ensures forall k, k' :: 0 <= k < k' < |r| ==> r[k].bank < r[k'].bank
    ensures Touched(r) == set i: nat | from <= i < banks && Committed(s[i])
  {
    if from >= banks then []
    else
      var rest := CommitData(banks, s, from + 1);
      if Committed(s[from]) then
        var r := [Write(from, ModeFor(s[from]))] + rest;
        TouchedCons(Write(from, ModeFor(s[from])), rest);
        r
      else rest
  }
}

=== FILE: worker.dfy ===
/**
 * Worker(m, p) of src/modes/taskfarm/Worker.c: receive a message from the
 * coordinator, unpack it, stop on TERMINATE, otherwise run the module's
 * TaskPrepare and TaskProcess hooks, mark the task FINISHED and pack it back
 * as a RESULT into the same buffer. The hooks are one function parameter.
 */
module Worker {
  import opened Defs
  import opened CInt
  import opened Storage
  import opened Codec

  /** What the worker does with one message: stop, or reply with the packed buffer. */
  datatype Step = Stop(task: Task) | Reply(buffer: seq<byte>, task: Task)

  /** A task whose header fields are C ints and whose memory matches the bank layout. */
  predicate Sendable(t: Task, banks: seq<Schema>)
    requires Sized(banks)
  {
    IsInt32(t.tid) && IsInt32(t.status) && IsInt32(t.location.0) && IsInt32(t.location.1) && Fitted(t, banks)
  }

  /** The module hooks keep a task sendable. */
  ghost predicate HookKeepsShape(hook: Task -> Task, banks: seq<Schema>)
    requires Sized(banks)
  {
    forall t :: Sendable(t, banks) ==> Sendable(hook(t), banks)
  }

  /**
   * One pass of the worker loop on the received buffer. `rest` is the
   * uninitialised part of Pack's header array.
   */
  function WorkerStep(buffer: seq<byte>, headerSize: nat, banks: seq<Schema>, t: Task, hook: Task -> Task, rest: seq<int>): (r: Step)
    requires headerSize >= 5 && |rest| == headerSize - 5 && forall i :: 0 <= i < |rest| ==> IsInt32(rest[i])
    requires Sized(banks) && Fitted(t, banks) && MessageBytes(headerSize, banks) <= |buffer|
    requires HookKeepsShape(hook, banks)
    ensures var got := Unpack(buffer, headerSize, banks, t, false, []);
      && (got.tag == TAG_TERMINATE <==> r.Stop?)
      && (r.Stop? ==> r.task == got.task)
      && (r.Reply? ==> r.task == hook(got.task).(status := TASK_FINISHED) && |r.buffer| == |buffer|)
    ensures Fitted(r.task, banks)
  {
    var got := Unpack(buffer, headerSize, banks, t, false, []);
    UnpackedFits(buffer, headerSize, banks, t);
    if got.tag == TAG_TERMINATE then Stop(got.task)
    else
      assert Sendable(got.task, banks);
      var processed := hook(got.task);
      var done := processed.(status := TASK_FINISHED);
      Reply(Pack(buffer, headerSize, banks, done, TAG_RESULT, rest, false, []).buffer, done)
  }

  /**
   * What the coordinator reads back from a reply: a RESULT for the task as
   * the worker left it (status FINISHED, see WorkerStep), with its bank
   * bytes in every sync bank.
   */
  lemma ReplyDecodes(buffer: seq<byte>, headerSize: nat, banks: seq<Schema>, t: Task, hook: Task -> Task, rest: seq<int>,
                     coordinator: Task)
    requires headerSize >= 5 && |rest| == headerSize - 5 && forall i :: 0 <= i < |rest| ==> IsInt32(rest[i])
    requires Sized(banks) && Fitted(t, banks) && Fitted(coordinator, banks) && MessageBytes(headerSize, banks) <= |buffer|
    requires HookKeepsShape(hook, banks)
    ensures var r := WorkerStep(buffer, headerSize, banks, t, hook, rest);
      r.Reply? ==>
        && |r.task.memory| == |banks| && |r.buffer| == |buffer|
        && var back := Unpack(r.buffer, headerSize, banks, coordinator, false, []);
        && back.tag == TAG_RESULT && back.task.status == TASK_FINISHED
        && back.task.tid == r.task.tid && back.task.location == r.task.location
        && forall i :: 0 <= i < |banks| && banks[i].sync != 0 ==> back.task.memory[i] == r.task.memory[i]
  {
    var r := WorkerStep(buffer, headerSize, banks, t, hook, rest);
    var got := Unpack(buffer, headerSize, banks, t, false, []);
    if r.Reply? {
    UnpackedFits(buffer, headerSize, banks, t);
    assert Sendable(got.task, banks);
    assert Sendable(hook(got.task), banks);
    var done := r.task;
    assert r.buffer == Pack(buffer, headerSize, banks, done, TAG_RESULT, rest, false, []).buffer;
    UnpackPack(buffer, headerSize, banks, done, TAG_RESULT, rest, coordinator);
    }
  }

  /**
   * The worker loop over the messages it receives in turn: it replies to
   * each until the first TERMINATE and then stops; the result lists the
   * replies sent.
   */
  function WorkerRun(inbox: seq<seq<byte>>, headerSize: nat, banks: seq<Schema>, t: Task, hook: Task -> Task, rest: seq<int>): (replies: seq<seq<byte>>)
    requires headerSize >= 5 && |rest| == headerSize - 5 && forall i :: 0 <= i < |rest| ==> IsInt32(rest[i])
    requires Sized(banks) && Fitted(t, banks) && HookKeepsShape(hook, banks)
    requires forall k :: 0 <= k < |inbox| ==> MessageBytes(headerSize, banks) <= |inbox[k]|
    ensures |replies| <= |inbox|
    ensures forall k :: 0 <= k < |replies| ==> |replies[k]| == |inbox[k]|
    decreases |inbox|
  {
    if inbox == [] then []
    else match WorkerStep(inbox[0], headerSize, banks, t, hook, rest)
      case Stop(_) => []
      case Reply(out, next) =>
        var later := WorkerRun(inbox[1..], headerSize, banks, next, hook, rest);
        assert forall k :: 0 <= k < |later| ==> |later[k]| == |inbox[k + 1]|;
        [out] + later
  }

  /** The tag a message carries in header slot 0. */
  function TagOf(buffer: seq<byte>, headerSize: nat): int
    requires 4 * headerSize <= |buffer| && headerSize >= 1
  {
    DecodeInts(buffer[..4 * headerSize], headerSize)[0]
  }

  /** The worker sends exactly one reply per message before the first TERMINATE, and none after it. */
  lemma {:induction false} RepliesUntilTerminate(inbox: seq<seq<byte>>, headerSize: nat, banks: seq<Schema>, t: Task, hook: Task -> Task, rest: seq<int>, n: nat)
    requires headerSize >= 5 && |rest| == headerSize - 5 && forall i :: 0 <= i < |rest| ==> IsInt32(rest[i])
    requires Sized(banks) && Fitted(t, banks) && HookKeepsShape(hook, banks)
    requires forall k :: 0 <= k < |inbox| ==> MessageBytes(headerSize, banks) <= |inbox[k]|
    requires n <= |inbox|
    requires forall k :: 0 <= k < n ==> 4 * headerSize <= |inbox[k]| && TagOf(inbox[k], headerSize) != TAG_TERMINATE
    requires n < |inbox| ==> 4 * headerSize <= |inbox[n]| && TagOf(inbox[n], headerSize) == TAG_TERMINATE
    ensures |WorkerRun(inbox, headerSize, banks, t, hook, rest)| == n
    decreases |inbox|
  {
    if inbox != [] {
      var step := WorkerStep(inbox[0], headerSize, banks, t, hook, rest);
      if n > 0 {
        RepliesUntilTerminate(inbox[1..], headerSize, banks, step.task, hook, rest, n - 1);
      }
    }
  }
}

=== FILE: wrappers.dfy ===
/** Failure-carrying datatypes shared by every module of the model. */
module Wrappers {

  /** A value that may be absent: a NULL pointer, "no more tasks". */
  datatype Option<+T> = None | Some(value: T)

  /** Either a value or the error the source reports with Error()/Abort(). */
  datatype Result<+R, +E> = Success(value: R) | Failure(error: E) {
    predicate IsFailure() {
      Failure?
    }

    function PropagateFailure<U>(): Result<U, E>
      requires Failure?
    {
      Failure(error)
    }

    function Extract(): R
      requires Success?
    {
      value
    }
  }
}
